=== FILE: README.md ===
# hy structural codec — a Dafny model

hy stores a Go value as a tree of files. A struct is written to a file of
its own, holding its untagged fields. Each field tagged with an `hy` path
becomes a child file or directory. A map tagged as a directory gets one
entry per key, named by the marshalled key. Reading walks the same tree
back.

This project models the core of that codec:

- the `hy` tag grammar and the per-field policy built from it together
  with the field's `json` tag (`tag.go`, `fieldinfo.go`);
- the path contexts for analysis, writing and reading (`context.go`,
  `readcontext.go`, and `WriteContext` as its test pins it);
- the `FileTargets` accumulator that refuses a second target at the same
  path (`filetargets_test.go`);
- the `Val` value handle (`val.go`);
- the codec's node analysis (`codec.go`, `struct.go`, `map.go`, `dir.go`,
  `file.go`), with a registry that reserves an identity before it recurses;
- the write and read walks over struct and map nodes (`struct.go`,
  `map.go`);
- the older analysis of `analyse.go`, with its cache keyed by type and
  path (module `LegacyAnalysis`).

Go's reflection is replaced by a finite type description: `Types.Type`
ranges over scalars, named structs, maps, slices and pointers, and a
`Universe` lists the fields of every struct. Values are the datatype
`Values.Value`.

The analysis keeps its nodes in an arena, `seq<Node>`. The registry is a
`map<NodeID, nat>` owned by a `Codec` object. The analysis terminates on
self-referential types such as `StructB.FileSubStruct *StructB`. Its
decreasing measure is the set of node identities in the finite universe
that are not yet registered.

The write walk is specified by `Writes.Emit`, the multiset of targets one
node writes. It is a multiset, not a sequence, because Go visits children
and map entries in map order. `Writes.WriteNode` is proved to add exactly
those targets, or to stop at a path that is already taken.

The read walk is specified by `Reads.Read` over an abstract file system.
`Reads.ReadNode` is proved to succeed exactly when that specification
yields a value, and to return that value.

## Model

| member | source | states |
|---|---|---|
| Tags.ParseTag | tag.go:17-50 | The empty string, and only it, parses to "no tag". More than three comma-separated segments give "too many commas". A first segment of "-" gives the ignore tag. Otherwise the path comes from the first segment, and the key and set-key are the second and third segments verbatim. A path error names the path segment. |
| Tags.ParsePathName | tag.go:52-60 | Corrected path-name rule, following the tag_test.go table. It fails exactly when the segment begins with "/" followed by more text. A trailing "/" sets IsDir and is stripped. "" and "/" give the automatic name ".". |
| Tags.TooManyCommasIffThreeCommas | tag.go:32-34 | Parsing reports "too many commas" exactly when the tag holds three or more commas. |
| Tags.TrailingCommaIgnored | tag_test.go:12-16 | Adding a trailing empty segment does not change the parse result. |
| Tags.IgnoreWhateverFollows | tag.go:35-37 | "-" as the first segment gives Ignore, whatever follows it. |
| Tags.FormatParseRoundTrip | tag.go:17-50 | Every well-formed tag, written back as a tag string, parses to itself. |
| Tags.PathSegmentRoundTrip | tag.go:52-60 | A well-formed path name, with "/" appended for a directory, parses back to the same name and directory flag. |
| Tags.EmptyTagIsNone | tag_test.go:6-8 | "" parses to the "no tag" value. |
| Tags.DashWithEmptySegmentsIsIgnore | tag_test.go:9-11 | "-,," parses to the ignore tag. |
| Tags.PathWithEmptySegments | tag_test.go:12-14 | "mypath,," parses to the path "mypath" with an empty key and set-key. |
| Tags.PathKeyAndSetKey | tag_test.go:18-20 | "mypath,MyID,SetMyID()" parses to all three parts. |
| Tags.AutoDirectory | tag_test.go:21-23 | "./" and "/" both give the path "." with IsDir set. |
| Tags.EmptyPathSegmentIsAutoName | tag_test.go:24-26 | "." and "," both give the path "." with IsDir clear. |
| Tags.NamedDirectoryWithKey | tag_test.go:30-32 | "mypath/,MyID," gives the directory "mypath" with the key "MyID". |
| Tags.FourSegmentsAreTooMany | tag_test.go:53 | "mypath,key,setkey," is the "too many commas" error. |
| Tags.LeadingSlashIsInvalid | tag_test.go:54 | "/mypath," is an invalid path name, "must not begin with /". |
| Tags.ParsePathNameAsWritten | tag.go:52-60 | As written, only the input "//" is changed, to "/". |
| Tags.ParsePathNameAsWrittenKeepsSlash | tag.go:53 | As written, "mypath/" keeps its slash. The corrected rule gives the directory "mypath". |
| Tags.ParseThree | tag.go:21-49 | For three comma-free segments: "-" ignores; otherwise the first segment is the path, the second the key and the third the set-key, or an invalid path is reported. |
| Tags.ParseFour | tag.go:32-34 | Four comma-free segments are always "too many commas". |
| FieldInfos.ParseJSONTagOptions | fieldinfo.go:113-118 | The name part has no comma. With a comma, name + "," + options rebuilds the tag. Without one, the options are empty. |
| FieldInfos.Contains | fieldinfo.go:123-140 | The loop finds optionName exactly when it is one of the comma-separated options. Empty options contain nothing. |
| FieldInfos.ContainsMeansListed | fieldinfo.go:123-140 | Empty options contain nothing. A non-empty name is contained exactly when it is one of the comma-split pieces. |
| FieldInfos.ParseJSONTag | fieldinfo.go:150-171 | The name is the part before the first comma. Ignore holds iff the tag is "-". OmitEmpty holds iff "omitempty" is an option. String holds iff "string" is an option and the field's type is quotable. |
| FieldInfos.NewFieldInfo | fieldinfo.go:39-103 | It fails exactly when the hy tag does not parse, with the wrapped tag error. Name, type and tag are copied. An aggregated field has no hy tag and is not ignored. Any other non-ignored field carries the tag's path policy. |
| FieldInfos.IgnoredFieldIsBare | fieldinfo.go:52-55 | An ignored field has the "-" hy tag, or no hy tag and json "-". Every other flag is false. |
| FieldInfos.UntaggedFieldIsAggregated | fieldinfo.go:57-66 | With no hy tag and no json "-": IsField is set. FieldName is the json name, otherwise AutoFieldName is set. OmitEmpty and IsString come from the json tag. |
| FieldInfos.PathTagIgnoresJSON | fieldinfo.go:69-83 | A field with an hy path tag has the same FieldInfo whatever its json tag, and is not IsField. |
| FieldInfos.PathNamePolicy | fieldinfo.go:69-75 | PathName "." sets AutoPathName and leaves PathName empty. Any other path is copied, and IsDir comes from the tag. |
| FieldInfos.KeyPolicy | fieldinfo.go:76-83 | A key ending in "()" becomes GetKeyName without the parentheses, otherwise KeyField. A set-key ending in "()" becomes SetKeyName without them, otherwise it is dropped. |
| Contexts.Push | context.go:28-34 | The parent is the receiver. Tag and FieldName are the arguments. The other string fields are empty. |
| Contexts.PathSegments | context.go:37-42 | For clean field names, the path is clean and its segments are the non-empty field names from the root down. |
| Contexts.FooBarBat | context_test.go:5-13 | Pushing Foo, Bar and Bat onto an empty context gives "Foo/Bar/Bat". |
| Contexts.PushWriteExtendsPath | writecontext_test.go:5-13 | Pushing a clean segment onto a write context adds exactly that segment to its path. |
| Contexts.FooBarBatWrite | writecontext_test.go:5-13 | foo, bar and bat pushed onto an empty write context give "foo/bar/bat". |
| Paths.JoinSegments | context.go:41 | path.Join of two clean paths is clean, and its segments are the two lists of segments concatenated. |
| ReadContexts.Push | readcontext.go:39-47 | The parent is the receiver and the path name is the argument. The extension and unmarshal function are kept. The prefix is not copied. |
| ReadContexts.PathUnderPrefix | readcontext.go:50-55 | The path's segments are the root prefix's segments followed by every path name from the root down, so the prefix reaches every descendant. |
| ReadContexts.FilePath | readcontext.go:58-60 | The file path is the path, then ".", then the extension. |
| ReadContexts.ListedNames | readcontext.go:72-77 | A name is listed exactly when some non-directory entry is called name + "." + ext. |
| ReadContexts.ListFiles | readcontext.go:63-80 | A missing directory gives an empty list and no error. An unreadable one gives "read dir failed". Otherwise the result is sorted and is a permutation of the matching entry names with the suffix removed. |
| ReadContexts.ReadFile | readcontext.go:83-89 | It reads FilePath(). An absent file gives no error and empty data. An unreadable file gives an error naming the path. |
| ReadContexts.ReadFileIgnoresName | readcontext.go:83-84 | The name argument does not affect the result. |
| Strings.Sort | readcontext.go:78 | The result is sorted and a permutation of the input. |
| Strings.JoinSplit | tag.go:22 | Joining the comma-split pieces with commas gives back the string. |
| FileTargetSets.AddTargetsSucceeds | filetargets_test.go:10-53 | Adding succeeds exactly when the new paths are distinct and not yet present. The collection then holds the old and new targets, and its size is the sum. |
| FileTargetSets.AddTargetsFails | filetargets_test.go:47-52 | A failure names a path of the added targets that was present already or repeated earlier in the batch. |
| FileTargetSets.FileTargets.Add | filetargets_test.go:13-16 | The new contents and the error are those of adding the targets in order. |
| FileTargetSets.FileTargets.AddAll | filetargets_test.go:44 | It succeeds exactly when the two path sets are disjoint, and the result is their union. A failure names a shared path. Nothing already present is lost. |
| FileTargetSets.NewFileTargets | filetargets_test.go:19-25 | A fresh collection holding the targets, or the first duplicate. |
| FileTargetSets.MakeAndAdd | filetargets_test.go:11-18 | Adding "a" and "b" to a fresh collection gives no error and Len 2. |
| FileTargetSets.NewThree | filetargets_test.go:19-25 | "c", "d" and "e" give no error and Len 3. |
| FileTargetSets.AddAllFive | filetargets_test.go:26-46 | AddAll of the two collections gives Len 5. |
| FileTargetSets.DuplicateRefused | filetargets_test.go:47-52 | "a" twice is the error duplicate file target "a". |
| Vals.Final | val.go:18-23 | With IsPtr, the pointer to the pointee. Otherwise, the pointee. |
| Vals.KeyedAlwaysWritten | val.go:31-33 | A keyed handle is always written. |
| Vals.UnkeyedWrittenIffNonZero | val.go:25-33 | An unkeyed handle is written exactly when its pointer is not nil and its pointee is valid and differs from the zero value. |
| Vals.SetField | val.go:35-37 | Requires a non-nil pointer to a struct that has the field, and a valid final value, where reflect would panic otherwise. The named field becomes the argument's final value. The field names and every other field are unchanged. |
| Vals.GetField | val.go:39-41 | Requires a struct pointee, where reflect would panic otherwise. The result is the named field, or an invalid value for a name the struct lacks. |
| Vals.SetMapElement | val.go:43-45 | Requires a non-nil map and a keyed argument, where SetMapIndex would panic otherwise. A valid final value is stored under its key and the keys grow by that key only. An invalid one deletes the key, as SetMapIndex does with a zero Value. Every other entry is unchanged. |
| Vals.MapElements | val.go:47-54 | Requires a non-nil pointer. One keyed handle per map entry. There are as many handles as entries, with distinct keys, each handling its entry. |
| Vals.SliceElements | val.go:60-67 | Requires a non-nil pointer to a slice, nil or not, where `Len` would panic otherwise. Len handles keyed 0 to Len-1 in order, each a fresh zero-valued element. |
| Vals.AppendAsWritten | val.go:56-58 | Requires a non-nil pointer to a slice and a valid final value, where reflect.Append would panic otherwise. As written, the pointee is left unchanged. |
| Vals.Append | val.go:56-58 | Requires a non-nil pointer to a slice and a valid final value, where reflect.Append would panic otherwise. Corrected: the pointee slice grows by the argument's final value and stays a slice. |
| Vals.AppendAsWrittenLosesElement | val.go:56-58 | Run with a valid element on two handles on equal slices (nil or not), AppendAsWritten leaves its slice as it was, while Append's slice holds the element at the end. The results differ, so the as-written version loses the element. |
| Values.WithField | val.go:35-37 | Only the named field changes. The struct keeps its field names. |
| Types.NewNodeID | id.go:11-12 | One pointer level moves into IsPtr, and only one: the analyse_test.go tables expect IsPtr for &StructA and "cannot analyse kind ptr" for a pointer to a pointer. The parent type and field name are kept. |
| Types.TypeScopeClosed | codec.go:41-66 | The finite set of types reachable from the root is closed under subterms and struct field types. |
| Nodes.NewFileNodeID | file.go:11-25 | ParentType is the parent, and Type is the field's declared type. IsPtr holds iff that type is a pointer. FieldName is the field's name. |
| Nodes.FileNodeIDAgreesOffPointers | file.go:16-21 | That identity equals the general NodeID rule exactly when the field is not a pointer. |
| Nodes.KeyCodecFor | map.go:37-56 | String keys are printed with Sprint and parsed back. A TextMarshaler key type is printed with MarshalText, overriding the string rule. Any other key type gets no printer. |
| Nodes.StringKeyRoundTrip | map.go:38-46 | For a string key type, the printed key parses back to the same key. |
| Nodes.TextMarshalerOverrides | map.go:47-56 | A TextMarshaler key is printed by its MarshalText. |
| Nodes.FixedPathName | context.go:13-15 | The field's path name, or the field's name for the automatic name ".". A node without a field has none. |
| Nodes.StructChildPathIgnoresKey | struct.go:57-60 | A struct's child path name is the child's fixed path name, whatever the key. |
| Nodes.MapChildPathIsKey | map.go:64-66 | A map's child path name is the printed key, whatever the child. Distinct string keys give distinct names. |
| Codecs.DispatchByKind | codec.go:47-64 | Structs become struct nodes. Directory maps become map nodes and directory slices slice nodes. Leaves and everything else become file nodes. |
| Codecs.Codec.Register | codec.go:42-45 | A registered identity returns its slot, with nothing changed. A new one gets a fresh Unset slot. |
| Codecs.Codec.NewNode | codec.go:41-66 | A registered identity returns the registered node without re-analysis. A new one is registered before its analysis, and on success its slot holds the node Dispatch asks for. Every error goes back to an invalid tag, since the model's NewNodeID never fails. |
| Codecs.Codec.NewStructNode | struct.go:20-54 | On success every field is placed: untagged ones in Fields with their types, ignored ones nowhere, the rest as children pointing at their registered nodes. |
| Codecs.Codec.PlaceNext | struct.go:29-52 | One step of the loop places field i by its tag policy. |
| Codecs.Codec.PlaceTagged | struct.go:41-51 | A tagged field's node is made or reused under the field's identity and placed as the child of that name. A failure is "analysing field", caused by a tag. |
| Codecs.Codec.NewMapNode | map.go:30-58 | The key codec for the key type, and the element node registered under the element identity. |
| Codecs.Codec.NewSliceNode | codec.go:62-63 | A slice node whose element node is registered under the element identity. |
| Codecs.Codec.AnalyseElemNode | dir.go:12-17 | The element identity has the directory's type as parent and an empty field name, and is registered. Only the NewNode error is reported, wrapped with the element type. |
| Codecs.Codec.Analyse | codec.go:20-38 | A nil root is "cannot analyse nil". A leaf root is "cannot analyse kind". On success the root node has the root's identity and no parent. |
| Codecs.ElemInScope | dir.go:13-14 | The element identity of a map or slice in scope is in scope. |
| Codecs.PlacedExactlyOnce | struct.go:29-52 | Each field is in Fields iff untagged, and a child iff its tag is neither none nor ignore. Fields maps each name to that field's type. No other names appear. |
| Codecs.PlacedCounts | struct.go:29-52 | There are as many Fields as untagged declarations, and as many Children as tagged, non-ignored ones. |
| Codecs.SelfReferenceIsLoop | analyse_test.go:21-25 | A field whose identity equals its struct's own identity points back at the struct's node. |
| CodecExamples.AnalyseStructA | analyse_test.go:57-60 | StructA and *StructA analyse to a root with no parent, 4 fields and 5 children. IsPtr is set exactly for *StructA. |
| CodecExamples.StructBSelfReference | analyse_test.go:21-25 | StructB.FileSubStruct, met inside its own node, has that node's identity. |
| CodecExamples.ElementIdentities | analyse_test.go:16-19 | The map's element is StructB by value. The slice's element is StructB behind a pointer. |
| Writes.PrepareFileData | struct.go:118-127 | An absent value gives the nil payload. Otherwise a map with exactly the Fields' names, each holding that field's value. |
| Writes.Injected | map.go:92-94 | The key is set into the key field, if there is one. Every other field is unchanged. |
| Writes.WriteNode | struct.go:92-107 | Exactly the targets of Emit are added, or the error names a path that was already taken. |
| Writes.WriteStruct | struct.go:92-116 | First the own target at c's path, then each child for a valid value, at its fixed path name. A refused own target or child write stops with the wrapped error. |
| Writes.WriteChildren | struct.go:99-107 | All children's targets in any order, or the first failed child's wrapped error. |
| Writes.WriteChild | struct.go:99-106 | One child written at its fixed path name: the outcome now covers the children so far and this one. An error is "writing child" for this name. |
| Writes.WriteMap | map.go:86-102 | Nothing when the map should not be written. Otherwise every entry's targets at its printed key. |
| Writes.SetEntryKey | map.go:92-94 | The element's key field receives its map key. No other element changes. |
| Writes.ClashIffNotAddable | filetargets_test.go:47-52 | A path clash exists exactly when the targets cannot all be added. |
| WriteProperties.StructWritesSelf | struct.go:92-98 | The own target is always among the targets. An absent value gives exactly one nil-payload target. A non-struct value writes no child. |
| WriteProperties.ChildTargetsIncluded | struct.go:99-107 | Each child's targets, for its field's value at its fixed path name, are among the struct's. |
| WriteProperties.EntryTargetsIncluded | map.go:91-100 | Each entry's targets, at its printed key with the key set, are among the map's. |
| WriteProperties.EntryCarriesKey | map.go:92-94 | The written entry has its key in the key field and its other fields unchanged. |
| WriteProperties.SkippedMapWritesNothing | map.go:87-89 | An unkeyed absent or nil map writes nothing. |
| WriteProperties.LeafWritesNothing | file.go:27-29 | File, slice and unset nodes write nothing. |
| WriteProperties.StringKeysDistinctSegments | map.go:39-41 | With Sprint, string keys are their own segments, so distinct keys give distinct paths. |
| Reads.OwnValue | struct.go:64-74 | An empty or absent own file gives the zero value. A read error becomes "reading own fields". An unmarshal error names the file path. |
| Reads.Assigned | struct.go:86 | Each read child's value is set into its field. Other fields are kept. |
| Reads.ReadNode | struct.go:63-89 | It succeeds exactly when the read specification yields a value, and returns that value. Every error it reports explains a failure of the specification. |
| Reads.ReadStruct | struct.go:63-89 | The own value, then every child's read assigned to its field. Otherwise the wrapped own-file error or the first failed child. |
| Reads.ReadChildren | struct.go:76-87 | Every child in turn: all reads assigned, or the failed child's read is nothing. |
| Reads.ReadMap | map.go:69-83 | Requires the handle to hold a map. It succeeds exactly when the map specification does, and the handle then holds that map. |
| Reads.ReadListed | map.go:71-81 | The loop inserts exactly one entry per listed name, or reports "reading child" for a listed name whose read fails. |
| Reads.ReadEntry | map.go:72-80 | Requires the handle to hold a map. A fresh keyed element is read and stored under its name. Other entries are unchanged. |
| Reads.ReadIsValid | struct.go:63-75 | A read that succeeds never yields an invalid value: a struct starts from the zero value or a decoded one, a map from a made map. So SetMapIndex at map.go:80 always stores and never deletes. |
| Reads.StructReadAssigns | struct.go:70-87 | Each child's read is in its field. Other fields come from the own file, and are zero when that file is empty. |
| Reads.MapReadKeys | map.go:69-83 | The keys are exactly the listed names, each holding its element's read. A missing directory leaves the map empty. |
| Reads.ReadMoreFuel | struct.go:63-89 | A successful read gives the same value with more fuel. |
| Reads.ExplainedFails | struct.go:63-89 | Every error the walk can report is a real failure of the specification. |
| LegacyAnalysis.Analyser.GetAnalysisForType | analyse.go:107-114 | It finds a slot exactly when the type was analysed at some path, and that slot is the one every analysis of the type shares. |
| LegacyAnalysis.Analyser.RegisterAnalysis | analyse.go:115-117 | The type at c's path now refers to the slot. Nothing else changes. |
| LegacyAnalysis.Analyser.Analyse | analyse.go:122-127 | A nil root is "cannot analyse nil" with nothing registered. A type met before returns its slot's node without analysis. A new type is analysed into a new slot, as FirstOutcome describes. |
| LegacyAnalysis.Analyser.AnalyseAt | analyse.go:129-160 | Any success yields what the slot registered for t at c's path holds when the call returns. A type met before is registered again at c's path and yields the node its slot holds now. A new type gets a fresh empty slot registered before any recursion. The slot is filled only by a successful struct analysis. A map or slice yields nil with no error. Any other kind is "cannot analyse T fields". A struct failure is "analysing T at path", caused by a field. |
| LegacyAnalysis.Analyser.Fill | analyse.go:137-159 | One pointer level is removed before the kind switch, and the slot is set only on a struct success. |
| LegacyAnalysis.Analyser.AnalyseStruct | analyse.go:162-193 | On success the node has c as context and the own type. Its fields are exactly the untagged ones with their types. Its children are exactly the tagged, non-ignored fields, each analysed at its pushed context and mapped to what the slot of that analysis held when the struct's analysis ended (`ChildNodes`). An error names a field. |
| LegacyAnalysis.Analyser.AnalyseField | analyse.go:166-184 | An unparsable tag is "invalid tag". No tag puts the field in fields. Ignore skips it. Anything else is analysed as a child. The children map built so far grows by exactly that child's node. |
| LegacyAnalysis.Analyser.AnalyseChild | analyse.go:179-184 | The child is analysed at Push(tag, name) and stored under the field's name as the node its slot holds on return, while the nodes of earlier children stay as they were. A failure is wrapped as "analysing file field". |
| LegacyAnalysis.ChildNodesKept | analyse.go:180-184 | Once a child is registered, later analyses leave its slot and registration as they were, so the children map built so far keeps its nodes. |
| LegacyAnalysis.NoTagsAllFields | analyse.go:172-174 | A struct without hy tags keeps every field in its file and has no children. |
| LegacyAnalysis.FieldPlacedOnce | analyse.go:172-178 | No field is both in fields and a child. Every field with a parsable tag is a field, a child or skipped. |
| LegacyExamples.FailedAnalysisIsCached | analyse.go:130-136 | An int root fails with "cannot analyse int fields". Analysing it again returns nil with no error, because its empty slot stays registered. |
| LegacyExamples.EmptyStruct | analyse.go:162-193 | A struct with no fields analyses to a node with no fields and no children. |
| LegacyExamples.SelfReferenceIsNil | analyse.go:129-136 | For *Node whose field Next is a *Node, a successful analysis stores the node in the root's slot, but the node's child Next is nil, because analyse returns the slot's content while it is still empty. |
| LegacyExamples.NextIsNil | analyse.go:180-184 | The child stored for Next is what the shared slot of *Node held before the node was stored in it: nil. |

## Left out

- I/O: the file system is an abstract index. Its directories are listings or unreadable, and its files are bytes or unreadable. Unmarshalling is an opaque function parameter, and JSON marshalling is not modelled.
- filewriter.go and treereader.go are not part of this model. Both are I/O over the real file system, and the extension filter of treereader.go repeats ListFiles.
- Reflection: Go's types become the `Types.Type` datatype. `%T`/`%s` formatting in error messages becomes structured error constructors.
- Go map iteration order: the write walk is specified as a multiset of targets, and children and entries may be visited in any order.
- Reads.ReadNode: the read walk carries a fuel bound and reports OutOfFuel when it runs out. In struct.go:76-87 every child is read unconditionally, so the read of a self-referential type such as StructB does not terminate in Go; the model cannot follow it.
- Reads.ReadNode: Node.Read is declared only as a comment (node.go:28). The dispatch is the model's own: struct and map nodes are read, file and slice nodes read as their zero value, and a map node is read into a newly made empty map, because inserting into a nil map panics in Go.
- Writes.WriteNode: no `Write` of a struct or map node is part of this model. struct.go:104 calls `childNode.Write(childContext, childKey, childVal)` and map.go:96 calls `elemNode.Write(childContext, elemVal)`, two different signatures, and only the file and slice stubs are defined. The dispatch is the model's own: a struct node writes through WriteStruct, a map node through WriteMap, and file and slice nodes write nothing. So is writing a pointer-valued child as its pointee (`PointeeOf(Field(x, name), isPtr)` in ChildEmit). struct.go:102 passes the raw field value, on which `FieldByName` in prepareFileData would panic for a pointer.
- Reads.ReadMap: `c.List()` (map.go:70) is not part of this model. It is modelled as ListFiles, with its error reported as ListingFailed.
- Reads.ReadStruct: the unused child `ReadFile` at struct.go:80 is left out. The own file is read at the context's file path, because ReadFile ignores its name argument.
- Reads.StructRead: the Go `Set` at struct.go:86 of a child's value into a field of a different pointer-ness is not modelled. The value is assigned as it is.
- Reads.ReadEntry: map.go:72 makes each listed name a Go `string` key, and SetMapIndex (val.go:44) panics unless the map's key type is exactly `string`. That includes TextMarshaler keys, which the write walk accepts. The model inserts `SString` keys into a map node of any key type and reports success, so for any other key type it does not model Go, which panics at the first entry it reads. Pointer elements are stored through `Stored`.
- The SetKeyFunc call of map.go:93 is modelled as setting the element's key field to the key. testdata expects exactly that; the method lookup is reflection.
- The panic of a failing MarshalText (map.go:51-53) is not modelled; MarshalText is an opaque function.
- Panics on nil function or field dereferences become preconditions: a map node must have a key printer (`Walkable`), and a root map or slice (nil field at codec.go:53) is excluded. The reflect panics of val.go are preconditions of Vals.SetField, Vals.GetField, Vals.SetMapElement, Vals.MapElements, Vals.SliceElements, Vals.AppendAsWritten and Vals.Append. For Vals.SetField, Vals.AppendAsWritten and Vals.Append this includes an argument whose final value is invalid (the zero reflect.Value), on which `Set` and `reflect.Append` panic. Vals.SetMapElement instead models the deletion that SetMapIndex performs for such a value.
- The unmarshaller type `Reads.Unmarshal`: a successful decode never leaves an invalid value, because Go decodes into a value made by reflect.New. This is part of the unmarshaller's type.
- Vals.MapElements: on a pointee that is not a map, Go panics at `Len`. The model gives no handles, because values are not checked against their node's type.
- Vals.NewKeyedValFrom: every handle holds a copy of its element. In Go, MapIndex of a pointer element yields the caller's own pointer, so the SetKeyFunc call of map.go:93 also writes the key into the caller's element. That aliasing side effect of a write is not modelled. Writes.SetEntryKey and Writes.Injected set the key only in the copy that is written.
- Types.NewNodeID: its body is not part of this model. It is inferred from id.go:11-12 and the analyse_test.go tables (lines 34-40 and 57-60). Its error return, checked at codec.go:26-28 and struct.go:42-44, is dropped: the model's NewNodeID never fails.
- Nodes.FixedPathName: how the fixed path name is computed is not part of this model. It is inferred from the NodeContext field comment at context.go:13-15 and from ChildPathName at struct.go:57-60.
- A map node's zero value is the nil map. A map node that is read starts from a newly made empty map instead (see Reads.ReadNode above).
- slice.go and the slice node's walks: the slice node writes and reads nothing of its own. analyseMap and analyseSlice (analyse.go:195-201) return nil with no error.
- `NodeBase.IsPtr` of analyse.go is never set there and is omitted. `FileNode` and `MapDirNode`/`SliceDirNode` of analyse.go are never built.
- path.Join is modelled only for clean input: segments without "/", "." or "..". Empty segments are dropped.
- Tags.ParseTag: follows the tag_test.go table where tag.go differs. "," is the automatic name "." rather than the "name must not be empty" of tag.go:38-39, a trailing "/" sets IsDir, and a leading "/" is an error.
- The validation errors in fieldinfo_test.go:132-181 (illegal key tokens, getter and setter signatures) are never produced by NewFieldInfo, so they are not modelled.
- Writes.Emit is defined as empty outside a `Walkable` arena, where the Go code would panic.
- LegacyAnalysis: the process-wide `analyses` and `paths` maps are the state of an `Analyser` object. `paths` is never used and is left out.
- Integer widths: keys and slice indices are unbounded integers.

## Findings

| source | as written | input that shows it | evidently intended | confidence | as-written member | corrected member |
|---|---|---|---|---|---|---|
| tag.go:52-60 | `pathName[:len(pathName)-1]` takes all but the last character and compares it with "/" | "mypath/" keeps its slash, although tag_test.go:27-29 expects the directory "mypath" | test whether the path ends in "/", strip it and set IsDir | high; not executed | Tags.ParsePathNameAsWrittenKeepsSlash | Tags.ParsePathName |
| val.go:56-58 | the result of `reflect.Append` is discarded | appending any element leaves the slice as it was | store the grown slice back into the pointee | high; not executed | Vals.AppendAsWrittenLosesElement | Vals.Append |

=== FILE: analyse.dfy ===
/**
 * analyse.go: the older analysis, which caches analyses in a process-wide
 * map keyed by type and context path. Here the cache is the state of an
 * Analyser object. A node is reached through a slot (Go's *Node) that
 * is registered before the analysis recurses and filled afterwards; a
 * slot still empty when it is looked up reads as a nil Node.
 */
module LegacyAnalysis {
  import opened Wrappers
  import opened Types
  import opened Tags
  import opened Contexts

  /** analysisInContext: a type together with the path it was met at. */
  datatype AnalysisKey = AnalysisKey(typ: Type, path: string)

  /** nodeInContext: the slot holding the node, and the context it was registered with. */
  datatype Analysis = Analysis(slot: nat, context: NodeContext)

  /**
   * StructNode of analyse.go: its context, its own (pointer-stripped)
   * type, the fields kept in its file, and its children, each a struct
   * node by index or nil.
   */
  datatype StructNode = StructNode(
    context: NodeContext,
    ownType: Type,
    fields: map<string, Type>,
    children: map<string, Option<nat>>)

  datatype LegacyError =
    | CannotAnalyseNil                                                     // "cannot analyse nil"
    | CannotAnalyseFields(t: Type)                                         // "cannot analyse %s fields"
    | InvalidTag(tag: string, cause: TagError)                             // "invalid tag %q"
    | AnalysingFileField(structType: Type, fieldName: string, inner: LegacyError) // "analysing file field %T.%s"
    | Analysing(t: Type, path: string, inner: LegacyError)                 // "analysing %s at %q"

  /** The type analyse works on: one level of pointer removed. */
  function OwnTypeOf(t: Type): Type
  {
    if t.TPtr? then t.elem else t
  }

  /** The fields analyseStruct keeps in the struct's own file: those without an hy tag, by name. */
  function UntaggedFields(fds: seq<FieldDecl>): map<string, Type>
  {
    if fds == [] then map[]
    else
      var fd := fds[|fds| - 1];
      var m := UntaggedFields(fds[..|fds| - 1]);
      if fd.hyTag == [] then m[fd.name := fd.typ] else m
  }

  /** A field analyseStruct analyses as a child: its tag parses and is neither absent nor "-". */
  predicate IsChildField(fd: FieldDecl)
  {
    var tag := ParseTag(fd.hyTag);
    tag.Success? && !tag.value.none && !tag.value.ignore
  }

  /** The names of the child fields. */
  function ChildFields(fds: seq<FieldDecl>): set<string>
  {
    if fds == [] then {}
    else
      var fd := fds[|fds| - 1];
      ChildFields(fds[..|fds| - 1]) + (if IsChildField(fd) then {fd.name} else {})
  }

  /** Every tag of the fields parses. */
  predicate TagsParse(fds: seq<FieldDecl>)
  {
    forall j :: 0 <= j < |fds| ==> ParseTag(fds[j].hyTag).Success?
  }

  /** The key a child field is analysed and registered under, within context c. */
  function ChildKey(c: NodeContext, fd: FieldDecl): AnalysisKey
    requires ParseTag(fd.hyTag).Success?
  {
    AnalysisKey(fd.typ, Path(Push(c, ParseTag(fd.hyTag).value, fd.name)))
  }

  /** Every child field of fds was analysed at its own context, pushed from c with its tag and name. */
  ghost predicate ChildrenRegistered(c: NodeContext, fds: seq<FieldDecl>, analyses: map<AnalysisKey, Analysis>)
  {
    forall j :: 0 <= j < |fds| && IsChildField(fds[j]) ==> ChildKey(c, fds[j]) in analyses
  }

  /**
   * The node a child field gets: analyse returns what the slot of the
   * child's analysis holds at that moment (nil while still empty).
   */
  function ChildNode(c: NodeContext, fd: FieldDecl, slots: seq<Option<nat>>, analyses: map<AnalysisKey, Analysis>): Option<nat>
  {
    if ParseTag(fd.hyTag).Success? && ChildKey(c, fd) in analyses && analyses[ChildKey(c, fd)].slot < |slots|
    then slots[analyses[ChildKey(c, fd)].slot]
    else None
  }

  /** The children map analyseStruct builds: each child field's name to its node, given the slots. */
  function ChildNodes(c: NodeContext, fds: seq<FieldDecl>, slots: seq<Option<nat>>, analyses: map<AnalysisKey, Analysis>): map<string, Option<nat>>
  {
    if fds == [] then map[]
    else
      var fd := fds[|fds| - 1];
      var m := ChildNodes(c, fds[..|fds| - 1], slots, analyses);
      if IsChildField(fd) then m[fd.name := ChildNode(c, fd, slots, analyses)] else m
  }

  /** All analyses of one type share one slot, so a lookup by type alone is well defined. */
  ghost predicate SharedSlots(analyses: map<AnalysisKey, Analysis>)
  {
    forall k1, k2 :: k1 in analyses && k2 in analyses && k1.typ == k2.typ ==> analyses[k1].slot == analyses[k2].slot
  }

  /** The types that have been analysed, at whatever path. */
  function Analysed(analyses: map<AnalysisKey, Analysis>): set<Type>
  {
    set k | k in analyses :: k.typ
  }

  /** Nothing registered or built before is lost; old slots and nodes keep their contents. */
  ghost predicate Keeps(oldAnalyses: map<AnalysisKey, Analysis>, oldSlots: seq<Option<nat>>, oldNodes: seq<StructNode>,
                        analyses: map<AnalysisKey, Analysis>, slots: seq<Option<nat>>, nodes: seq<StructNode>)
  {
    && (forall k :: k in oldAnalyses ==> k in analyses && analyses[k].slot == oldAnalyses[k].slot)
    && |oldSlots| <= |slots| && (forall s :: 0 <= s < |oldSlots| ==> slots[s] == oldSlots[s])
    && |oldNodes| <= |nodes| && (forall j :: 0 <= j < |oldNodes| ==> nodes[j] == oldNodes[j])
  }

  lemma KeepsTrans(a0: map<AnalysisKey, Analysis>, s0: seq<Option<nat>>, n0: seq<StructNode>,
                   a1: map<AnalysisKey, Analysis>, s1: seq<Option<nat>>, n1: seq<StructNode>,
                   a2: map<AnalysisKey, Analysis>, s2: seq<Option<nat>>, n2: seq<StructNode>)
    requires Keeps(a0, s0, n0, a1, s1, n1) && Keeps(a1, s1, n1, a2, s2, n2)
    ensures Keeps(a0, s0, n0, a2, s2, n2)
  {
  }

  /** What is kept keeps its analysed types. */
  lemma KeepsAnalysed(a0: map<AnalysisKey, Analysis>, s0: seq<Option<nat>>, n0: seq<StructNode>,
                      a1: map<AnalysisKey, Analysis>, s1: seq<Option<nat>>, n1: seq<StructNode>)
    requires Keeps(a0, s0, n0, a1, s1, n1)
    ensures Analysed(a0) <= Analysed(a1)
  {
    forall t | t in Analysed(a0)
      ensures t in Analysed(a1)
    {
      var k :| k in a0 && k.typ == t;
      assert k in a1;
    }
  }

  /** Registered children stay registered. */
  lemma KeepsChildren(c: NodeContext, fds: seq<FieldDecl>,
                      a0: map<AnalysisKey, Analysis>, s0: seq<Option<nat>>, n0: seq<StructNode>,
                      a1: map<AnalysisKey, Analysis>, s1: seq<Option<nat>>, n1: seq<StructNode>)
    requires Keeps(a0, s0, n0, a1, s1, n1) && ChildrenRegistered(c, fds, a0)
    ensures ChildrenRegistered(c, fds, a1)
  {
  }

  /** The fields and children of a prefix grow by the next field's placement. */
  lemma PlacementStep(fds: seq<FieldDecl>, i: nat)
    requires i < |fds|
    ensures fds[..i + 1][..i] == fds[..i]
    ensures UntaggedFields(fds[..i + 1]) ==
      (if fds[i].hyTag == [] then UntaggedFields(fds[..i])[fds[i].name := fds[i].typ] else UntaggedFields(fds[..i]))
    ensures ChildFields(fds[..i + 1]) == ChildFields(fds[..i]) + (if IsChildField(fds[i]) then {fds[i].name} else {})
  {
    assert fds[..i + 1][..i] == fds[..i];
  }

  /** The children map of a prefix grows by the next field's node when that field is a child. */
  lemma ChildNodesStep(c: NodeContext, fds: seq<FieldDecl>, i: nat, slots: seq<Option<nat>>, analyses: map<AnalysisKey, Analysis>)
    requires i < |fds|
    ensures ChildNodes(c, fds[..i + 1], slots, analyses) ==
      (if IsChildField(fds[i]) then ChildNodes(c, fds[..i], slots, analyses)[fds[i].name := ChildNode(c, fds[i], slots, analyses)]
       else ChildNodes(c, fds[..i], slots, analyses))
  {
    assert fds[..i + 1][..i] == fds[..i];
  }

  /**
   * Slots that registered children refer to keep their contents, so the
   * children's nodes are the same after any later analysis.
   */
  lemma {:induction false} ChildNodesKept(c: NodeContext, fds: seq<FieldDecl>,
                                          a0: map<AnalysisKey, Analysis>, s0: seq<Option<nat>>, n0: seq<StructNode>,
                                          a1: map<AnalysisKey, Analysis>, s1: seq<Option<nat>>, n1: seq<StructNode>)
    requires Keeps(a0, s0, n0, a1, s1, n1) && ChildrenRegistered(c, fds, a0)
    requires forall k :: k in a0 ==> a0[k].slot < |s0|
    ensures ChildNodes(c, fds, s1, a1) == ChildNodes(c, fds, s0, a0)
  {
    if fds != [] {
      var init := fds[..|fds| - 1];
      assert ChildrenRegistered(c, init, a0) by {
        assert forall j :: 0 <= j < |init| ==> init[j] == fds[j];
      }
      ChildNodesKept(c, init, a0, s0, n0, a1, s1, n1);
      var fd := fds[|fds| - 1];
      if IsChildField(fd) {
        assert ChildKey(c, fd) in a0;
      }
    }
  }

  /**
   * Once field i, a child, has been analysed into a slot, the children
   * map built so far, kept valid across that analysis, grows by exactly
   * the node that slot holds.
   */
  lemma ChildPlaced(c: NodeContext, fds: seq<FieldDecl>, i: nat, children: map<string, Option<nat>>, child: Option<nat>,
                    a0: map<AnalysisKey, Analysis>, s0: seq<Option<nat>>, n0: seq<StructNode>,
                    a1: map<AnalysisKey, Analysis>, s1: seq<Option<nat>>, n1: seq<StructNode>)
    requires i < |fds| && IsChildField(fds[i])
    requires Keeps(a0, s0, n0, a1, s1, n1) && ChildrenRegistered(c, fds[..i], a0)
    requires forall k :: k in a0 ==> a0[k].slot < |s0|
    requires children == ChildNodes(c, fds[..i], s0, a0)
    requires ChildKey(c, fds[i]) in a1 && a1[ChildKey(c, fds[i])].slot < |s1| && child == s1[a1[ChildKey(c, fds[i])].slot]
    ensures children[fds[i].name := child] == ChildNodes(c, fds[..i + 1], s1, a1)
  {
    ChildNodesKept(c, fds[..i], a0, s0, n0, a1, s1, n1);
    ChildNodesStep(c, fds, i, s1, a1);
  }

  /** A field list with no hy tag anywhere keeps every field in its own file and has no children. */
  lemma {:induction false} NoTagsAllFields(fds: seq<FieldDecl>)
    requires forall j :: 0 <= j < |fds| ==> fds[j].hyTag == []
    ensures UntaggedFields(fds).Keys == NamesOf(fds)
    ensures ChildFields(fds) == {}
  {
    if fds != [] {
      var init := fds[..|fds| - 1];
      NoTagsAllFields(init);
      EmptyTagIsNone();
      assert NamesOf(fds) == NamesOf(init) + {fds[|fds| - 1].name} by {
        assert forall j :: 0 <= j < |init| ==> init[j] == fds[j];
      }
    }
  }

  /** A field is kept in the file, or a child, or skipped, never two of these. */
  lemma FieldPlacedOnce(fd: FieldDecl)
    ensures !(fd.hyTag == [] && IsChildField(fd))
    ensures ParseTag(fd.hyTag).Success? ==>
      (fd.hyTag == [] || IsChildField(fd) || ParseTag(fd.hyTag).value.ignore)
  {
  }

  /**
   * An error of analyseStruct names a field of the struct: one whose tag
   * does not parse, or a child field whose own analysis failed.
   */
  ghost predicate BlamesField(fds: seq<FieldDecl>, e: LegacyError)
  {
    || (e.InvalidTag? && exists i :: 0 <= i < |fds| && fds[i].hyTag == e.tag && ParseTag(fds[i].hyTag) == Failure(e.cause))
    || (e.AnalysingFileField? && exists i :: 0 <= i < |fds| && fds[i].name == e.fieldName && IsChildField(fds[i]))
  }

  /** What a first analysis of t at context c leaves in the slot it allocated, by the kind of t's own type. */
  ghost predicate FirstOutcome(u: Universe, c: NodeContext, t: Type, slot: nat, r: Result<Option<nat>, LegacyError>,
                               slots: seq<Option<nat>>, nodes: seq<StructNode>, analyses: map<AnalysisKey, Analysis>)
  {
    var own := OwnTypeOf(t);
    && slot < |slots|
    && (KindOf(own) !in {StructK, MapK, SliceK} ==> r == Failure(CannotAnalyseFields(own)) && slots[slot].None?)
    && (KindOf(own) in {MapK, SliceK} ==> r == Success(None) && slots[slot].None?)
    && (KindOf(own) == StructK && r.Failure? ==>
          && r.error.Analysing? && r.error.t == own && r.error.path == Path(c) && slots[slot].None?
          && BlamesField(FieldsOf(u, own.name), r.error.inner))
    && (KindOf(own) == StructK && r.Success? ==>
          r.value.Some? && slots[slot] == r.value && StructBuilt(u, c, own, r.value.value, slots[slot := None], nodes, analyses))
  }

  /**
   * Node j is the struct node analyseStruct builds for struct type st at
   * context c: the untagged fields in its file, one child per child
   * field, each analysed at its own context and mapped to what its slot
   * held when the struct's own analysis ended, and every tag valid.
   */
  ghost predicate StructBuilt(u: Universe, c: NodeContext, st: Type, j: nat, slots: seq<Option<nat>>, nodes: seq<StructNode>,
                              analyses: map<AnalysisKey, Analysis>)
    requires st.TStruct?
  {
    var fds := FieldsOf(u, st.name);
    && j < |nodes|
    && nodes[j].context == c && nodes[j].ownType == st
    && nodes[j].fields == UntaggedFields(fds)
    && nodes[j].children.Keys == ChildFields(fds)
    && nodes[j].children == ChildNodes(c, fds, slots, analyses)
    && TagsParse(fds)
    && ChildrenRegistered(c, fds, analyses)
  }

  class Analyser {
    const u: Universe
    var analyses: map<AnalysisKey, Analysis>
    var slots: seq<Option<nat>>
    var nodes: seq<StructNode>

    /** An analyser with an empty cache. */
    constructor (u: Universe)
      ensures this.u == u && analyses == map[] && slots == [] && nodes == []
      ensures Valid()
    {
      this.u := u;
      analyses := map[];
      slots := [];
      nodes := [];
    }

    ghost predicate Valid()
      reads this
    {
      && (forall k :: k in analyses ==> analyses[k].slot < |slots|)
      && SharedSlots(analyses)
    }

    /** getAnalysisForType: the slot of an analysis of t at any path, if there is one. */
    method GetAnalysisForType(t: Type) returns (slot: Option<nat>)
      requires Valid()
      ensures slot.Some? <==> t in Analysed(analyses)
      ensures forall k :: k in analyses && k.typ == t ==> slot == Some(analyses[k].slot)
    {
      var keys := analyses.Keys;
      while keys != {}
        invariant keys <= analyses.Keys
        invariant forall k :: k in analyses && k !in keys ==> k.typ != t
        decreases keys
      {
        var k :| k in keys;
        if k.typ == t {
          return Some(analyses[k].slot);
        }
        keys := keys - {k};
      }
      return None;
    }

    /** registerAnalysis: t at c's path now refers to slot. */
    method RegisterAnalysis(t: Type, slot: nat, c: NodeContext)
      requires Valid() && slot < |slots|
      requires forall k :: k in analyses && k.typ == t ==> analyses[k].slot == slot
      modifies this
      ensures analyses == old(analyses)[AnalysisKey(t, Path(c)) := Analysis(slot, c)]
      ensures slots == old(slots) && nodes == old(nodes)
      ensures Valid() && Keeps(old(analyses), old(slots), old(nodes), analyses, slots, nodes)
    {
      analyses := analyses[AnalysisKey(t, Path(c)) := Analysis(slot, c)];
    }

    /** Analyse: the analysis of the root's type at the empty context; a nil root is an error. */
    method Analyse(root: Option<Type>) returns (r: Result<Option<nat>, LegacyError>)
      requires Valid()
      modifies this
      ensures Valid() && Keeps(old(analyses), old(slots), old(nodes), analyses, slots, nodes)
      ensures root.None? ==> r == Failure(CannotAnalyseNil) && analyses == old(analyses)
      ensures root.Some? ==> AnalysisKey(root.value, "") in analyses
      ensures root.Some? && root.value in Analysed(old(analyses)) ==>
        && r.Success? && slots == old(slots) && nodes == old(nodes)
        && (forall k :: k in old(analyses) && k.typ == root.value ==> r.value == slots[old(analyses)[k].slot])
      ensures root.Some? && root.value !in Analysed(old(analyses)) ==>
        && analyses[AnalysisKey(root.value, "")].slot == |old(slots)|
        && FirstOutcome(u, EmptyNodeContext, root.value, |old(slots)|, r, slots, nodes, analyses)
    {
      if root.None? {
        return Failure(CannotAnalyseNil);
      }
      r := AnalyseAt(EmptyNodeContext, root.value, root.value);
    }

    /**
     * analyse: a type met before, at any path, yields the node its slot
     * holds now (nil while that analysis is still under way) and is
     * registered again at c's path. A new type gets a fresh empty slot,
     * registered before anything else happens, and is then analysed.
     */
    method AnalyseAt(c: NodeContext, t: Type, ghost root: Type) returns (r: Result<Option<nat>, LegacyError>)
      requires Valid() && t in TypeScope(u, root)
      modifies this
      ensures Valid() && Keeps(old(analyses), old(slots), old(nodes), analyses, slots, nodes)
      ensures AnalysisKey(t, Path(c)) in analyses
      ensures r.Success? ==> r.value == slots[analyses[AnalysisKey(t, Path(c))].slot]
      ensures t in Analysed(old(analyses)) ==>
        && r.Success? && slots == old(slots) && nodes == old(nodes)
        && (forall k :: k in old(analyses) && k.typ == t ==>
              analyses == old(analyses)[AnalysisKey(t, Path(c)) := Analysis(old(analyses)[k].slot, c)]
              && r.value == slots[old(analyses)[k].slot])
      ensures t !in Analysed(old(analyses)) ==>
        && analyses[AnalysisKey(t, Path(c))].slot == |old(slots)|
        && FirstOutcome(u, c, t, |old(slots)|, r, slots, nodes, analyses)
      decreases TypeScope(u, root) - Analysed(analyses), 4
    {
      var found := GetAnalysisForType(t);
      if found.Some? {
        RegisterAnalysis(t, found.value, c);
        return Success(slots[found.value]);
      }
      var slot := |slots|;
      slots := slots + [None];
      RegisterAnalysis(t, slot, c);
      assert Analysed(analyses) == Analysed(old(analyses)) + {t};
      ghost var a1, s1, n1 := analyses, slots, nodes;
      r := Fill(c, t, slot, root);
      KeepsTrans(old(analyses), old(slots), old(nodes), a1, s1[..slot], n1, analyses, slots, nodes);
    }

    /** The switch of analyse on the kind of t's own type, filling slot on success. */
    method Fill(c: NodeContext, t: Type, slot: nat, ghost root: Type) returns (r: Result<Option<nat>, LegacyError>)
      requires Valid() && t in TypeScope(u, root) && t in Analysed(analyses)
      requires slot == |slots| - 1 && slots[slot].None? && AnalysisKey(t, Path(c)) in analyses
      modifies this
      ensures Valid() && Keeps(old(analyses), old(slots[..slot]), old(nodes), analyses, slots, nodes)
      ensures AnalysisKey(t, Path(c)) in analyses
      ensures FirstOutcome(u, c, t, slot, r, slots, nodes, analyses)
      decreases TypeScope(u, root) - (Analysed(analyses) - {t}), 3
    {
      var own := OwnTypeOf(t);
      match KindOf(own)
      case StructK =>
        OwnTypeInScope(u, root, t);
        var n := AnalyseStruct(c, own, t, root);
        if n.Failure? {
          return Failure(Analysing(own, Path(c), n.error));
        }
        ghost var built := slots;
        slots := slots[slot := Some(n.value)];
        assert slots[slot := None] == built;
        return Success(Some(n.value));
      case MapK =>
        return Success(None);
      case SliceK =>
        return Success(None);
      case _ =>
        return Failure(CannotAnalyseFields(own));
    }

    /**
     * analyseStruct: every field in declaration order; an invalid tag or
     * a failing child analysis ends it. On success a new struct node is
     * added and its index returned.
     */
    method AnalyseStruct(c: NodeContext, st: Type, ghost self: Type, ghost root: Type) returns (r: Result<nat, LegacyError>)
      requires Valid() && st.TStruct? && st in TypeScope(u, root) && Closed(u, TypeScope(u, root))
      requires self in TypeScope(u, root) && self in Analysed(analyses)
      modifies this
      ensures Valid() && Keeps(old(analyses), old(slots), old(nodes), analyses, slots, nodes)
      ensures |slots| >= |old(slots)|
      ensures r.Success? ==> StructBuilt(u, c, st, r.value, slots, nodes, analyses)
      ensures !TagsParse(FieldsOf(u, st.name)) ==> r.Failure?
      ensures r.Failure? ==> BlamesField(FieldsOf(u, st.name), r.error)
      ensures r.Failure? && r.error.AnalysingFileField? ==> r.error.structType == st
      decreases TypeScope(u, root) - (Analysed(analyses) - {self}), 2
    {
      var fds := FieldsOf(u, st.name);
      var fields: map<string, Type> := map[];
      var children: map<string, Option<nat>> := map[];
      for i := 0 to |fds|
        invariant Valid() && Keeps(old(analyses), old(slots), old(nodes), analyses, slots, nodes)
        invariant self in Analysed(analyses)
        invariant fields == UntaggedFields(fds[..i]) && children.Keys == ChildFields(fds[..i])
        invariant children == ChildNodes(c, fds[..i], slots, analyses)
        invariant TagsParse(fds[..i]) && ChildrenRegistered(c, fds[..i], analyses)
      {
        ghost var a0, s0, n0 := analyses, slots, nodes;
        var placed := AnalyseField(c, st, i, fields, children, self, root);
        KeepsTrans(old(analyses), old(slots), old(nodes), a0, s0, n0, analyses, slots, nodes);
        KeepsAnalysed(a0, s0, n0, analyses, slots, nodes);
        if placed.Failure? {
          assert BlamesField(fds, placed.error) by {
            if placed.error.AnalysingFileField? {
              assert fds[i].name == placed.error.fieldName && IsChildField(fds[i]);
            } else {
              assert fds[i].hyTag == placed.error.tag;
            }
          }
          return Failure(placed.error);
        }
        fields, children := placed.value.0, placed.value.1;
      }
      assert fds[..|fds|] == fds;
      nodes := nodes + [StructNode(c, st, fields, children)];
      return Success(|nodes| - 1);
    }

    /** One iteration of analyseStruct: the tag of field i, and where it puts the field. */
    method AnalyseField(c: NodeContext, st: Type, i: nat, fields: map<string, Type>, children: map<string, Option<nat>>,
                        ghost self: Type, ghost root: Type)
      returns (r: Result<(map<string, Type>, map<string, Option<nat>>), LegacyError>)
      requires Valid() && st.TStruct? && st in TypeScope(u, root) && Closed(u, TypeScope(u, root))
      requires self in TypeScope(u, root) && self in Analysed(analyses)
      requires i < |FieldsOf(u, st.name)|
      requires TagsParse(FieldsOf(u, st.name)[..i]) && ChildrenRegistered(c, FieldsOf(u, st.name)[..i], analyses)
      requires fields == UntaggedFields(FieldsOf(u, st.name)[..i]) && children.Keys == ChildFields(FieldsOf(u, st.name)[..i])
      requires children == ChildNodes(c, FieldsOf(u, st.name)[..i], slots, analyses)
      modifies this
      ensures Valid() && Keeps(old(analyses), old(slots), old(nodes), analyses, slots, nodes)
      ensures r.Success? ==> var fds := FieldsOf(u, st.name);
        && r.value.0 == UntaggedFields(fds[..i + 1]) && r.value.1.Keys == ChildFields(fds[..i + 1])
        && r.value.1 == ChildNodes(c, fds[..i + 1], slots, analyses)
        && TagsParse(fds[..i + 1]) && ChildrenRegistered(c, fds[..i + 1], analyses)
      ensures r.Failure? ==> var fd := FieldsOf(u, st.name)[i];
        || (ParseTag(fd.hyTag).Failure? && r.error == InvalidTag(fd.hyTag, ParseTag(fd.hyTag).error))
        || (IsChildField(fd) && r.error.AnalysingFileField? && r.error.structType == st && r.error.fieldName == fd.name)
      decreases TypeScope(u, root) - (Analysed(analyses) - {self}), 1
    {
      var fds := FieldsOf(u, st.name);
      var fd := fds[i];
      PlacementStep(fds, i);
      var tag := ParseTag(fd.hyTag);
      if tag.Failure? {
        return Failure(InvalidTag(fd.hyTag, tag.error));
      }
      ChildNodesStep(c, fds, i, slots, analyses);
      if tag.value.none {
        Extend(c, fds, i, analyses);
        return Success((fields[fd.name := fd.typ], children));
      }
      if tag.value.ignore {
        Extend(c, fds, i, analyses);
        return Success((fields, children));
      }
      r := AnalyseChild(c, st, i, tag.value, fields, children, self, root);
    }

    /** AnalyseField for a field whose tag names a child: its type is analysed under the pushed context. */
    method AnalyseChild(c: NodeContext, st: Type, i: nat, tag: Tag, fields: map<string, Type>, children: map<string, Option<nat>>,
                        ghost self: Type, ghost root: Type)
      returns (r: Result<(map<string, Type>, map<string, Option<nat>>), LegacyError>)
      requires Valid() && st.TStruct? && st in TypeScope(u, root) && Closed(u, TypeScope(u, root))
      requires self in TypeScope(u, root) && self in Analysed(analyses)
      requires i < |FieldsOf(u, st.name)|
      requires var fd := FieldsOf(u, st.name)[i]; ParseTag(fd.hyTag) == Success(tag) && !tag.none && !tag.ignore
      requires TagsParse(FieldsOf(u, st.name)[..i]) && ChildrenRegistered(c, FieldsOf(u, st.name)[..i], analyses)
      requires fields == UntaggedFields(FieldsOf(u, st.name)[..i]) && children.Keys == ChildFields(FieldsOf(u, st.name)[..i])
      requires children == ChildNodes(c, FieldsOf(u, st.name)[..i], slots, analyses)
      modifies this
      ensures Valid() && Keeps(old(analyses), old(slots), old(nodes), analyses, slots, nodes)
      ensures r.Success? ==> var fds := FieldsOf(u, st.name);
        && r.value.0 == UntaggedFields(fds[..i + 1]) && r.value.1.Keys == ChildFields(fds[..i + 1])
        && r.value.1 == ChildNodes(c, fds[..i + 1], slots, analyses)
        && TagsParse(fds[..i + 1]) && ChildrenRegistered(c, fds[..i + 1], analyses)
      ensures r.Failure? ==> r.error.AnalysingFileField? && r.error.structType == st && r.error.fieldName == FieldsOf(u, st.name)[i].name
      decreases TypeScope(u, root) - (Analysed(analyses) - {self}), 0
    {
      var fds := FieldsOf(u, st.name);
      var fd := fds[i];
      PlacementStep(fds, i);
      assert fd.typ in TypeScope(u, root);
      var child := AnalyseAt(Push(c, tag, fd.name), fd.typ, root);
      if child.Failure? {
        return Failure(AnalysingFileField(st, fd.name, child.error));
      }
      KeepsChildren(c, fds[..i], old(analyses), old(slots), old(nodes), analyses, slots, nodes);
      Extend(c, fds, i, analyses);
      ChildPlaced(c, fds, i, children, child.value, old(analyses), old(slots), old(nodes), analyses, slots, nodes);
      return Success((fields, children[fd.name := child.value]));
    }
  }

  /** The prefix properties extend by field i once its tag parses and, for a child, its key is registered. */
  lemma Extend(c: NodeContext, fds: seq<FieldDecl>, i: nat, analyses: map<AnalysisKey, Analysis>)
    requires i < |fds| && ParseTag(fds[i].hyTag).Success?
    requires TagsParse(fds[..i]) && ChildrenRegistered(c, fds[..i], analyses)
    requires IsChildField(fds[i]) ==> ChildKey(c, fds[i]) in analyses
    ensures TagsParse(fds[..i + 1]) && ChildrenRegistered(c, fds[..i + 1], analyses)
  {
    var ext := fds[..i + 1];
    forall j | 0 <= j < |ext|
      ensures ParseTag(ext[j].hyTag).Success?
      ensures IsChildField(ext[j]) ==> ChildKey(c, ext[j]) in analyses
    {
      if j < i {
        assert ext[j] == fds[..i][j];
      } else {
        assert ext[j] == fds[i];
      }
    }
  }

  /** The own type of a type in scope is in scope, and the scope is closed. */
  lemma OwnTypeInScope(u: Universe, root: Type, t: Type)
    requires t in TypeScope(u, root)
    ensures OwnTypeOf(t) in TypeScope(u, root) && Closed(u, TypeScope(u, root))
  {
    TypeScopeClosed(u, root);
    assert OwnTypeOf(t) in Subterms(t);
  }
}

=== FILE: analyse_examples.dfy ===
/**
 * What the cache of analyse.go does with a type whose analysis failed:
 * the empty slot allocated for it stays registered.
 */
module LegacyExamples {
  import opened Wrappers
  import opened Types
  import opened Tags
  import opened Contexts
  import opened LegacyAnalysis

  const IntType := TScalar(Int, "int")

  /**
   * Analysing an int fails ("cannot analyse int fields"), but the type is
   * registered by then; analysing it again finds that registration and
   * yields the nil node with no error.
   */
  method FailedAnalysisIsCached() returns (first: Result<Option<nat>, LegacyError>, second: Result<Option<nat>, LegacyError>)
    ensures first == Failure(CannotAnalyseFields(IntType))
    ensures second == Success(None)
  {
    var a := new Analyser(Universe(map[], {}));
    first := a.Analyse(Some(IntType));
    assert AnalysisKey(IntType, "") in a.analyses;
    second := a.Analyse(Some(IntType));
  }

  /** The root analysis of an undeclared struct is a node with no fields and no children. */
  method EmptyStruct() returns (r: Result<Option<nat>, LegacyError>, fields: nat, children: nat)
    ensures r.Success? && r.value.Some? && fields == 0 && children == 0
  {
    var a := new Analyser(Universe(map[], {}));
    r := a.Analyse(Some(TStruct("Empty")));
    var j := r.value.value;
    fields, children := |a.nodes[j].fields|, |a.nodes[j].children|;
  }

  const NodePtr := TPtr(TStruct("Node"))

  /** type Node struct { Next *Node `hy:"."` } */
  const LinkedUniverse := Universe(map["Node" := [FieldDecl("Next", NodePtr, ".", "")]], {})

  /**
   * Analysing *Node: the field Next is met while the slot of *Node is
   * still empty, and analyse returns that slot's content at once, so the
   * node's child is nil although the slot then holds the node itself.
   */
  method SelfReferenceIsNil() returns (r: Result<Option<nat>, LegacyError>, child: Option<nat>, slot: Option<nat>)
    ensures r.Success? ==> r.value.Some? && slot == r.value && child.None?
  {
    var a := new Analyser(LinkedUniverse);
    r := a.Analyse(Some(NodePtr));
    child, slot := None, None;
    if r.Success? {
      var j := r.value.value;
      NextIsNil(a.analyses, a.slots, a.nodes, j);
      child := a.nodes[j].children["Next"];
      slot := a.slots[0];
    }
  }

  /** The node built for *Node maps Next to the slot of *Node as it was before the node was stored: empty. */
  lemma NextIsNil(analyses: map<AnalysisKey, Analysis>, slots: seq<Option<nat>>, nodes: seq<StructNode>, j: nat)
    requires SharedSlots(analyses) && 0 < |slots|
    requires AnalysisKey(NodePtr, "") in analyses && analyses[AnalysisKey(NodePtr, "")].slot == 0
    requires StructBuilt(LinkedUniverse, EmptyNodeContext, TStruct("Node"), j, slots[0 := None], nodes, analyses)
    ensures "Next" in nodes[j].children && nodes[j].children["Next"].None?
  {
    var fds := FieldsOf(LinkedUniverse, "Node");
    EmptyPathSegmentIsAutoName();
    assert fds[..0] == [] && fds[..|fds| - 1] == [];
    assert IsChildField(fds[0]);
    assert ChildKey(EmptyNodeContext, fds[0]) in analyses;
  }
}

=== FILE: codec.dfy ===
/**
 * codec.go, struct.go (NewStructNode), map.go (MapNode.New) and dir.go:
 * the analysis of a type into a graph of nodes. Each node is registered
 * under its NodeID before its children are analysed, so a type that
 * refers to itself reuses its registered node instead of recursing
 * forever. The nodes live in an arena; the registry maps each NodeID to
 * its arena index.
 */
module Codecs {
  import opened Wrappers
  import opened Types
  import opened Tags
  import opened FieldInfos
  import opened Nodes

  datatype AnalysisError =
    | CannotAnalyseNil                                                   // "cannot analyse nil"
    | CannotAnalyseKind(typ: Type, kind: Kind)                           // "failed to analyse T: cannot analyse kind K"
    | FailedToAnalyse(root: Type, inner: AnalysisError)                  // "failed to analyse %T"
    | ReadingField(structName: string, fieldName: string, cause: FieldInfoError)  // "reading field %s.%s"
    | AnalysingField(structName: string, fieldName: string, inner: AnalysisError) // "analysing %T.%s"
    | AnalysingElem(elemType: Type, inner: AnalysisError)                // "analysing type %T failed"
    | AnalysingMapElem(inner: AnalysisError)                             // "analysing map element node"
    | AnalysingNode(id: NodeID, inner: AnalysisError)                    // "analysing %s failed"

  /** The error at the bottom of a chain of wrappers. */
  function Cause(e: AnalysisError): AnalysisError
  {
    match e
    case FailedToAnalyse(_, inner) => Cause(inner)
    case AnalysingField(_, _, inner) => Cause(inner)
    case AnalysingElem(_, inner) => Cause(inner)
    case AnalysingMapElem(inner) => Cause(inner)
    case AnalysingNode(_, inner) => Cause(inner)
    case _ => e
  }

  /** e goes back to the invalid hy tag of a declared struct field. */
  ghost predicate CausedByTag(u: Universe, e: AnalysisError)
  {
    var c := Cause(e);
    && c.ReadingField? && c.structName in u.structs
    && exists i :: 0 <= i < |u.structs[c.structName]| && u.structs[c.structName][i].name == c.fieldName
         && NewFieldInfo(u.structs[c.structName][i]) == Failure(c.cause)
  }

  /** The field information a directory passes for its element: that of Tag{}. */
  function ElemField(t: Type): FieldInfo
  {
    FieldInfo("", "", "", "", "", "", t, ZeroTag, false, false, false, false, false, false, false)
  }

  datatype Shape = StructShape | FileShape | MapShape | SliceShape

  function ShapeOf(k: NodeKind): Option<Shape>
  {
    match k
    case Unset => None
    case FileKind => Some(FileShape)
    case StructKind(_, _) => Some(StructShape)
    case MapKind(_, _, _, _) => Some(MapShape)
    case SliceKind(_) => Some(SliceShape)
  }

  /** The kind of node NewNode makes for an identity and the field it came from. */
  function Dispatch(id: NodeID, field: Option<FieldInfo>): Shape
    requires field.None? ==> id.typ.TStruct? || IsLeaf(id)
  {
    if id.typ.TStruct? then StructShape
    else if IsLeaf(id) || !field.value.tag.isDir then FileShape
    else match id.typ
      case TMap(_, _) => MapShape
      case TSlice(_) => SliceShape
      case _ => FileShape
  }

  /**
   * Structs always get a struct node; a map or slice gets a directory node
   * exactly when its field's tag ends in "/"; everything else is a file.
   */
  lemma DispatchByKind(id: NodeID, field: Option<FieldInfo>)
    requires field.None? ==> id.typ.TStruct? || IsLeaf(id)
    ensures Dispatch(id, field) == StructShape <==> KindOf(id.typ) == StructK
    ensures Dispatch(id, field) == MapShape <==> KindOf(id.typ) == MapK && field.Some? && field.value.tag.isDir
    ensures Dispatch(id, field) == SliceShape <==> KindOf(id.typ) == SliceK && field.Some? && field.value.tag.isDir
    ensures IsLeaf(id) ==> Dispatch(id, field) == FileShape
  {
  }

  /**
   * Struct field fd is where NewStructNode puts it: untagged fields in
   * fields with their declared type, "-" fields nowhere, and every other
   * field in children, pointing at the node registered for its identity.
   */
  ghost predicate FieldPlaced(fd: FieldDecl, parentType: Type, fields: map<string, Type>, children: map<string, nat>, registry: map<NodeID, nat>)
  {
    && NewFieldInfo(fd).Success?
    && TagPlaced(fd.name, fd.typ, NewFieldInfo(fd).value.tag, NewNodeID(Some(parentType), fd.typ, fd.name), fields, children, registry)
  }

  /** Where a field of the given name, type, tag and child identity belongs. */
  ghost predicate TagPlaced(name: string, typ: Type, tag: Tag, cid: NodeID, fields: map<string, Type>, children: map<string, nat>, registry: map<NodeID, nat>)
  {
    if tag.none then name in fields && fields[name] == typ && name !in children
    else if tag.ignore then name !in fields && name !in children
    else name in children && name !in fields && cid in registry && children[name] == registry[cid]
  }

  /** The first n fields of fds are placed, and nothing else is. */
  ghost predicate Placed(fds: seq<FieldDecl>, n: nat, parentType: Type, fields: map<string, Type>, children: map<string, nat>, registry: map<NodeID, nat>)
    requires n <= |fds|
  {
    && fields.Keys !! children.Keys
    && (forall name :: name in fields ==> DeclaredBefore(fds, n, name))
    && (forall name :: name in children ==> DeclaredBefore(fds, n, name))
    && (forall j :: 0 <= j < n ==> FieldPlaced(fds[j], parentType, fields, children, registry))
  }

  /** One of the first n fields is called name. */
  ghost predicate DeclaredBefore(fds: seq<FieldDecl>, n: nat, name: string)
    requires n <= |fds|
  {
    exists j :: 0 <= j < n && fds[j].name == name
  }

  /** The registry and the arena are a bijection, and every stored index is in range. */
  ghost predicate ValidState(nodes: seq<Node>, registry: map<NodeID, nat>)
  {
    && (forall id :: id in registry ==> registry[id] < |nodes| && nodes[registry[id]].id == id)
    && (forall i :: 0 <= i < |nodes| ==> nodes[i].id in registry && registry[nodes[i].id] == i)
    && (forall i :: 0 <= i < |nodes| ==> Linked(nodes[i], |nodes|))
  }

  /** The registry only grows, and keeps its old entries. */
  ghost predicate Grows(oldRegistry: map<NodeID, nat>, registry: map<NodeID, nat>)
  {
    forall id :: id in oldRegistry ==> id in registry && registry[id] == oldRegistry[id]
  }

  /** The arena and registry (nodes2, r2) keep everything of (nodes1, r1). */
  ghost predicate Extended(nodes1: seq<Node>, r1: map<NodeID, nat>, nodes2: seq<Node>, r2: map<NodeID, nat>)
  {
    && |nodes1| <= |nodes2|
    && (forall j :: 0 <= j < |nodes1| ==> nodes2[j] == nodes1[j])
    && Grows(r1, r2)
  }

  lemma ExtendedTrans(n1: seq<Node>, r1: map<NodeID, nat>, n2: seq<Node>, r2: map<NodeID, nat>, n3: seq<Node>, r3: map<NodeID, nat>)
    requires Extended(n1, r1, n2, r2) && Extended(n2, r2, n3, r3)
    ensures Extended(n1, r1, n3, r3)
  {
  }

  /** A node kind of the shape Dispatch picks, whose contents are those of the type. */
  ghost predicate KindBuilt(u: Universe, registry: map<NodeID, nat>, id: NodeID, field: Option<FieldInfo>, kind: NodeKind)
    requires field.None? ==> id.typ.TStruct? || IsLeaf(id)
  {
    && ShapeOf(kind) == Some(Dispatch(id, field))
    && match kind
      case StructKind(fields, children) =>
        var fds := FieldsOf(u, id.typ.name);
        Placed(fds, |fds|, id.typ, fields, children, registry)
      case MapKind(k, m, unm, elem) =>
        && id.typ.TMap? && k == id.typ.key && (m, unm) == KeyCodecFor(u, k)
        && ElemRegistered(id, elem, registry)
      case SliceKind(elem) =>
        && id.typ.TSlice? && ElemRegistered(id, elem, registry)
      case _ => true
  }

  /** (nodes2, r2) keeps everything of (nodes1, r1) except slot idx. */
  ghost predicate ExtendedBut(nodes1: seq<Node>, r1: map<NodeID, nat>, nodes2: seq<Node>, r2: map<NodeID, nat>, idx: nat)
  {
    && |nodes1| <= |nodes2|
    && (forall j :: 0 <= j < |nodes1| && j != idx ==> nodes2[j] == nodes1[j])
    && Grows(r1, r2)
  }

  lemma ExtendedButTrans(n1: seq<Node>, r1: map<NodeID, nat>, n2: seq<Node>, r2: map<NodeID, nat>, n3: seq<Node>, r3: map<NodeID, nat>, idx: nat)
    requires Extended(n1, r1, n2, r2) && |n1| <= idx && ExtendedBut(n2, r2, n3, r3, idx)
    ensures Extended(n1, r1, n3, r3)
  {
  }

  class Codec {
    const u: Universe
    var nodes: seq<Node>
    var registry: map<NodeID, nat>

    /** NewCodec: an empty registry over the given types. */
    constructor NewCodec(u: Universe)
      ensures this.u == u && nodes == [] && registry == map[]
      ensures Valid()
    {
      this.u := u;
      nodes := [];
      registry := map[];
    }

    ghost predicate Valid()
      reads this
    {
      ValidState(nodes, registry)
    }

    /** Nothing registered before is lost or changed. */
    ghost predicate Extends(oldNodes: seq<Node>, oldRegistry: map<NodeID, nat>)
      reads this
    {
      Extended(oldNodes, oldRegistry, nodes, registry)
    }

    /** What a successful NewNode leaves at index i for a new identity. */
    ghost predicate Built(i: nat, id: NodeID, parent: Option<nat>, field: Option<FieldInfo>)
      reads this
      requires field.None? ==> id.typ.TStruct? || IsLeaf(id)
    {
      && i < |nodes|
      && nodes[i] == Node(id, parent, field, nodes[i].kind)
      && KindBuilt(u, registry, id, field, nodes[i].kind)
    }

    /** NodeSet.Register: the slot registered for id, and whether it was just created (empty). */
    method Register(id: NodeID) returns (idx: nat, isNew: bool)
      requires Valid()
      modifies this
      ensures Valid()
      ensures isNew <==> id !in old(registry)
      ensures !isNew ==> idx == old(registry)[id] && nodes == old(nodes) && registry == old(registry)
      ensures isNew ==> idx == |old(nodes)| && nodes == old(nodes) + [Node(id, None, None, Unset)]
                        && registry == old(registry)[id := idx]
    {
      if id in registry {
        return registry[id], false;
      }
      idx := |nodes|;
      nodes := nodes + [Node(id, None, None, Unset)];
      registry := registry[id := idx];
      isNew := true;
    }

    /**
     * NewNode: the node registered for id, analysing it first if it is
     * new. A reused node is returned as it is, even while its own
     * analysis is still under way.
     */
    method NewNode(parent: Option<nat>, id: NodeID, field: Option<FieldInfo>, ghost root: Type)
      returns (idx: nat, err: Option<AnalysisError>)
      requires Valid() && WellFormedUniverse(u)
      requires id in IdScope(u, root)
      requires parent.Some? ==> parent.value < |nodes|
      requires field.None? ==> id.typ.TStruct? || IsLeaf(id)
      modifies this
      ensures Valid() && Extends(old(nodes), old(registry))
      ensures id in registry && idx == registry[id]
      ensures id in old(registry) ==> idx == old(registry)[id] && nodes == old(nodes) && registry == old(registry) && err.None?
      ensures id !in old(registry) && err.None? ==> Built(idx, id, parent, field)
      ensures err.Some? ==> CausedByTag(u, err.value)
      decreases IdScope(u, root) - registry.Keys, 5
    {
      var isNew;
      idx, isNew := Register(id);
      if !isNew {
        return idx, None;
      }
      assert registry.Keys - {id} == old(registry).Keys;
      ghost var midNodes, midRegistry := nodes, registry;
      err := Fill(idx, parent, id, field, root);
      ExtendedButTrans(old(nodes), old(registry), midNodes, midRegistry, nodes, registry, idx);
    }

    /** The analysis of a just registered identity, stored in its slot. */
    method Fill(idx: nat, parent: Option<nat>, id: NodeID, field: Option<FieldInfo>, ghost root: Type)
      returns (err: Option<AnalysisError>)
      requires Valid() && WellFormedUniverse(u)
      requires id in IdScope(u, root) && id in registry && registry[id] == idx
      requires parent.Some? ==> parent.value < |nodes|
      requires field.None? ==> id.typ.TStruct? || IsLeaf(id)
      modifies this
      ensures Valid() && ExtendedBut(old(nodes), old(registry), nodes, registry, idx)
      ensures err.None? ==> Built(idx, id, parent, field)
      ensures err.Some? ==> CausedByTag(u, err.value)
      decreases IdScope(u, root) - (registry.Keys - {id}), 4
    {
      if Dispatch(id, field) == StructShape {
        err := FillStruct(idx, parent, id, field, root);
      } else {
        err := FillOther(idx, parent, id, field, root);
      }
    }

    /** A struct slot: its fields and children once every field is placed. */
    method FillStruct(idx: nat, parent: Option<nat>, id: NodeID, field: Option<FieldInfo>, ghost root: Type)
      returns (err: Option<AnalysisError>)
      requires Valid() && WellFormedUniverse(u)
      requires id in IdScope(u, root) && id in registry && registry[id] == idx
      requires parent.Some? ==> parent.value < |nodes|
      requires field.None? ==> id.typ.TStruct? || IsLeaf(id)
      requires Dispatch(id, field) == StructShape
      modifies this
      ensures Valid() && ExtendedBut(old(nodes), old(registry), nodes, registry, idx)
      ensures err.None? ==> Built(idx, id, parent, field)
      ensures err.Some? ==> CausedByTag(u, err.value)
      decreases IdScope(u, root) - (registry.Keys - {id}), 3
    {
      var r := NewStructNode(idx, id, root);
      if r.Failure? {
        return Some(r.error);
      }
      var fds := FieldsOf(u, id.typ.name);
      PlacedLinked(fds, id.typ, r.value.fields, r.value.children, nodes, registry);
      assert KindBuilt(u, registry, id, field, r.value);
      SetSlot(nodes, registry, idx, Node(id, parent, field, r.value));
      nodes := nodes[idx := Node(id, parent, field, r.value)];
      return None;
    }

    /** The kind of a map, slice or file node, by the shape Dispatch picks. */
    method OtherKind(idx: nat, id: NodeID, field: Option<FieldInfo>, ghost root: Type)
      returns (kind: NodeKind, err: Option<AnalysisError>)
      requires Valid() && WellFormedUniverse(u)
      requires id in IdScope(u, root) && id in registry && registry[id] == idx
      requires field.None? ==> id.typ.TStruct? || IsLeaf(id)
      requires Dispatch(id, field) != StructShape
      modifies this
      ensures Valid() && Extends(old(nodes), old(registry))
      ensures KindBuilt(u, registry, id, field, kind) && !kind.Unset? && !kind.StructKind?
      ensures err.Some? ==> CausedByTag(u, err.value)
      decreases IdScope(u, root) - (registry.Keys - {id}), 2
    {
      var shape := Dispatch(id, field);
      if shape == MapShape {
        kind, err := NewMapNode(idx, id, root);
      } else if shape == SliceShape {
        kind, err := NewSliceNode(idx, id, root);
      } else {
        kind, err := FileKind, None;
      }
    }

    /** A map, slice or file slot; a directory slot also gets its element node. */
    method FillOther(idx: nat, parent: Option<nat>, id: NodeID, field: Option<FieldInfo>, ghost root: Type)
      returns (err: Option<AnalysisError>)
      requires Valid() && WellFormedUniverse(u)
      requires id in IdScope(u, root) && id in registry && registry[id] == idx
      requires parent.Some? ==> parent.value < |nodes|
      requires field.None? ==> id.typ.TStruct? || IsLeaf(id)
      requires Dispatch(id, field) != StructShape
      modifies this
      ensures Valid() && ExtendedBut(old(nodes), old(registry), nodes, registry, idx)
      ensures err.None? ==> Built(idx, id, parent, field)
      ensures err.Some? ==> CausedByTag(u, err.value)
      decreases IdScope(u, root) - (registry.Keys - {id}), 3
    {
      var kind, e := OtherKind(idx, id, field, root);
      SetSlot(nodes, registry, idx, Node(id, parent, field, kind));
      nodes := nodes[idx := Node(id, parent, field, kind)];
      err := if e.Some? then Some(AnalysingNode(id, e.value)) else None;
    }

    /**
     * NewStructNode: reads every field's policy in declaration order and
     * places it; the first invalid tag or failing child analysis ends it.
     */
    method NewStructNode(self: nat, id: NodeID, ghost root: Type) returns (r: Result<NodeKind, AnalysisError>)
      requires Valid() && WellFormedUniverse(u)
      requires id in IdScope(u, root) && id.typ.TStruct?
      requires id in registry && registry[id] == self
      modifies this
      ensures Valid() && Extends(old(nodes), old(registry))
      ensures r.Success? ==> r.value.StructKind?
      ensures r.Success? ==> var fds := FieldsOf(u, id.typ.name);
        Placed(fds, |fds|, id.typ, r.value.fields, r.value.children, registry)
      ensures r.Failure? ==> CausedByTag(u, r.error)
      decreases IdScope(u, root) - (registry.Keys - {id}), 2
    {
      var fds := FieldsOf(u, id.typ.name);
      var fields: map<string, Type> := map[];
      var children: map<string, nat> := map[];
      for i := 0 to |fds|
        invariant Valid() && Extends(old(nodes), old(registry))
        invariant id in registry && registry[id] == self
        invariant Placed(fds, i, id.typ, fields, children, registry)
      {
        ghost var beforeNodes, beforeRegistry := nodes, registry;
        var placed := PlaceNext(self, id, root, i, fields, children);
        ExtendedTrans(old(nodes), old(registry), beforeNodes, beforeRegistry, nodes, registry);
        if placed.Failure? {
          return Failure(placed.error);
        }
        fields, children := placed.value.0, placed.value.1;
      }
      return Success(StructKind(fields, children));
    }

    /** One step of NewStructNode: the policy of field i, and where it puts the field. */
    method PlaceNext(self: nat, id: NodeID, ghost root: Type, i: nat, fields: map<string, Type>, children: map<string, nat>)
      returns (r: Result<(map<string, Type>, map<string, nat>), AnalysisError>)
      requires Valid() && WellFormedUniverse(u)
      requires id in IdScope(u, root) && id.typ.TStruct?
      requires id in registry && registry[id] == self
      requires i < |FieldsOf(u, id.typ.name)|
      requires Placed(FieldsOf(u, id.typ.name), i, id.typ, fields, children, registry)
      modifies this
      ensures Valid() && Extends(old(nodes), old(registry))
      ensures r.Success? ==> Placed(FieldsOf(u, id.typ.name), i + 1, id.typ, r.value.0, r.value.1, registry)
      ensures r.Failure? ==> CausedByTag(u, r.error)
      decreases IdScope(u, root) - (registry.Keys - {id}), 1
    {
      var fds := FieldsOf(u, id.typ.name);
      var fd := fds[i];
      var fi := NewFieldInfo(fd);
      if fi.Failure? {
        ReadingFieldCaused(u, id.typ.name, i);
        return Failure(ReadingField(id.typ.name, fd.name, fi.error));
      }
      var info := fi.value;
      EarlierNamesDiffer(u, id.typ.name, i);
      if info.tag.none {
        PlaceField(fds, i, id.typ, fields, children, registry);
        return Success((fields[fd.name := fd.typ], children));
      } else if info.tag.ignore {
        PlaceIgnored(fds, i, id.typ, fields, children, registry);
        return Success((fields, children));
      }
      r := PlaceTagged(self, id, root, i, info, fields, children);
    }

    /** A field with a path tag: its node is made or reused, and becomes the child under the field's name. */
    method PlaceTagged(self: nat, id: NodeID, ghost root: Type, i: nat, info: FieldInfo,
                       fields: map<string, Type>, children: map<string, nat>)
      returns (r: Result<(map<string, Type>, map<string, nat>), AnalysisError>)
      requires Valid() && WellFormedUniverse(u)
      requires id in IdScope(u, root) && id.typ.TStruct?
      requires id in registry && registry[id] == self
      requires i < |FieldsOf(u, id.typ.name)|
      requires NewFieldInfo(FieldsOf(u, id.typ.name)[i]) == Success(info) && !info.tag.none && !info.tag.ignore
      requires forall j :: 0 <= j < i ==> FieldsOf(u, id.typ.name)[j].name != FieldsOf(u, id.typ.name)[i].name
      requires Placed(FieldsOf(u, id.typ.name), i, id.typ, fields, children, registry)
      modifies this
      ensures Valid() && Extends(old(nodes), old(registry))
      ensures r.Success? ==> Placed(FieldsOf(u, id.typ.name), i + 1, id.typ, r.value.0, r.value.1, registry)
      ensures r.Failure? ==> CausedByTag(u, r.error)
      decreases IdScope(u, root) - (registry.Keys - {id}), 0
    {
      var fds := FieldsOf(u, id.typ.name);
      var fd := fds[i];
      var cid := NewNodeID(Some(id.typ), fd.typ, fd.name);
      IdScopeParts(u, root, id);
      FieldInScope(u, root, id, i);
      assert id in IdScope(u, root) - (old(registry).Keys - {id});
      var child, e := NewNode(Some(self), cid, Some(info), root);
      if e.Some? {
        return Failure(AnalysingField(id.typ.name, fd.name, e.value));
      }
      PlacedGrows(fds, i, id.typ, fields, children, old(registry), registry);
      PlaceChild(fds, i, id.typ, fields, children, registry, child);
      return Success((fields, children[fd.name := child]));
    }

    /** MapNode.New: the key codec for the key type, then the element node. */
    method NewMapNode(self: nat, id: NodeID, ghost root: Type) returns (kind: NodeKind, err: Option<AnalysisError>)
      requires Valid() && WellFormedUniverse(u)
      requires id in IdScope(u, root) && id.typ.TMap?
      requires id in registry && registry[id] == self
      modifies this
      ensures Valid() && Extends(old(nodes), old(registry))
      ensures kind.MapKind? && kind.keyType == id.typ.key && (kind.marshal, kind.unmarshalString) == KeyCodecFor(u, id.typ.key)
      ensures ElemRegistered(id, kind.elem, registry)
      ensures err.Some? ==> CausedByTag(u, err.value)
      decreases IdScope(u, root) - (registry.Keys - {id}), 1
    {
      var (m, unm) := KeyCodecFor(u, id.typ.key);
      var elem, e := AnalyseElemNode(self, id, root);
      kind := MapKind(id.typ.key, m, unm, elem);
      err := if e.Some? then Some(AnalysingMapElem(e.value)) else None;
    }

    /** The slice counterpart of NewMapNode: a directory node with an element node. */
    method NewSliceNode(self: nat, id: NodeID, ghost root: Type) returns (kind: NodeKind, err: Option<AnalysisError>)
      requires Valid() && WellFormedUniverse(u)
      requires id in IdScope(u, root) && id.typ.TSlice?
      requires id in registry && registry[id] == self
      modifies this
      ensures Valid() && Extends(old(nodes), old(registry))
      ensures kind.SliceKind? && ElemRegistered(id, kind.elem, registry)
      ensures err.Some? ==> CausedByTag(u, err.value)
      decreases IdScope(u, root) - (registry.Keys - {id}), 1
    {
      var elem;
      elem, err := AnalyseElemNode(self, id, root);
      kind := SliceKind(elem);
    }

    /**
     * DirNodeBase.AnalyseElemNode: the node for the element type, with the
     * directory as parent, an empty field name and the field information
     * of Tag{}; it is looked up in the registry like any other node.
     */
    method AnalyseElemNode(self: nat, id: NodeID, ghost root: Type) returns (elem: nat, err: Option<AnalysisError>)
      requires Valid() && WellFormedUniverse(u)
      requires id in IdScope(u, root) && (id.typ.TMap? || id.typ.TSlice?)
      requires id in registry && registry[id] == self
      modifies this
      ensures Valid() && Extends(old(nodes), old(registry))
      ensures ElemRegistered(id, elem, registry)
      ensures err.Some? ==> CausedByTag(u, err.value) && err.value.AnalysingElem? && err.value.elemType == id.typ.elem
      decreases IdScope(u, root) - (registry.Keys - {id}), 0
    {
      var elemType := id.typ.elem;
      var eid := NewNodeID(Some(id.typ), elemType, "");
      ElemInScope(u, root, id);
      assert id in IdScope(u, root) - (old(registry).Keys - {id});
      var e;
      elem, e := NewNode(Some(self), eid, Some(ElemField(elemType)), root);
      err := if e.Some? then Some(AnalysingElem(elemType, e.value)) else None;
    }

    /**
     * Analyse: the root node of a type. Nil and leaf kinds are refused;
     * a struct (or pointer to struct) is analysed from a fresh identity
     * with no parent and no field.
     */
    method Analyse(root: Option<Type>) returns (r: Result<nat, AnalysisError>)
      requires Valid() && WellFormedUniverse(u)
      requires root.Some? ==> var id := NewNodeID(None, root.value, ""); id.typ.TStruct? || IsLeaf(id)
      modifies this
      ensures Valid() && Extends(old(nodes), old(registry))
      ensures root.None? ==> r == Failure(CannotAnalyseNil)
      ensures root.Some? && IsLeaf(NewNodeID(None, root.value, "")) ==>
        var id := NewNodeID(None, root.value, "");
        r == Failure(CannotAnalyseKind(id.typ, KindOf(id.typ)))
      ensures r.Success? ==> root.Some? && r.value < |nodes| && nodes[r.value].id == NewNodeID(None, root.value, "")
      ensures r.Success? && NewNodeID(None, root.value, "") !in old(registry) ==>
        Built(r.value, NewNodeID(None, root.value, ""), None, None) && nodes[r.value].kind.StructKind?
      ensures r.Failure? && root.Some? && !IsLeaf(NewNodeID(None, root.value, "")) ==>
        r.error.FailedToAnalyse? && CausedByTag(u, r.error)
    {
      if root.None? {
        return Failure(CannotAnalyseNil);
      }
      var t := root.value;
      var id := NewNodeID(None, t, "");
      if IsLeaf(id) {
        return Failure(CannotAnalyseKind(id.typ, KindOf(id.typ)));
      }
      NewNodeIDInScope(u, t, None, t, "");
      var n, err := NewNode(None, id, None, t);
      if err.Some? {
        return Failure(FailedToAnalyse(t, err.value));
      }
      return Success(n);
    }
  }

  /** elem is the node registered for the element identity of a map or slice identity. */
  ghost predicate ElemRegistered(id: NodeID, elem: nat, registry: map<NodeID, nat>)
    requires id.typ.TMap? || id.typ.TSlice?
  {
    var eid := NewNodeID(Some(id.typ), id.typ.elem, "");
    eid in registry && registry[eid] == elem
  }

  /** The parts of an identity in scope are in scope. */
  lemma IdScopeParts(u: Universe, root: Type, id: NodeID)
    requires id in IdScope(u, root)
    ensures id.typ in TypeScope(u, root)
    ensures id.parentType.Some? ==> id.parentType.value in TypeScope(u, root)
  {
  }

  /** A child identity built from a struct's field is in scope. */
  lemma FieldInScope(u: Universe, root: Type, id: NodeID, i: nat)
    requires id in IdScope(u, root) && id.typ.TStruct? && i < |FieldsOf(u, id.typ.name)|
    ensures var fd := FieldsOf(u, id.typ.name)[i];
      NewNodeID(Some(id.typ), fd.typ, fd.name) in IdScope(u, root)
  {
    var n := id.typ.name;
    var fd := u.structs[n][i];
    assert fd.typ in Subterms(fd.typ);
    assert fd.typ in FieldTypes(u);
    assert fd.name in FieldNames(u);
    NewNodeIDInScope(u, root, Some(id.typ), fd.typ, fd.name);
  }

  /** The element identity of a map or slice in scope is in scope. */
  lemma ElemInScope(u: Universe, root: Type, id: NodeID)
    requires id in IdScope(u, root) && (id.typ.TMap? || id.typ.TSlice?)
    ensures NewNodeID(Some(id.typ), id.typ.elem, "") in IdScope(u, root)
  {
    TypeScopeClosed(u, root);
    assert id.typ.elem in Subterms(id.typ);
    NewNodeIDInScope(u, root, Some(id.typ), id.typ.elem, "");
  }

  /** An invalid tag on field i of a declared struct is a tag-caused error. */
  lemma ReadingFieldCaused(u: Universe, name: string, i: nat)
    requires name in u.structs && i < |u.structs[name]| && NewFieldInfo(u.structs[name][i]).Failure?
    ensures CausedByTag(u, ReadingField(name, u.structs[name][i].name, NewFieldInfo(u.structs[name][i]).error))
  {
  }

  /** Distinct field names: a field's name differs from every earlier one. */
  lemma EarlierNamesDiffer(u: Universe, name: string, i: nat)
    requires WellFormedUniverse(u) && i < |FieldsOf(u, name)|
    ensures forall j :: 0 <= j < i ==> FieldsOf(u, name)[j].name != FieldsOf(u, name)[i].name
  {
  }

  /** An untagged field goes into fields. */
  lemma PlaceField(fds: seq<FieldDecl>, i: nat, parentType: Type, fields: map<string, Type>, children: map<string, nat>, registry: map<NodeID, nat>)
    requires i < |fds| && Placed(fds, i, parentType, fields, children, registry)
    requires forall j :: 0 <= j < i ==> fds[j].name != fds[i].name
    requires NewFieldInfo(fds[i]).Success? && NewFieldInfo(fds[i]).value.tag.none
    ensures Placed(fds, i + 1, parentType, fields[fds[i].name := fds[i].typ], children, registry)
  {
    var name := fds[i].name;
    var fields' := fields[name := fds[i].typ];
    EarlierStayPlaced(fds, i, parentType, fields, children, registry, fields', children);
    NameIsNew(fds, i, children);
    assert TagPlaced(name, fds[i].typ, NewFieldInfo(fds[i]).value.tag, NewNodeID(Some(parentType), fds[i].typ, name), fields', children, registry);
    NamesDeclared(fds, i, fields, children, fields', children);
    PlacedFrom(fds, i, parentType, fields', children, registry);
  }

  /** A field whose name differs from every earlier one is not yet placed. */
  lemma NameIsNew<V>(fds: seq<FieldDecl>, i: nat, placed: map<string, V>)
    requires i < |fds|
    requires forall n :: n in placed ==> DeclaredBefore(fds, i, n)
    requires forall j :: 0 <= j < i ==> fds[j].name != fds[i].name
    ensures fds[i].name !in placed
  {
    forall n | n in placed
      ensures n != fds[i].name
    {
      var j :| 0 <= j < i && fds[j].name == n;
    }
  }

  /** The parts of Placed for the first i + 1 fields. */
  lemma PlacedFrom(fds: seq<FieldDecl>, i: nat, parentType: Type, fields: map<string, Type>, children: map<string, nat>, registry: map<NodeID, nat>)
    requires i < |fds| && fields.Keys !! children.Keys
    requires forall n :: n in fields ==> DeclaredBefore(fds, i + 1, n)
    requires forall n :: n in children ==> DeclaredBefore(fds, i + 1, n)
    requires forall j :: 0 <= j < i ==> FieldPlaced(fds[j], parentType, fields, children, registry)
    requires NewFieldInfo(fds[i]).Success?
    requires TagPlaced(fds[i].name, fds[i].typ, NewFieldInfo(fds[i]).value.tag, NewNodeID(Some(parentType), fds[i].typ, fds[i].name), fields, children, registry)
    ensures Placed(fds, i + 1, parentType, fields, children, registry)
  {
    assert FieldPlaced(fds[i], parentType, fields, children, registry);
  }

  /** An ignored field goes nowhere. */
  lemma PlaceIgnored(fds: seq<FieldDecl>, i: nat, parentType: Type, fields: map<string, Type>, children: map<string, nat>, registry: map<NodeID, nat>)
    requires i < |fds| && Placed(fds, i, parentType, fields, children, registry)
    requires forall j :: 0 <= j < i ==> fds[j].name != fds[i].name
    requires NewFieldInfo(fds[i]).Success? && !NewFieldInfo(fds[i]).value.tag.none && NewFieldInfo(fds[i]).value.tag.ignore
    ensures Placed(fds, i + 1, parentType, fields, children, registry)
  {
    NameIsNew(fds, i, fields);
    NameIsNew(fds, i, children);
    NamesDeclared(fds, i, fields, children, fields, children);
    PlacedFrom(fds, i, parentType, fields, children, registry);
  }

  /** Any other field becomes a child, pointing at the node registered for its identity. */
  lemma PlaceChild(fds: seq<FieldDecl>, i: nat, parentType: Type, fields: map<string, Type>, children: map<string, nat>, registry: map<NodeID, nat>, child: nat)
    requires i < |fds| && Placed(fds, i, parentType, fields, children, registry)
    requires forall j :: 0 <= j < i ==> fds[j].name != fds[i].name
    requires NewFieldInfo(fds[i]).Success? && !NewFieldInfo(fds[i]).value.tag.none && !NewFieldInfo(fds[i]).value.tag.ignore
    requires var cid := NewNodeID(Some(parentType), fds[i].typ, fds[i].name); cid in registry && registry[cid] == child
    ensures Placed(fds, i + 1, parentType, fields, children[fds[i].name := child], registry)
  {
    var name := fds[i].name;
    var children' := children[name := child];
    EarlierStayPlaced(fds, i, parentType, fields, children, registry, fields, children');
    NameIsNew(fds, i, fields);
    assert TagPlaced(name, fds[i].typ, NewFieldInfo(fds[i]).value.tag, NewNodeID(Some(parentType), fds[i].typ, name), fields, children', registry);
    NamesDeclared(fds, i, fields, children, fields, children');
    PlacedFrom(fds, i, parentType, fields, children', registry);
  }

  /** Changing only the entries for field i's name keeps the earlier fields placed. */
  lemma EarlierStayPlaced(fds: seq<FieldDecl>, i: nat, parentType: Type, fields: map<string, Type>, children: map<string, nat>,
                          registry: map<NodeID, nat>, fields': map<string, Type>, children': map<string, nat>)
    requires i < |fds| && forall j :: 0 <= j < i ==> fds[j].name != fds[i].name
    requires forall j :: 0 <= j < i ==> FieldPlaced(fds[j], parentType, fields, children, registry)
    requires forall n :: n != fds[i].name ==> (n in fields' <==> n in fields) && (n in fields ==> fields'[n] == fields[n])
    requires forall n :: n != fds[i].name ==> (n in children' <==> n in children) && (n in children ==> children'[n] == children[n])
    ensures forall j :: 0 <= j < i ==> FieldPlaced(fds[j], parentType, fields', children', registry)
  {
    forall j | 0 <= j < i
      ensures FieldPlaced(fds[j], parentType, fields', children', registry)
    {
      assert FieldPlaced(fds[j], parentType, fields, children, registry);
    }
  }

  /** Names in the maps after step i are among the first i + 1 fields. */
  lemma NamesDeclared(fds: seq<FieldDecl>, i: nat, fields: map<string, Type>, children: map<string, nat>,
                      fields': map<string, Type>, children': map<string, nat>)
    requires i < |fds|
    requires forall n :: n in fields ==> DeclaredBefore(fds, i, n)
    requires forall n :: n in children ==> DeclaredBefore(fds, i, n)
    requires fields'.Keys <= fields.Keys + {fds[i].name} && children'.Keys <= children.Keys + {fds[i].name}
    ensures forall n :: n in fields' ==> DeclaredBefore(fds, i + 1, n)
    ensures forall n :: n in children' ==> DeclaredBefore(fds, i + 1, n)
  {
    forall n | n in fields' ensures DeclaredBefore(fds, i + 1, n) {
      if n != fds[i].name {
        assert DeclaredBefore(fds, i, n);
      }
    }
    forall n | n in children' ensures DeclaredBefore(fds, i + 1, n) {
      if n != fds[i].name {
        assert DeclaredBefore(fds, i, n);
      }
    }
  }

  /** Placements survive the registry growing. */
  lemma PlacedGrows(fds: seq<FieldDecl>, i: nat, parentType: Type, fields: map<string, Type>, children: map<string, nat>, r1: map<NodeID, nat>, r2: map<NodeID, nat>)
    requires i <= |fds| && Placed(fds, i, parentType, fields, children, r1) && Grows(r1, r2)
    ensures Placed(fds, i, parentType, fields, children, r2)
  {
    forall j | 0 <= j < i
      ensures FieldPlaced(fds[j], parentType, fields, children, r2)
    {
      assert FieldPlaced(fds[j], parentType, fields, children, r1);
    }
  }

  /** Every child of a completed placement is a node of the arena. */
  lemma PlacedLinked(fds: seq<FieldDecl>, parentType: Type, fields: map<string, Type>, children: map<string, nat>, nodes: seq<Node>, registry: map<NodeID, nat>)
    requires ValidState(nodes, registry) && Placed(fds, |fds|, parentType, fields, children, registry)
    ensures forall name :: name in children ==> children[name] < |nodes|
  {
    forall name | name in children
      ensures children[name] < |nodes|
    {
      var j :| 0 <= j < |fds| && fds[j].name == name;
      assert FieldPlaced(fds[j], parentType, fields, children, registry);
    }
  }

  /** Filling a slot with a node of the same identity whose references are in range keeps the arena valid. */
  lemma SetSlot(nodes: seq<Node>, registry: map<NodeID, nat>, idx: nat, n: Node)
    requires ValidState(nodes, registry) && idx < |nodes| && nodes[idx].id == n.id && Linked(n, |nodes|)
    ensures ValidState(nodes[idx := n], registry)
  {
  }

  /**
   * Every declared field of a completed placement ends up in exactly one
   * place: among the fields when it has no hy tag, among the children when
   * its tag is neither absent nor "-", and nowhere when it is "-".
   */
  lemma PlacedExactlyOnce(fds: seq<FieldDecl>, parentType: Type, fields: map<string, Type>, children: map<string, nat>, registry: map<NodeID, nat>)
    requires Placed(fds, |fds|, parentType, fields, children, registry)
    requires forall i, j :: 0 <= i < j < |fds| ==> fds[i].name != fds[j].name
    ensures forall i :: 0 <= i < |fds| ==> NewFieldInfo(fds[i]).Success?
    ensures forall i :: 0 <= i < |fds| ==>
      (fds[i].name in fields <==> ParseTag(fds[i].hyTag).value.none)
    ensures forall i :: 0 <= i < |fds| ==>
      (fds[i].name in children <==> !ParseTag(fds[i].hyTag).value.none && !ParseTag(fds[i].hyTag).value.ignore)
    ensures forall i :: 0 <= i < |fds| && fds[i].name in fields ==> fields[fds[i].name] == fds[i].typ
    ensures forall name :: name in fields ==> name in NamesOf(fds)
    ensures forall name :: name in children ==> name in NamesOf(fds)
  {
    forall i | 0 <= i < |fds|
      ensures NewFieldInfo(fds[i]).Success?
      ensures fds[i].name in fields <==> ParseTag(fds[i].hyTag).value.none
      ensures fds[i].name in children <==> !ParseTag(fds[i].hyTag).value.none && !ParseTag(fds[i].hyTag).value.ignore
    {
      assert FieldPlaced(fds[i], parentType, fields, children, registry);
    }
    forall name | name in fields
      ensures name in NamesOf(fds)
    {
      assert DeclaredBefore(fds, |fds|, name);
    }
    forall name | name in children
      ensures name in NamesOf(fds)
    {
      assert DeclaredBefore(fds, |fds|, name);
    }
  }

  /** The positions of the fields without an hy tag. */
  function UntaggedIndices(fds: seq<FieldDecl>): set<int>
  {
    set i | 0 <= i < |fds| && fds[i].hyTag == []
  }

  /** The positions of the fields with a valid hy tag other than "-". */
  function ChildIndices(fds: seq<FieldDecl>): set<int>
  {
    set i | 0 <= i < |fds| && ParseTag(fds[i].hyTag).Success? && !ParseTag(fds[i].hyTag).value.none && !ParseTag(fds[i].hyTag).value.ignore
  }

  /** The names at a set of positions of fds. */
  function NamesAt(fds: seq<FieldDecl>, idx: set<int>): set<string>
    requires forall i :: i in idx ==> 0 <= i < |fds|
  {
    set i | i in idx :: fds[i].name
  }

  /** Taking one position out of idx takes out its name and leaves the others. */
  lemma NamesAtSplit(fds: seq<FieldDecl>, idx: set<int>, x: int)
    requires forall i :: i in idx ==> 0 <= i < |fds|
    requires x in idx
    ensures NamesAt(fds, idx) == NamesAt(fds, idx - {x}) + {fds[x].name}
  {
  }

  /** Distinct names: the name at position x is none of the names at other positions. */
  lemma NameNotAmong(fds: seq<FieldDecl>, idx: set<int>, x: int)
    requires forall i :: i in idx ==> 0 <= i < |fds|
    requires 0 <= x < |fds| && x !in idx
    requires forall i, j :: 0 <= i < j < |fds| ==> fds[i].name != fds[j].name
    ensures fds[x].name !in NamesAt(fds, idx)
  {
  }

  /** Distinct names: one position more is one name more. */
  lemma NamesAtStep(fds: seq<FieldDecl>, idx: set<int>, x: int)
    requires forall i :: i in idx ==> 0 <= i < |fds|
    requires forall i, j :: 0 <= i < j < |fds| ==> fds[i].name != fds[j].name
    requires x in idx
    ensures |NamesAt(fds, idx)| == |NamesAt(fds, idx - {x})| + 1 && |idx| == |idx - {x}| + 1
  {
    var rest := idx - {x};
    NamesAtSplit(fds, idx, x);
    NameNotAmong(fds, rest, x);
    AddOneCount(NamesAt(fds, rest), fds[x].name);
    AddOneCount(rest, x);
    assert idx == rest + {x};
  }

  /** Adding a new element raises a set's size by one. */
  lemma AddOneCount<T>(a: set<T>, x: T)
    requires x !in a
    ensures |a + {x}| == |a| + 1
  {
  }

  /** Distinct names: the names at a set of positions are as many as the positions. */
  lemma {:induction false} NamesAtCount(fds: seq<FieldDecl>, idx: set<int>)
    requires forall i :: i in idx ==> 0 <= i < |fds|
    requires forall i, j :: 0 <= i < j < |fds| ==> fds[i].name != fds[j].name
    ensures |NamesAt(fds, idx)| == |idx|
    decreases idx
  {
    if idx != {} {
      if forall y :: y !in idx {
        assert false;
      }
      var x :| x in idx;
      NamesAtCount(fds, idx - {x});
      NamesAtStep(fds, idx, x);
    }
  }

  /** In a completed placement, field i is a field exactly when it is untagged, and a child exactly when it has a usable tag. */
  lemma PlacedAt(fds: seq<FieldDecl>, parentType: Type, fields: map<string, Type>, children: map<string, nat>, registry: map<NodeID, nat>, i: int)
    requires Placed(fds, |fds|, parentType, fields, children, registry) && 0 <= i < |fds|
    ensures i in UntaggedIndices(fds) <==> fds[i].name in fields
    ensures i in ChildIndices(fds) <==> fds[i].name in children
  {
    assert FieldPlaced(fds[i], parentType, fields, children, registry);
  }

  /** The field names of a completed placement are the names of the untagged declarations. */
  lemma FieldNamesUntagged(fds: seq<FieldDecl>, parentType: Type, fields: map<string, Type>, children: map<string, nat>, registry: map<NodeID, nat>)
    requires Placed(fds, |fds|, parentType, fields, children, registry)
    ensures fields.Keys == NamesAt(fds, UntaggedIndices(fds))
  {
    var u := UntaggedIndices(fds);
    forall name | name in fields
      ensures name in NamesAt(fds, u)
    {
      assert DeclaredBefore(fds, |fds|, name);
      var i :| 0 <= i < |fds| && fds[i].name == name;
      PlacedAt(fds, parentType, fields, children, registry, i);
    }
    forall name | name in NamesAt(fds, u)
      ensures name in fields
    {
      var i :| i in u && fds[i].name == name;
      PlacedAt(fds, parentType, fields, children, registry, i);
    }
  }

  /** The child names of a completed placement are the names of the tagged declarations. */
  lemma ChildNamesTagged(fds: seq<FieldDecl>, parentType: Type, fields: map<string, Type>, children: map<string, nat>, registry: map<NodeID, nat>)
    requires Placed(fds, |fds|, parentType, fields, children, registry)
    ensures children.Keys == NamesAt(fds, ChildIndices(fds))
  {
    var c := ChildIndices(fds);
    forall name | name in children
      ensures name in NamesAt(fds, c)
    {
      assert DeclaredBefore(fds, |fds|, name);
      var i :| 0 <= i < |fds| && fds[i].name == name;
      PlacedAt(fds, parentType, fields, children, registry, i);
    }
    forall name | name in NamesAt(fds, c)
      ensures name in children
    {
      var i :| i in c && fds[i].name == name;
      PlacedAt(fds, parentType, fields, children, registry, i);
    }
  }

  /** A completed placement holds as many fields as there are untagged declarations, and as many children as tagged ones. */
  lemma PlacedCounts(fds: seq<FieldDecl>, parentType: Type, fields: map<string, Type>, children: map<string, nat>, registry: map<NodeID, nat>)
    requires Placed(fds, |fds|, parentType, fields, children, registry)
    requires forall i, j :: 0 <= i < j < |fds| ==> fds[i].name != fds[j].name
    ensures |fields| == |UntaggedIndices(fds)|
    ensures |children| == |ChildIndices(fds)|
  {
    FieldNamesUntagged(fds, parentType, fields, children, registry);
    ChildNamesTagged(fds, parentType, fields, children, registry);
    NamesAtCount(fds, UntaggedIndices(fds));
    NamesAtCount(fds, ChildIndices(fds));
  }

  /**
   * A struct field whose child identity is the struct node's own identity
   * (StructB.FileSubStruct inside the FileSubStruct node) points back at
   * that node: the registry closes the cycle instead of unrolling it.
   */
  lemma SelfReferenceIsLoop(nodes: seq<Node>, registry: map<NodeID, nat>, i: nat, fds: seq<FieldDecl>, k: nat)
    requires ValidState(nodes, registry) && i < |nodes| && nodes[i].kind.StructKind?
    requires Placed(fds, |fds|, nodes[i].id.typ, nodes[i].kind.fields, nodes[i].kind.children, registry)
    requires k < |fds| && fds[k].name in nodes[i].kind.children
    requires NewNodeID(Some(nodes[i].id.typ), fds[k].typ, fds[k].name) == nodes[i].id
    ensures nodes[i].kind.children[fds[k].name] == i
  {
    var n := nodes[i];
    assert FieldPlaced(fds[k], n.id.typ, n.kind.fields, n.kind.children, registry);
    assert n.id in registry && registry[n.id] == i;
  }
}

=== FILE: codec_examples.dfy ===
/**
 * The StructA / StructB declarations of analyse_test.go, and what the
 * codec's analysis of them yields.
 */
module CodecExamples {
  import opened Wrappers
  import opened Types
  import opened Tags
  import opened FieldInfos
  import opened Nodes
  import opened Codecs

  const Str := TScalar(String, "string")
  const StructAType := TStruct("StructA")
  const StructBType := TStruct("StructB")

  function StructAFields(): seq<FieldDecl>
  {
    [ FieldDecl("EmbeddedString", Str, "", ""),
      FieldDecl("EmbeddedStruct", StructBType, "", ""),
      FieldDecl("FileStruct", StructBType, ".", ""),
      FieldDecl("EmbeddedMap", TMap(Str, Str), "", ""),
      FieldDecl("FileMap", TMap(Str, StructBType), ".", ""),
      FieldDecl("Map", TMap(Str, StructBType), "./", ""),
      FieldDecl("EmbeddedSlice", TSlice(Str), "", ""),
      FieldDecl("FileSlice", TSlice(Str), ".", ""),
      FieldDecl("Slice", TSlice(TPtr(StructBType)), "./", "") ]
  }

  /** StructB refers to itself through a pointer field and a map of pointers. */
  function StructBFields(): seq<FieldDecl>
  {
    [ FieldDecl("Name", Str, "", ""),
      FieldDecl("FileSubStruct", TPtr(StructBType), ".", ""),
      FieldDecl("DirSubMap", TMap(Str, TPtr(StructBType)), "./", "") ]
  }

  function Example(): Universe
  {
    Universe(map["StructA" := StructAFields(), "StructB" := StructBFields()], {})
  }

  lemma ExampleWellFormed()
    ensures WellFormedUniverse(Example())
  {
  }

  /** Every tag of the example is "", "." or "./", and each of them parses. */
  lemma ExampleTagsParse()
    ensures forall n, i :: n in Example().structs && 0 <= i < |Example().structs[n]| ==>
      NewFieldInfo(Example().structs[n][i]).Success?
  {
    forall n, i | n in Example().structs && 0 <= i < |Example().structs[n]|
      ensures NewFieldInfo(Example().structs[n][i]).Success?
    {
      var fds := Example().structs[n];
      assert fds == StructAFields() || fds == StructBFields();
      ExampleTagPolicies(fds[i].hyTag);
    }
  }

  /** No error of the example's analysis can be caused by a tag. */
  lemma NoTagFailure(e: AnalysisError)
    ensures !CausedByTag(Example(), e)
  {
    ExampleTagsParse();
  }

  lemma StructANamesDistinct()
    ensures var fds := StructAFields(); forall i, j :: 0 <= i < j < |fds| ==> fds[i].name != fds[j].name
  {
  }

  /** StructA has four untagged fields. */
  lemma StructAUntagged()
    ensures UntaggedIndices(StructAFields()) == {0, 1, 3, 6}
    ensures |UntaggedIndices(StructAFields())| == 4
  {
    assert UntaggedIndices(StructAFields()) == {0, 1, 3, 6};
  }

  /** The tags "." and "./" make a child; "" does not. */
  lemma ExampleTagPolicies(t: string)
    requires t in {"", ".", "./"}
    ensures ParseTag(t).Success?
    ensures !ParseTag(t).value.none && !ParseTag(t).value.ignore <==> t != ""
  {
    EmptyTagIsNone();
    EmptyPathSegmentIsAutoName();
    AutoDirectory();
  }

  /** StructA has five fields tagged "." or "./". */
  lemma StructATagged()
    ensures ChildIndices(StructAFields()) == {2, 4, 5, 7, 8}
  {
    var fds := StructAFields();
    forall i | 0 <= i < |fds|
      ensures i in ChildIndices(fds) <==> fds[i].hyTag != ""
    {
      ExampleTagPolicies(fds[i].hyTag);
    }
  }

  /** The placement of StructA's fields: the four untagged ones are fields, the five tagged ones children. */
  lemma StructACounts(fields: map<string, Type>, children: map<string, nat>, registry: map<NodeID, nat>)
    requires Placed(StructAFields(), 9, StructAType, fields, children, registry)
    ensures |fields| == 4 && |children| == 5
  {
    var fds := StructAFields();
    StructANamesDistinct();
    PlacedCounts(fds, StructAType, fields, children, registry);
    StructAUntagged();
    StructATagged();
    CountOfChildPositions(ChildIndices(fds));
  }

  lemma CountOfChildPositions(c: set<int>)
    requires c == {2, 4, 5, 7, 8}
    ensures |c| == 5
  {
  }

  /**
   * StructA and *StructA analyse to a struct node with no parent, four
   * fields (the untagged ones) and five children (the tagged ones); the
   * node's IsPtr records whether the root was a pointer.
   */
  method AnalyseStructA(pointer: bool) returns (isRoot: bool, isPtr: bool, numFields: nat, numChildren: nat)
    ensures isRoot && isPtr == pointer && numFields == 4 && numChildren == 5
  {
    var c := new Codec.NewCodec(Example());
    var root := if pointer then TPtr(StructAType) else StructAType;
    ExampleWellFormed();
    var r := c.Analyse(Some(root));
    if r.Failure? {
      NoTagFailure(r.error);
      assert false;
    }
    var n := c.nodes[r.value];
    isRoot, isPtr := n.parent.None?, n.id.isPtr;
    StructARoot(c.registry, n.kind);
    numFields, numChildren := |n.kind.fields|, |n.kind.children|;
  }

  /** A struct node built for StructA places four fields and five children. */
  lemma StructARoot(registry: map<NodeID, nat>, kind: NodeKind)
    requires kind.StructKind? && KindBuilt(Example(), registry, NewNodeID(None, StructAType, ""), None, kind)
    ensures |kind.fields| == 4 && |kind.children| == 5
  {
    StructACounts(kind.fields, kind.children, registry);
  }

  /**
   * The element identities of StructA's directories: the map's element is
   * StructB held by value, the slice's element StructB held by pointer.
   */
  lemma ElementIdentities()
    ensures var id := NewNodeID(Some(TMap(Str, StructBType)), StructBType, "");
      id.typ == StructBType && !id.isPtr
    ensures var id := NewNodeID(Some(TSlice(TPtr(StructBType))), TPtr(StructBType), "");
      id.typ == StructBType && id.isPtr
  {
  }

  /**
   * StructB.FileSubStruct met inside the FileSubStruct node has that
   * node's own identity, so its child entry is the node itself.
   */
  lemma StructBSelfReference()
    ensures var id := NewNodeID(Some(StructBType), TPtr(StructBType), "FileSubStruct");
      NewNodeID(Some(id.typ), StructBFields()[1].typ, StructBFields()[1].name) == id
  {
  }
}

=== FILE: context.dfy ===
/**
 * context.go and the write context: immutable, parent-linked records of
 * where a node sits; Path joins the path names from the root down.
 */
module Contexts {
  import opened Wrappers
  import opened Strings
  import opened Paths
  import opened Tags

  /** NodeContext: the data a parent passes down to a node. */
  datatype NodeContext = NodeContext(
    parent: Option<NodeContext>,
    tag: Tag,
    fieldName: string,
    fixedPathName: string,
    keyField: string,
    getKeyFuncName: string,
    setKeyFuncName: string)

  /** NodeContext{} */
  const EmptyNodeContext := NodeContext(None, ZeroTag, "", "", "", "", "")

  /** Push: a child context; the receiver is a value and is left as it was. */
  function Push(c: NodeContext, tag: Tag, fieldName: string): (r: NodeContext)
    ensures r.parent == Some(c) && r.tag == tag && r.fieldName == fieldName
    ensures r.fixedPathName == [] && r.keyField == [] && r.getKeyFuncName == [] && r.setKeyFuncName == []
  {
    NodeContext(Some(c), tag, fieldName, [], [], [], [])
  }

  /** Path: the field names from the root down, joined. */
  function Path(c: NodeContext): string
  {
    match c.parent
    case None => c.fieldName
    case Some(p) => Join(Path(p), c.fieldName)
  }

  /** The field names from the root context down to c. */
  function Names(c: NodeContext): seq<string>
  {
    match c.parent
    case None => [c.fieldName]
    case Some(p) => Names(p) + [c.fieldName]
  }

  /** The non-empty strings of ss, in order. */
  function NonEmpty(ss: seq<string>): seq<string>
  {
    if ss == [] then []
    else (if ss[0] == [] then [] else [ss[0]]) + NonEmpty(ss[1..])
  }

  lemma NonEmptyAppend(a: seq<string>, b: seq<string>)
    ensures NonEmpty(a + b) == NonEmpty(a) + NonEmpty(b)
  {
    if a != [] {
      assert (a + b)[1..] == a[1..] + b;
      NonEmptyAppend(a[1..], b);
    } else {
      assert a + b == b;
    }
  }

  /** Each name is a single clean path segment, or empty. */
  predicate SegmentNames(ss: seq<string>)
  {
    forall i :: 0 <= i < |ss| ==> ss[i] == [] || IsSegment(ss[i])
  }

  lemma SingleName(name: string)
    requires name == [] || IsSegment(name)
    ensures IsCleanPath(name) && Segments(name) == NonEmpty([name])
  {
    if name != [] {
      SegmentIsCleanPath(name);
    }
  }

  /** The path of a context lists exactly its non-empty names, root first. */
  lemma {:induction false} PathSegments(c: NodeContext)
    requires SegmentNames(Names(c))
    ensures IsCleanPath(Path(c)) && Segments(Path(c)) == NonEmpty(Names(c))
  {
    match c.parent
    case None =>
      assert Names(c)[0] == c.fieldName;
      SingleName(c.fieldName);
    case Some(p) =>
      var ns := Names(c);
      assert ns == Names(p) + [c.fieldName];
      assert ns[|ns| - 1] == c.fieldName;
      assert forall i :: 0 <= i < |Names(p)| ==> Names(p)[i] == ns[i];
      PathSegments(p);
      SingleName(c.fieldName);
      JoinSegments(Path(p), c.fieldName);
      NonEmptyAppend(Names(p), [c.fieldName]);
  }

  /** Pushing Foo, Bar and Bat onto an empty context. */
  lemma FooBarBat()
    ensures Path(Push(Push(Push(EmptyNodeContext, ZeroTag, "Foo"), ZeroTag, "Bar"), ZeroTag, "Bat")) == "Foo/Bar/Bat"
  {
    var foo := Push(EmptyNodeContext, ZeroTag, "Foo");
    var bar := Push(foo, ZeroTag, "Bar");
    var bat := Push(bar, ZeroTag, "Bat");
    assert Path(foo) == "Foo";
    JoinBoth("Foo", "Bar");
    assert "Foo" + "/" + "Bar" == "Foo/Bar";
    assert Path(bar) == "Foo/Bar";
    JoinBoth("Foo/Bar", "Bat");
    assert "Foo/Bar" + "/" + "Bat" == "Foo/Bar/Bat";
  }

  /** The context of the write walk: the path names pushed so far. */
  datatype WriteContext = WriteContext(parent: Option<WriteContext>, pathName: string)

  /** WriteContext{} */
  const EmptyWriteContext := WriteContext(None, "")

  function PushWrite(c: WriteContext, pathName: string): (r: WriteContext)
    ensures r.parent == Some(c) && r.pathName == pathName
  {
    WriteContext(Some(c), pathName)
  }

  function WritePath(c: WriteContext): string
  {
    match c.parent
    case None => c.pathName
    case Some(p) => Join(WritePath(p), c.pathName)
  }

  /** Pushing a clean segment extends the write path by exactly that segment. */
  lemma PushWriteExtendsPath(c: WriteContext, pathName: string)
    requires IsCleanPath(WritePath(c)) && IsSegment(pathName)
    ensures IsCleanPath(WritePath(PushWrite(c, pathName)))
    ensures Segments(WritePath(PushWrite(c, pathName))) == Segments(WritePath(c)) + [pathName]
  {
    SegmentIsCleanPath(pathName);
    JoinSegments(WritePath(c), pathName);
  }

  lemma FooBarBatWrite()
    ensures WritePath(PushWrite(PushWrite(PushWrite(EmptyWriteContext, "foo"), "bar"), "bat")) == "foo/bar/bat"
  {
    var foo := PushWrite(EmptyWriteContext, "foo");
    var bar := PushWrite(foo, "bar");
    assert WritePath(foo) == "foo";
    JoinBoth("foo", "bar");
    assert "foo" + "/" + "bar" == "foo/bar";
    assert WritePath(bar) == "foo/bar";
    JoinBoth("foo/bar", "bat");
    assert "foo/bar" + "/" + "bat" == "foo/bar/bat";
  }
}

=== FILE: fieldinfo.dfy ===
/**
 * fieldinfo.go: the storage policy of one struct field, derived from its
 * `hy` tag and, when that is absent, its `json` tag.
 */
module FieldInfos {
  import opened Wrappers
  import opened Strings
  import opened Types
  import opened Tags

  /** The part of a json tag that matters here. */
  datatype JSONTag = JSONTag(ignore: bool, str: bool, omitEmpty: bool, name: string)

  datatype FieldInfo = FieldInfo(
    name: string,          // the declared field name
    fieldName: string,     // the json name of an aggregated field
    pathName: string,      // an explicit hy path name
    keyField: string,      // element field that carries a map key
    getKeyName: string,    // method that reads a map key
    setKeyName: string,    // method that writes a map key
    typ: Type,
    tag: Tag,
    ignore: bool,
    isField: bool,         // stored in the parent's own file
    isString: bool,
    autoFieldName: bool,
    isDir: bool,
    autoPathName: bool,    // path name derived from the declared name
    omitEmpty: bool)

  /** "invalid tag %q": the raw hy tag and why it did not parse. */
  datatype FieldInfoError = InvalidTag(tagString: string, cause: TagError)

  /** parseJSONTagOptions: the name before the first comma, and the options after it. */
  function ParseJSONTagOptions(tag: string): (r: (string, string))
    ensures ',' !in r.0
    ensures ',' in tag ==> r.0 + "," + r.1 == tag
    ensures ',' !in tag ==> r == (tag, "")
  {
    match IndexOf(tag, ',')
    case None => (tag, "")
    case Some(i) =>
      assert tag == tag[..i] + "," + tag[i + 1..];
      (tag[..i], tag[i + 1..])
  }

  /** A trailing empty segment ends the options loop before it is looked at. */
  function DropTrailingEmpty(parts: seq<string>): seq<string>
  {
    if |parts| > 0 && parts[|parts| - 1] == [] then parts[..|parts| - 1] else parts
  }

  /** The options a tagOptions string lists, in order; an empty string lists none. */
  function Options(o: string): seq<string>
  {
    if o == [] then [] else DropTrailingEmpty(SplitOn(o, ','))
  }

  /** Taking the segment before the first comma leaves the options after it. */
  lemma OptionsStep(s: string)
    requires s != []
    ensures IndexOf(s, ',').None? ==> Options(s) == [s]
    ensures IndexOf(s, ',').Some? ==>
      var i := IndexOf(s, ',').value;
      Options(s) == [s[..i]] + Options(s[i + 1..])
  {
    if IndexOf(s, ',').None? {
      SplitOnNoSep(s, ',');
    } else {
      OptionsAtComma(s, IndexOf(s, ',').value);
    }
  }

  /** With its first comma at i, s lists the option before i, then the options after it. */
  lemma OptionsAtComma(s: string, i: nat)
    requires IndexOf(s, ',') == Some(i)
    ensures Options(s) == [s[..i]] + Options(s[i + 1..])
  {
    SplitOnAtIndex(s, ',');
    var rest := SplitOn(s[i + 1..], ',');
    DropAfterFirst(s[..i], rest);
    if s[i + 1..] == [] {
      assert rest == [[]];
    }
  }

  /** Dropping a trailing empty part does not touch a part in front of a non-empty list. */
  lemma DropAfterFirst(first: string, rest: seq<string>)
    requires rest != []
    ensures DropTrailingEmpty([first] + rest) == [first] + DropTrailingEmpty(rest)
  {
    if rest[|rest| - 1] == [] {
      assert ([first] + rest)[..|rest|] == [first] + rest[..|rest| - 1];
    }
  }

  /** The option before the first comma of s, and the text after that comma. */
  function Cut(s: string): (string, string)
  {
    match IndexOf(s, ',')
    case None => (s, "")
    case Some(i) => (s[..i], s[i + 1..])
  }

  /** The options of s are the one before its first comma, then those after it. */
  lemma CutOptions(s: string)
    requires s != []
    ensures Options(s) == [Cut(s).0] + Options(Cut(s).1)
    ensures |Cut(s).1| < |s|
  {
    OptionsStep(s);
    if IndexOf(s, ',').None? {
      assert Options("") == [];
    }
  }

  /** One turn of the options loop moves one option from the text to the options met. */
  lemma CutStep(o: string, seen: seq<string>, s: string)
    requires s != [] && Options(o) == seen + Options(s)
    ensures Options(o) == (seen + [Cut(s).0]) + Options(Cut(s).1)
    ensures |Cut(s).1| < |s|
  {
    var seg, next := Cut(s).0, Cut(s).1;
    CutOptions(s);
    assert seen + ([seg] + Options(next)) == (seen + [seg]) + Options(next);
  }

  /** tagOptions.Contains: whether optionName is one of the options in o. */
  method Contains(o: string, optionName: string) returns (found: bool)
    ensures found <==> optionName in Options(o)
  {
    if |o| == 0 {
      return false;
    }
    var s := o;
    ghost var seen: seq<string> := [];
    while s != []
      invariant Options(o) == seen + Options(s)
      invariant optionName !in seen
      decreases |s|
    {
      var seg, next := s, "";
      var i := IndexOf(s, ',');
      if i.Some? {
        seg, next := s[..i.value], s[i.value + 1..];
      }
      assert (seg, next) == Cut(s);
      CutStep(o, seen, s);
      if seg == optionName {
        assert optionName in (seen + [seg]) + Options(next);
        return true;
      }
      seen := seen + [seg];
      s := next;
    }
    return false;
  }

  /** An empty option list contains nothing; a non-empty name is contained exactly when it is one of the comma-separated pieces. */
  lemma ContainsMeansListed(o: string, x: string)
    ensures o == [] ==> x !in Options(o)
    ensures o != [] && x != [] ==> (x in Options(o) <==> x in SplitOn(o, ','))
  {
    if o != [] && x != [] {
      var parts := SplitOn(o, ',');
      if x in parts {
        var i :| 0 <= i < |parts| && parts[i] == x;
        if |parts| > 0 && parts[|parts| - 1] == [] {
          assert i < |parts| - 1;
          assert Options(o)[i] == x;
        }
      }
    }
  }

  /** Kinds whose values the json "string" option can quote. */
  predicate Quotable(t: Type)
  {
    t.TScalar? && t.kind in {Bool, Int, Uint, Float, String}
  }

  /** ParseJSONTag: the json name and the options hy honours. */
  function ParseJSONTag(fd: FieldDecl): (j: JSONTag)
    ensures j.name == ParseJSONTagOptions(fd.jsonTag).0
    ensures j.ignore <==> fd.jsonTag == "-"
    ensures j.omitEmpty <==> "omitempty" in Options(ParseJSONTagOptions(fd.jsonTag).1)
    ensures j.str <==> Quotable(fd.typ) && "string" in Options(ParseJSONTagOptions(fd.jsonTag).1)
  {
    var (name, opts) := ParseJSONTagOptions(fd.jsonTag);
    JSONTag(fd.jsonTag == "-", "string" in Options(opts) && Quotable(fd.typ), "omitempty" in Options(opts), name)
  }

  /** NewFieldInfo: the storage policy of a field, or why its hy tag is invalid. */
  function NewFieldInfo(fd: FieldDecl): (r: Result<FieldInfo, FieldInfoError>)
    ensures r.Failure? <==> ParseTag(fd.hyTag).Failure?
    ensures r.Failure? ==> r.error == InvalidTag(fd.hyTag, ParseTag(fd.hyTag).error)
    ensures r.Success? ==> r.value.name == fd.name && r.value.typ == fd.typ && r.value.tag == ParseTag(fd.hyTag).value
    // exactly one of: ignored, aggregated into the parent's file, stored at its own path
    ensures r.Success? && r.value.isField ==> r.value.tag.none && !r.value.ignore
    ensures r.Success? && !r.value.ignore && !r.value.isField ==>
      !r.value.tag.none && !r.value.tag.ignore && (r.value.autoPathName || r.value.pathName != [])
  {
    match ParseTag(fd.hyTag)
    case Failure(e) => Failure(InvalidTag(fd.hyTag, e))
    case Success(tag) =>
      var json := ParseJSONTag(fd);
      var none := FieldInfo(fd.name, "", "", "", "", "", fd.typ, tag, false, false, false, false, false, false, false);
      if tag.ignore || (tag.none && json.ignore) then
        Success(none.(ignore := true))
      else if tag.none then
        Success(none.(isField := true, fieldName := json.name, autoFieldName := json.name == [],
                      omitEmpty := json.omitEmpty, isString := json.str))
      else
        var getKey := HasSuffix(tag.key, "()");
        Success(none.(
          isDir := tag.isDir,
          autoPathName := tag.pathName == ".",
          pathName := if tag.pathName == "." then [] else tag.pathName,
          getKeyName := if getKey then TrimSuffix(tag.key, "()") else [],
          keyField := if getKey then [] else tag.key,
          setKeyName := if HasSuffix(tag.setKey, "()") then TrimSuffix(tag.setKey, "()") else []))
  }

  /** An ignored field carries no other flag and no names but its own. */
  lemma IgnoredFieldIsBare(fd: FieldDecl)
    requires NewFieldInfo(fd).Success? && NewFieldInfo(fd).value.ignore
    ensures var fi := NewFieldInfo(fd).value;
      && !fi.isField && !fi.isString && !fi.autoFieldName && !fi.isDir && !fi.autoPathName && !fi.omitEmpty
      && fi.fieldName == [] && fi.pathName == [] && fi.keyField == [] && fi.getKeyName == [] && fi.setKeyName == []
    ensures ParseTag(fd.hyTag).value.ignore || (fd.hyTag == [] && fd.jsonTag == "-")
  {
  }

  /** Without an hy tag a field is aggregated, named by its json name or automatically. */
  lemma UntaggedFieldIsAggregated(fd: FieldDecl)
    requires fd.hyTag == [] && fd.jsonTag != "-"
    ensures NewFieldInfo(fd).Success?
    ensures var fi := NewFieldInfo(fd).value;
      && fi.isField && !fi.ignore
      && (fi.autoFieldName <==> ParseJSONTagOptions(fd.jsonTag).0 == [])
      && fi.fieldName == ParseJSONTagOptions(fd.jsonTag).0
      && fi.omitEmpty == ParseJSONTag(fd).omitEmpty && fi.isString == ParseJSONTag(fd).str
  {
  }

  /** An hy path tag decides the policy on its own: the json tag makes no difference. */
  lemma PathTagIgnoresJSON(fd: FieldDecl, otherJSON: string)
    requires ParseTag(fd.hyTag).Success? && !ParseTag(fd.hyTag).value.none
    ensures NewFieldInfo(fd) == NewFieldInfo(fd.(jsonTag := otherJSON))
    ensures NewFieldInfo(fd).value.isField == false
  {
  }

  /** The path name "." becomes AutoPathName; any other path name is kept. */
  lemma PathNamePolicy(fd: FieldDecl)
    requires ParseTag(fd.hyTag).Success?
    requires var t := ParseTag(fd.hyTag).value; !t.none && !t.ignore
    ensures var t := ParseTag(fd.hyTag).value; var fi := NewFieldInfo(fd).value;
      && (fi.autoPathName <==> t.pathName == ".")
      && (fi.autoPathName ==> fi.pathName == [])
      && (!fi.autoPathName ==> fi.pathName == t.pathName)
      && fi.isDir == t.isDir
  {
  }

  /** A key ending in "()" names a getter method, anything else an element field; a set-key only ever names a method. */
  lemma KeyPolicy(fd: FieldDecl)
    requires ParseTag(fd.hyTag).Success?
    requires var t := ParseTag(fd.hyTag).value; !t.none && !t.ignore
    ensures var t := ParseTag(fd.hyTag).value; var fi := NewFieldInfo(fd).value;
      && (HasSuffix(t.key, "()") ==> fi.getKeyName + "()" == t.key && fi.keyField == [])
      && (!HasSuffix(t.key, "()") ==> fi.keyField == t.key && fi.getKeyName == [])
      && (HasSuffix(t.setKey, "()") ==> fi.setKeyName + "()" == t.setKey)
      && (!HasSuffix(t.setKey, "()") ==> fi.setKeyName == [])
  {
  }
}

=== FILE: filetargets.dfy ===
/**
 * FileTargets: the collection of (path, payload) pairs a write walk
 * produces. A path can be added once; adding it again is the error
 * `duplicate file target "<path>"`.
 */
module FileTargetSets {
  import opened Wrappers
  import opened Values

  datatype FileTarget = FileTarget(filePath: string, value: Payload)

  datatype TargetError = DuplicateFileTarget(path: string)

  /** The paths of ts are pairwise different. */
  predicate DistinctPaths(ts: seq<FileTarget>)
  {
    forall i, j :: 0 <= i < j < |ts| ==> ts[i].filePath != ts[j].filePath
  }

  /** No path of ts is already in m. */
  predicate FreshPaths(m: map<string, Payload>, ts: seq<FileTarget>)
  {
    forall i :: 0 <= i < |ts| ==> ts[i].filePath !in m
  }

  /** The targets of ts as a map; a later target wins over an earlier one with the same path. */
  function TargetMap(ts: seq<FileTarget>): map<string, Payload>
  {
    if ts == [] then map[] else map[ts[0].filePath := ts[0].value] + TargetMap(ts[1..])
  }

  /** Adding ts one by one to m: the resulting map, and the first duplicate met, if any. */
  function AddTargets(m: map<string, Payload>, ts: seq<FileTarget>): (map<string, Payload>, Option<TargetError>)
    decreases |ts|
  {
    if ts == [] then (m, None)
    else if ts[0].filePath in m then (m, Some(DuplicateFileTarget(ts[0].filePath)))
    else AddTargets(m[ts[0].filePath := ts[0].value], ts[1..])
  }

  /** Adding a single target: refused when its path is taken, stored otherwise. */
  lemma AddOne(m: map<string, Payload>, t: FileTarget)
    ensures AddTargets(m, [t]) ==
      if t.filePath in m then (m, Some(DuplicateFileTarget(t.filePath))) else (m[t.filePath := t.value], None)
  {
    assert [t][1..] == [];
  }

  /** Adding never drops or changes a target that was already there. */
  lemma {:induction false} AddTargetsKeeps(m: map<string, Payload>, ts: seq<FileTarget>)
    ensures var r := AddTargets(m, ts).0; m.Keys <= r.Keys && forall p :: p in m ==> r[p] == m[p]
    decreases |ts|
  {
    if ts != [] && ts[0].filePath !in m {
      AddTargetsKeeps(m[ts[0].filePath := ts[0].value], ts[1..]);
    }
  }

  /** With its first path new, ts is addable to m exactly when the rest is addable after it. */
  lemma ConsAddable(m: map<string, Payload>, ts: seq<FileTarget>)
    requires ts != [] && ts[0].filePath !in m
    ensures DistinctPaths(ts) && FreshPaths(m, ts) <==>
      DistinctPaths(ts[1..]) && FreshPaths(m[ts[0].filePath := ts[0].value], ts[1..])
  {
    var t := ts[0];
    var m' := m[t.filePath := t.value];
    if DistinctPaths(ts[1..]) && FreshPaths(m', ts[1..]) {
      forall i | 1 <= i < |ts| ensures ts[i].filePath != t.filePath && ts[i].filePath !in m {
        assert ts[1..][i - 1].filePath !in m';
      }
      forall i, j | 1 <= i < j < |ts| ensures ts[i].filePath != ts[j].filePath {
        assert ts[1..][i - 1].filePath != ts[1..][j - 1].filePath;
      }
    }
  }

  /** Storing t first, then the rest, is the union with t's entry placed before the rest. */
  lemma UnionStep(m: map<string, Payload>, t: FileTarget, rest: map<string, Payload>)
    requires t.filePath !in m
    ensures m + (map[t.filePath := t.value] + rest) == m[t.filePath := t.value] + rest
    ensures |m[t.filePath := t.value]| == |m| + 1
  {
  }

  /**
   * Adding succeeds exactly when the new paths are distinct and new; it then
   * holds the old targets and the new ones, one per path.
   */
  lemma {:induction false} AddTargetsSucceeds(m: map<string, Payload>, ts: seq<FileTarget>)
    ensures var (r, err) := AddTargets(m, ts);
      && (err.None? <==> DistinctPaths(ts) && FreshPaths(m, ts))
      && (err.None? ==> r == m + TargetMap(ts) && |r| == |m| + |ts|)
    decreases |ts|
  {
    if ts != [] {
      var t := ts[0];
      if t.filePath !in m {
        var m' := m[t.filePath := t.value];
        ConsAddable(m, ts);
        AddTargetsSucceeds(m', ts[1..]);
        UnionStep(m, t, TargetMap(ts[1..]));
      } else {
        assert !FreshPaths(m, ts) by { assert ts[0].filePath in m; }
      }
    }
  }

  /** A failure names the first of ts's paths that is already present or repeated. */
  lemma {:induction false} AddTargetsFails(m: map<string, Payload>, ts: seq<FileTarget>)
    ensures var err := AddTargets(m, ts).1;
      err.Some? ==> (exists k :: 0 <= k < |ts| && ts[k].filePath == err.value.path
                               && (err.value.path in m || exists i :: 0 <= i < k && ts[i].filePath == err.value.path))
    decreases |ts|
  {
    if ts != [] && ts[0].filePath !in m {
      var m' := m[ts[0].filePath := ts[0].value];
      AddTargetsFails(m', ts[1..]);
      var err := AddTargets(m', ts[1..]).1;
      if err.Some? {
        var k :| 0 <= k < |ts[1..]| && ts[1..][k].filePath == err.value.path &&
          (err.value.path in m' || exists i :: 0 <= i < k && ts[1..][i].filePath == err.value.path);
        assert ts[k + 1].filePath == err.value.path;
        if err.value.path !in m' {
          var i :| 0 <= i < k && ts[1..][i].filePath == err.value.path;
          assert ts[i + 1].filePath == err.value.path;
        } else if err.value.path !in m {
          assert ts[0].filePath == err.value.path;
        }
      }
    }
  }

  class FileTargets {
    var contents: map<string, Payload>

    /** MakeFileTargets: an empty collection; the capacity is only a hint. */
    constructor MakeFileTargets(capacity: nat)
      ensures contents == map[]
    {
      contents := map[];
    }

    function Len(): nat
      reads this
    {
      |contents|
    }

    /** Add: adds ts in order, stopping at the first path already present. */
    method Add(ts: seq<FileTarget>) returns (err: Option<TargetError>)
      modifies this
      ensures (contents, err) == AddTargets(old(contents), ts)
    {
      var i := 0;
      while i < |ts|
        invariant 0 <= i <= |ts|
        invariant AddTargets(old(contents), ts) == AddTargets(contents, ts[i..])
      {
        assert ts[i..][1..] == ts[i + 1..];
        if ts[i].filePath in contents {
          return Some(DuplicateFileTarget(ts[i].filePath));
        }
        contents := contents[ts[i].filePath := ts[i].value];
        i := i + 1;
      }
      return None;
    }

    /**
     * AddAll: adds every target of other, in no particular order. It succeeds
     * exactly when no path of other is already present.
     */
    method AddAll(other: FileTargets) returns (err: Option<TargetError>)
      modifies this
      ensures err.None? <==> old(contents).Keys !! old(other.contents).Keys
      ensures err.None? ==> contents == old(contents) + old(other.contents)
      ensures err.Some? ==> err.value.path in old(contents) && err.value.path in old(other.contents)
      ensures forall p :: p in old(contents) ==> p in contents && contents[p] == old(contents)[p]
    {
      var src := other.contents;
      var remaining := src.Keys;
      while remaining != {}
        invariant remaining <= src.Keys
        invariant old(contents).Keys !! (src.Keys - remaining)
        invariant contents == old(contents) + (map p | p in src.Keys - remaining :: src[p])
        decreases remaining
      {
        var p :| p in remaining;
        if p in contents {
          return Some(DuplicateFileTarget(p));
        }
        contents := contents[p := src[p]];
        remaining := remaining - {p};
      }
      assert (map p | p in src.Keys - remaining :: src[p]) == src;
      return None;
    }
  }

  /** NewFileTargets: a collection holding ts, or the first duplicate among them. */
  method NewFileTargets(ts: seq<FileTarget>) returns (r: FileTargets, err: Option<TargetError>)
    ensures fresh(r)
    ensures (r.contents, err) == AddTargets(map[], ts)
  {
    r := new FileTargets.MakeFileTargets(|ts|);
    err := r.Add(ts);
  }

  /** Two targets added to a collection made with capacity 4. */
  method MakeAndAdd() returns (ts: FileTargets, err: Option<TargetError>)
    ensures fresh(ts) && err.None? && ts.contents.Keys == {"a", "b"} && ts.Len() == 2
  {
    var ab := [FileTarget("a", NilPayload), FileTarget("b", NilPayload)];
    ts := new FileTargets.MakeFileTargets(4);
    err := ts.Add(ab);
    AddTargetsSucceeds(map[], ab);
    assert TargetMap(ab) == map["a" := NilPayload] + TargetMap(ab[1..]);
    assert TargetMap(ab[1..]) == map["b" := NilPayload] + TargetMap(ab[2..]);
  }

  /** Three targets given to NewFileTargets. */
  method NewThree() returns (ts: FileTargets, err: Option<TargetError>)
    ensures fresh(ts) && err.None? && ts.contents.Keys == {"c", "d", "e"} && ts.Len() == 3
  {
    var cde := [FileTarget("c", NilPayload), FileTarget("d", NilPayload), FileTarget("e", NilPayload)];
    ts, err := NewFileTargets(cde);
    AddTargetsSucceeds(map[], cde);
    assert TargetMap(cde) == map["c" := NilPayload] + TargetMap(cde[1..]);
    assert TargetMap(cde[1..]) == map["d" := NilPayload] + TargetMap(cde[2..]);
    assert TargetMap(cde[2..]) == map["e" := NilPayload] + TargetMap(cde[3..]);
  }

  /** AddAll of the two collections above gives five targets. */
  method AddAllFive() returns (n: nat)
    ensures n == 5
  {
    var ts, err1 := MakeAndAdd();
    var ts2, err2 := NewThree();
    var err := ts.AddAll(ts2);
    assert err.None?;
    assert ts.contents.Keys == {"a", "b", "c", "d", "e"};
    n := ts.Len();
  }

  /** The same path given twice is refused. */
  method DuplicateRefused() returns (err: Option<TargetError>)
    ensures err == Some(DuplicateFileTarget("a"))
  {
    var ts;
    ts, err := NewFileTargets([FileTarget("a", NilPayload), FileTarget("a", NilPayload)]);
  }
}

=== FILE: nodes.dfy ===
/**
 * The analysed nodes of the codec design (node.go, file.go, struct.go,
 * map.go, dir.go), held in an arena: a node refers to its parent, its
 * children and its element node by arena index instead of by pointer.
 */
module Nodes {
  import opened Wrappers
  import opened Types
  import opened Values
  import opened FieldInfos

  /** How a map node turns a key into a path segment (map.go). */
  datatype KeyMarshal =
    | NoMarshal     // MarshalKey left nil: calling it panics
    | Sprint        // fmt.Sprint of the key
    | MarshalText   // the key's encoding.TextMarshaler

  datatype NodeKind =
    | Unset   // the nil Node a registry slot holds until its analysis completes
    | FileKind
    | StructKind(fields: map<string, Type>, children: map<string, nat>)
    | MapKind(keyType: Type, marshal: KeyMarshal, unmarshalString: bool, elem: nat)
    | SliceKind(elem: nat)

  /** A node: its identity, parent (absent for the root), the struct field it came from, and its shape. */
  datatype Node = Node(id: NodeID, parent: Option<nat>, field: Option<FieldInfo>, kind: NodeKind)

  /** Every index a node refers to lies below size. */
  predicate Linked(n: Node, size: nat)
  {
    && (n.parent.Some? ==> n.parent.value < size)
    && (n.kind.StructKind? ==> forall name :: name in n.kind.children ==> n.kind.children[name] < size)
    && (n.kind.MapKind? ==> n.kind.elem < size)
    && (n.kind.SliceKind? ==> n.kind.elem < size)
  }

  /**
   * MapNode.New: string keys are printed with fmt.Sprint and parsed back by
   * assignment; a key type implementing TextMarshaler is printed with
   * MarshalText instead. Any other key type gets no printer.
   */
  function KeyCodecFor(u: Universe, keyType: Type): (r: (KeyMarshal, bool))
    ensures r.1 <==> KindOf(keyType) == ScalarK(String)
    ensures keyType in u.textMarshalers ==> r.0 == MarshalText
    ensures keyType !in u.textMarshalers ==> (r.0 == Sprint <==> r.1)
    ensures r.0 == NoMarshal <==> keyType !in u.textMarshalers && !r.1
  {
    var isString := KindOf(keyType) == ScalarK(String);
    var marshal := if isString then Sprint else NoMarshal;
    (if keyType in u.textMarshalers then MarshalText else marshal, isString)
  }

  /** Decimal digits of n. */
  function NatText(n: nat): (r: string)
    ensures |r| >= 1 && forall i :: 0 <= i < |r| ==> '0' <= r[i] <= '9'
    decreases n
  {
    var d := ['0' + (n % 10) as char];
    if n < 10 then d else NatText(n / 10) + d
  }

  /** fmt.Sprint of a scalar key. */
  function KeyText(k: Scalar): string
  {
    match k
    case SString(s) => s
    case SBool(b) => if b then "true" else "false"
    case SNum(n) => if n < 0 then "-" + NatText(-n) else NatText(n)
  }

  /** MarshalKey: the key's path segment, or None where Go calls a nil function. */
  function MarshalKey(m: KeyMarshal, k: Scalar, text: Scalar -> string): Option<string>
  {
    match m
    case NoMarshal => None
    case Sprint => Some(KeyText(k))
    case MarshalText => Some(text(k))
  }

  /** UnmarshalKey: a string key is set from the segment; other key types have no parser. */
  function UnmarshalKey(unmarshalString: bool, s: string): Option<Scalar>
  {
    if unmarshalString then Some(SString(s)) else None
  }

  /** For a plain string key type the key and its path segment determine each other. */
  lemma StringKeyRoundTrip(u: Universe, keyType: Type, s: string, text: Scalar -> string)
    requires KindOf(keyType) == ScalarK(String) && keyType !in u.textMarshalers
    ensures var (m, unm) := KeyCodecFor(u, keyType);
      && MarshalKey(m, SString(s), text) == Some(s)
      && UnmarshalKey(unm, s) == Some(SString(s))
      && MarshalKey(m, UnmarshalKey(unm, s).value, text) == Some(s)
  {
  }

  /** A TextMarshaler key type is printed by MarshalText, whatever its kind. */
  lemma TextMarshalerOverrides(u: Universe, keyType: Type, k: Scalar, text: Scalar -> string)
    requires keyType in u.textMarshalers
    ensures MarshalKey(KeyCodecFor(u, keyType).0, k, text) == Some(text(k))
  {
  }

  /**
   * FixedPathName: the path segment a struct field's node is stored
   * under: its explicit hy path name, or its declared name when the tag
   * asked for the automatic name. Nodes without a field have none.
   */
  function FixedPathName(n: Node): (r: string)
    ensures n.field.Some? && n.field.value.autoPathName ==> r == n.field.value.name
    ensures n.field.Some? && !n.field.value.autoPathName ==> r == n.field.value.pathName
    ensures n.field.None? ==> r == []
  {
    match n.field
    case None => []
    case Some(f) => if f.autoPathName then f.name else f.pathName
  }

  /**
   * ChildPathName of a parent node: a struct names a child by the child's
   * fixed path name and ignores the key; a map names an element by its
   * marshalled key and ignores the child. None where Go would panic or
   * the node has no children.
   */
  function ChildPathName(parent: Node, child: Node, key: Scalar, text: Scalar -> string): Option<string>
  {
    match parent.kind
    case StructKind(_, _) => Some(FixedPathName(child))
    case MapKind(_, m, _, _) => MarshalKey(m, key, text)
    case _ => None
  }

  /** A struct names its children independently of key and value. */
  lemma StructChildPathIgnoresKey(parent: Node, child: Node, k1: Scalar, k2: Scalar, text: Scalar -> string)
    requires parent.kind.StructKind?
    ensures ChildPathName(parent, child, k1, text) == ChildPathName(parent, child, k2, text) == Some(FixedPathName(child))
  {
  }

  /** A map names its elements by key alone, and distinct string keys get distinct segments. */
  lemma MapChildPathIsKey(parent: Node, c1: Node, c2: Node, k1: Scalar, k2: Scalar, text: Scalar -> string)
    requires parent.kind.MapKind? && parent.kind.marshal == Sprint
    ensures ChildPathName(parent, c1, k1, text) == Some(KeyText(k1))
    ensures k1.SString? && k2.SString? && k1 != k2 ==>
      ChildPathName(parent, c1, k1, text) != ChildPathName(parent, c2, k2, text)
  {
  }

  /**
   * NewFileNode (file.go): the identity of a file node for a struct field.
   * Unlike NewNodeID it keeps the pointer type as the node's type while
   * still recording that it is a pointer.
   */
  function NewFileNodeID(parentType: Option<Type>, fd: FieldDecl): (id: NodeID)
    ensures id.parentType == parentType && id.fieldName == fd.name
    ensures id.typ == fd.typ
    ensures id.isPtr <==> KindOf(fd.typ) == PtrK
  {
    NodeID(parentType, fd.typ, fd.typ.TPtr?, fd.name)
  }

  /** The two derivations agree exactly on fields that are not pointers. */
  lemma FileNodeIDAgreesOffPointers(parentType: Option<Type>, fd: FieldDecl)
    ensures NewFileNodeID(parentType, fd) == NewNodeID(parentType, fd.typ, fd.name) <==> !fd.typ.TPtr?
  {
    if fd.typ.TPtr? {
      assert NewNodeID(parentType, fd.typ, fd.name).typ == fd.typ.elem;
      assert fd.typ.elem != fd.typ by { assert fd.typ.elem < fd.typ; }
    }
  }
}

=== FILE: paths.dfy ===
/**
 * Go's path.Join, as the codec uses it: every argument is already a clean,
 * slash-separated relative path (or empty), so joining drops empty
 * arguments and puts one "/" between the rest.
 */
module Paths {
  import opened Strings

  /** One element of a clean path: non-empty, no "/", not "." or "..". */
  predicate IsSegment(s: string)
  {
    s != [] && '/' !in s && s != "." && s != ".."
  }

  /** A clean relative path: empty, or segments separated by single slashes. */
  predicate IsCleanPath(p: string)
  {
    p == [] || forall seg :: seg in SplitOn(p, '/') ==> IsSegment(seg)
  }

  /** The segments of a path; the empty path has none. */
  function Segments(p: string): seq<string>
  {
    if p == [] then [] else SplitOn(p, '/')
  }

  /** path.Join(a, b) for clean a and b: empty arguments drop out, the rest meet at one "/". */
  function Join(a: string, b: string): string
  {
    if a == [] then b
    else if b == [] then a
    else a + "/" + b
  }

  /** Joining clean paths gives a clean path whose segments are those of a, then those of b. */
  lemma JoinSegments(a: string, b: string)
    requires IsCleanPath(a) && IsCleanPath(b)
    ensures IsCleanPath(Join(a, b))
    ensures Segments(Join(a, b)) == Segments(a) + Segments(b)
  {
    if a != [] && b != [] {
      SplitOnConcat(a, b, '/');
      assert a + "/" + b == a + ['/'] + b;
    }
  }

  /** Joining two non-empty paths puts one "/" between them. */
  lemma JoinBoth(a: string, b: string)
    requires a != [] && b != []
    ensures Join(a, b) == a + "/" + b
  {
  }

  /** A single segment is a clean path whose only segment is itself. */
  lemma SegmentIsCleanPath(s: string)
    requires IsSegment(s)
    ensures IsCleanPath(s) && Segments(s) == [s]
  {
    SplitOnNoSep(s, '/');
  }

  /** A clean path is rebuilt from its segments. */
  lemma CleanPathFromSegments(p: string)
    ensures JoinWith(Segments(p), '/') == p
  {
    if p != [] {
      JoinSplit(p, '/');
    }
  }
}

=== FILE: read.dfy ===
/**
 * The read walk of struct.go and map.go: the inverse of the write walk.
 * A struct node reads its own file (unmarshalling it over the zero value
 * of its type) and then each child at the child's fixed path name; a map
 * node lists the files of its directory and reads one element per listed
 * name, inserting it under that name. The file system is the index of
 * ReadContexts, and the unmarshaller a function carried by the context.
 *
 * Go recurses without bound (a self-referential struct such as StructB
 * is read forever), so every read here takes a fuel bound and fails with
 * OutOfFuel when it is spent. What a read yields is specified by ghost
 * functions (Read, StructRead, MapRead), independent of the order in
 * which Go's map iteration visits the children.
 */
module Reads {
  import opened Wrappers
  import opened Types
  import opened Values
  import opened Vals
  import opened Nodes
  import opened ReadContexts

  /**
   * UnmarshalFunc: decodes a file's bytes over a value, or fails with a
   * message. Go decodes into a value made by reflect.New, so what a
   * successful decode leaves is always a valid value.
   */
  type Unmarshal = f: (seq<bv8>, Value) -> Result<Value, string> | LeavesValid(f)
    witness (data: seq<bv8>, v: Value) => Failure("")

  ghost predicate LeavesValid(f: (seq<bv8>, Value) -> Result<Value, string>)
  {
    forall data, v :: f(data, v).Success? ==> f(data, v).value != Invalid
  }

  type Context = ReadContext<Unmarshal>

  datatype ReadWalkError =
    | ReadingOwnFields(cause: ReadError)                   // "readding own fields"
    | Unmarshaling(path: string, message: string)          // "unmarshaling %q"
    | ReadingChild(pathName: string, inner: ReadWalkError) // "reading child %q"
    | ListingFailed(cause: ReadError)                      // the directory listing of a map node
    | ReadingEntry(key: string, inner: ReadWalkError)      // "reading child %s"
    | OutOfFuel                                            // the fuel bound of the model

  /** Every index a node refers to lies in the arena. */
  predicate Arena(nodes: seq<Node>)
  {
    forall i :: 0 <= i < |nodes| ==> Linked(nodes[i], |nodes|)
  }

  /**
   * The struct's own fields: the zero value of its type, overwritten by
   * the unmarshalled own file when that file holds anything. The file is
   * asked for under the context's path name, which is the key Go passes.
   */
  function OwnValue(u: Universe, n: Node, c: Context, fs: FileSystem): (r: Result<Value, ReadWalkError>)
    ensures ReadFile(c, c.pathName, fs) == Success([]) ==> r == Success(ZeroOf(u, n.id.typ))
    ensures ReadFile(c, c.pathName, fs).Failure? ==> r == Failure(ReadingOwnFields(ReadFile(c, c.pathName, fs).error))
    ensures r.Failure? ==> r.error.ReadingOwnFields? || (r.error.Unmarshaling? && r.error.path == FilePath(c))
  {
    var zero := ZeroOf(u, n.id.typ);
    match ReadFile(c, c.pathName, fs)
    case Failure(e) => Failure(ReadingOwnFields(e))
    case Success(data) =>
      if data == [] then Success(zero)
      else match c.unmarshal(data, zero)
        case Failure(m) => Failure(Unmarshaling(FilePath(c), m))
        case Success(v) => Success(v)
  }

  /** A struct value with each field named in vals replaced by its value there; other values are left alone. */
  function Assigned(x: Value, vals: map<string, Value>): (r: Value)
    ensures r.Struct? <==> x.Struct?
    ensures r.Struct? ==> r.fields.Keys == x.fields.Keys
    ensures forall name :: name in vals ==> Field(r, name) == (if x.Struct? && name in x.fields then vals[name] else Invalid)
    ensures forall name :: name !in vals ==> Field(r, name) == Field(x, name)
  {
    if x.Struct? then Struct(map name | name in x.fields :: if name in vals then vals[name] else x.fields[name])
    else x
  }

  /** The names a directory listing yields. */
  function ListedSet(entries: seq<DirEntry>, ext: string): set<string>
  {
    set name | name in Listed(entries, ext)
  }

  /** A map whose string keys carry the given values. */
  function Keyed(vals: map<string, Value>): (r: map<Scalar, Value>)
    ensures forall k :: k in r <==> k.SString? && k.s in vals
  {
    map name | name in vals :: SString(name) := vals[name]
  }

  /** The map value base with the given string-keyed entries inserted; nothing inserted leaves base as it was. */
  function Inserted(base: Value, vals: map<string, Value>): Value
  {
    if vals == map[] then base else Map(Vals.Entries(base) + Keyed(vals))
  }

  /** The empty map a map node's read starts from. */
  const EmptyMap := Map(map[])

  /** What a map entry's handle stores: the read value, behind a pointer when the element node is a pointer. */
  function Stored(x: Value, isPtr: bool): (r: Value)
    ensures PointeeOf(r, isPtr) == x
  {
    if isPtr then PtrTo(x) else x
  }

  /**
   * The value a read of node i at context c yields with the given fuel,
   * or None when the read fails. A struct reads its own file and its
   * children, a map starts from an empty map and reads its entries; a file
   * or slice node reads nothing and yields the zero value of its type.
   */
  ghost function Read(u: Universe, nodes: seq<Node>, i: nat, c: Context, fs: FileSystem, fuel: nat): Option<Value>
    decreases fuel, 2
  {
    if fuel == 0 || i >= |nodes| then None
    else match nodes[i].kind
      case StructKind(_, _) => StructRead(u, nodes, i, c, fs, fuel)
      case MapKind(_, _, _, _) => MapRead(u, nodes, i, c, fs, fuel, EmptyMap)
      case _ => Some(ZeroOf(u, nodes[i].id.typ))
  }

  /** The read of the child of struct node i held in field name, at the child's fixed path name. */
  ghost function ChildRead(u: Universe, nodes: seq<Node>, i: nat, c: Context, fs: FileSystem, fuel: nat, name: string): Option<Value>
    decreases fuel, 0
  {
    if i < |nodes| && nodes[i].kind.StructKind? && name in nodes[i].kind.children
       && nodes[i].kind.children[name] < |nodes| && fuel > 0
    then
      var ci := nodes[i].kind.children[name];
      Read(u, nodes, ci, Push(c, FixedPathName(nodes[ci])), fs, fuel - 1)
    else None
  }

  /** StructNode.ReadTargets: the own fields with every child's read assigned to its field; None if any part fails. */
  ghost function StructRead(u: Universe, nodes: seq<Node>, i: nat, c: Context, fs: FileSystem, fuel: nat): Option<Value>
    decreases fuel, 1
  {
    if i >= |nodes| || !nodes[i].kind.StructKind? then None
    else
      var own := OwnValue(u, nodes[i], c, fs);
      var children := nodes[i].kind.children;
      if own.Failure? || exists name :: name in children && ChildRead(u, nodes, i, c, fs, fuel, name).None? then None
      else Some(Assigned(own.value, map name | name in children :: ChildRead(u, nodes, i, c, fs, fuel, name).value))
  }

  /** The read of the element of map node i listed as name: the element node's read at that name, as the entry's handle stores it. */
  ghost function EntryRead(u: Universe, nodes: seq<Node>, i: nat, c: Context, fs: FileSystem, fuel: nat, name: string): Option<Value>
    decreases fuel, 0
  {
    if i < |nodes| && nodes[i].kind.MapKind? && nodes[i].kind.elem < |nodes| && fuel > 0 then
      var e := nodes[i].kind.elem;
      var x := Read(u, nodes, e, Push(c, name), fs, fuel - 1);
      if x.Some? then Some(Stored(x.value, nodes[e].id.isPtr)) else None
    else None
  }

  /**
   * MapNode.ReadTargets over the map value base: a missing directory
   * lists nothing and leaves base alone; a directory that cannot be listed
   * fails; otherwise every listed name is read and inserted under that
   * name, and the read fails if any of them does.
   */
  ghost function MapRead(u: Universe, nodes: seq<Node>, i: nat, c: Context, fs: FileSystem, fuel: nat, base: Value): Option<Value>
    decreases fuel, 1
  {
    var dir := Path(c);
    if dir !in fs.dirs then Some(base)
    else if fs.dirs[dir].Unlistable? then None
    else
      var names := ListedSet(fs.dirs[dir].entries, c.fileExtension);
      if exists name :: name in names && EntryRead(u, nodes, i, c, fs, fuel, name).None? then None
      else Some(Inserted(base, map name | name in names :: EntryRead(u, nodes, i, c, fs, fuel, name).value))
  }

  /**
   * e is an error a read of node i can report: the chain of wrapped
   * errors names, child by child and entry by entry, a path down to a
   * part of the read that really fails.
   */
  ghost predicate Explains(u: Universe, nodes: seq<Node>, i: nat, c: Context, fs: FileSystem, fuel: nat, e: ReadWalkError)
    decreases fuel, 2
  {
    if fuel == 0 then e == OutOfFuel
    else if i >= |nodes| then false
    else match nodes[i].kind
      case StructKind(_, _) => StructExplains(u, nodes, i, c, fs, fuel, e)
      case MapKind(_, _, _, _) => MapExplains(u, nodes, i, c, fs, fuel, e)
      case _ => false
  }

  /** A struct read fails in its own file, or in one of its children, named by the child's path name. */
  ghost predicate StructExplains(u: Universe, nodes: seq<Node>, i: nat, c: Context, fs: FileSystem, fuel: nat, e: ReadWalkError)
    decreases fuel, 1
  {
    if i >= |nodes| || !nodes[i].kind.StructKind? then false
    else
      var own := OwnValue(u, nodes[i], c, fs);
      if own.Failure? then e == own.error
      else exists name :: name in nodes[i].kind.children && ChildExplains(u, nodes, i, c, fs, fuel, name, e)
  }

  /** e reports the failing read of the child in field name. */
  ghost predicate ChildExplains(u: Universe, nodes: seq<Node>, i: nat, c: Context, fs: FileSystem, fuel: nat, name: string, e: ReadWalkError)
    decreases fuel, 0
  {
    if i < |nodes| && nodes[i].kind.StructKind? && name in nodes[i].kind.children
       && nodes[i].kind.children[name] < |nodes| && fuel > 0
    then
      var ci := nodes[i].kind.children[name];
      var pathName := FixedPathName(nodes[ci]);
      e.ReadingChild? && e.pathName == pathName && Explains(u, nodes, ci, Push(c, pathName), fs, fuel - 1, e.inner)
    else false
  }

  /** A map read fails in its listing, or in one listed entry, named by its key. */
  ghost predicate MapExplains(u: Universe, nodes: seq<Node>, i: nat, c: Context, fs: FileSystem, fuel: nat, e: ReadWalkError)
    decreases fuel, 1
  {
    var dir := Path(c);
    if i >= |nodes| || !nodes[i].kind.MapKind? || nodes[i].kind.elem >= |nodes| || fuel == 0 || dir !in fs.dirs then false
    else if fs.dirs[dir].Unlistable? then e == ListingFailed(ReadDirFailed(dir))
    else
      && e.ReadingEntry?
      && e.key in ListedSet(fs.dirs[dir].entries, c.fileExtension)
      && Explains(u, nodes, nodes[i].kind.elem, Push(c, e.key), fs, fuel - 1, e.inner)
  }

  /**
   * Node.Read: dispatch on the node's kind. A map is read into a fresh
   * handle on a newly made empty map; a file or slice node yields its
   * zero value.
   */
  method ReadNode(u: Universe, nodes: seq<Node>, i: nat, c: Context, fs: FileSystem, fuel: nat)
    returns (r: Result<Value, ReadWalkError>)
    requires Arena(nodes) && i < |nodes|
    ensures r.Success? <==> Read(u, nodes, i, c, fs, fuel).Some?
    ensures r.Success? ==> r.value == Read(u, nodes, i, c, fs, fuel).value
    ensures r.Failure? ==> Explains(u, nodes, i, c, fs, fuel, r.error)
    decreases fuel, 3
  {
    if fuel == 0 {
      return Failure(OutOfFuel);
    }
    match nodes[i].kind
    case StructKind(_, _) =>
      r := ReadStruct(u, nodes, i, c, fs, fuel);
    case MapKind(_, _, _, _) =>
      var b := new Box(EmptyMap);
      var val := Val(Nil, b, None, false);
      var err := ReadMap(u, nodes, i, c, fs, fuel, val);
      if err.Some? {
        return Failure(err.value);
      }
      return Success(b.value);
    case _ =>
      return Success(ZeroOf(u, nodes[i].id.typ));
  }

  /** StructNode.ReadTargets: the own fields, then each child, in any order, assigned to its field. */
  method ReadStruct(u: Universe, nodes: seq<Node>, i: nat, c: Context, fs: FileSystem, fuel: nat)
    returns (r: Result<Value, ReadWalkError>)
    requires Arena(nodes) && i < |nodes| && nodes[i].kind.StructKind? && fuel > 0
    ensures r.Success? <==> StructRead(u, nodes, i, c, fs, fuel).Some?
    ensures r.Success? ==> r.value == StructRead(u, nodes, i, c, fs, fuel).value
    ensures r.Failure? ==> StructExplains(u, nodes, i, c, fs, fuel, r.error)
    decreases fuel, 2
  {
    var own := OwnValue(u, nodes[i], c, fs);
    if own.Failure? {
      return Failure(own.error);
    }
    ghost var got, failed;
    r, got, failed := ReadChildren(u, nodes, i, c, fs, fuel, own.value);
    if r.Failure? {
      StructFails(u, nodes, i, c, fs, fuel, failed, r.error);
    } else {
      StructSucceeds(u, nodes, i, c, fs, fuel, got);
    }
  }

  /**
   * The loop of StructNode.ReadTargets: each child read at its fixed path
   * name and assigned to its field of x (got records the reads); the
   * first failing read stops the loop, and failed names its field.
   */
  method ReadChildren(u: Universe, nodes: seq<Node>, i: nat, c: Context, fs: FileSystem, fuel: nat, x: Value)
    returns (r: Result<Value, ReadWalkError>, ghost got: map<string, Value>, ghost failed: string)
    requires Arena(nodes) && i < |nodes| && nodes[i].kind.StructKind? && fuel > 0
    ensures forall name :: name in got ==> ChildRead(u, nodes, i, c, fs, fuel, name) == Some(got[name])
    ensures r.Success? ==> got.Keys == nodes[i].kind.children.Keys && r.value == Assigned(x, got)
    ensures r.Failure? ==> failed in nodes[i].kind.children && ChildRead(u, nodes, i, c, fs, fuel, failed).None?
    ensures r.Failure? ==> ChildExplains(u, nodes, i, c, fs, fuel, failed, r.error)
    decreases fuel, 1
  {
    var val := x;
    var children := nodes[i].kind.children;
    var remaining := children.Keys;
    got := map[];
    while remaining != {}
      invariant remaining <= children.Keys && got.Keys == children.Keys - remaining
      invariant forall name :: name in got ==> ChildRead(u, nodes, i, c, fs, fuel, name) == Some(got[name])
      invariant val == Assigned(x, got)
      decreases remaining
    {
      var name :| name in remaining;
      var ci := children[name];
      var pathName := FixedPathName(nodes[ci]);
      var child := ReadNode(u, nodes, ci, Push(c, pathName), fs, fuel - 1);
      if child.Failure? {
        return Failure(ReadingChild(pathName, child.error)), got, name;
      }
      AssignedStep(x, got, name, child.value);
      val := WithField(val, name, child.value);
      got := got[name := child.value];
      remaining := remaining - {name};
    }
    return Success(val), got, "";
  }

  /** A child whose read fails makes the struct read fail, and the wrapped error explains it. */
  lemma StructFails(u: Universe, nodes: seq<Node>, i: nat, c: Context, fs: FileSystem, fuel: nat, failed: string, e: ReadWalkError)
    requires i < |nodes| && nodes[i].kind.StructKind? && OwnValue(u, nodes[i], c, fs).Success?
    requires failed in nodes[i].kind.children && ChildRead(u, nodes, i, c, fs, fuel, failed).None?
    requires ChildExplains(u, nodes, i, c, fs, fuel, failed, e)
    ensures StructRead(u, nodes, i, c, fs, fuel).None?
    ensures StructExplains(u, nodes, i, c, fs, fuel, e)
  {
  }

  /** When every child has been read, the struct read yields the own fields with all of them assigned. */
  lemma StructSucceeds(u: Universe, nodes: seq<Node>, i: nat, c: Context, fs: FileSystem, fuel: nat, got: map<string, Value>)
    requires i < |nodes| && nodes[i].kind.StructKind? && OwnValue(u, nodes[i], c, fs).Success?
    requires got.Keys == nodes[i].kind.children.Keys
    requires forall name :: name in got ==> ChildRead(u, nodes, i, c, fs, fuel, name) == Some(got[name])
    ensures StructRead(u, nodes, i, c, fs, fuel) == Some(Assigned(OwnValue(u, nodes[i], c, fs).value, got))
  {
    assert got == map name | name in nodes[i].kind.children :: ChildRead(u, nodes, i, c, fs, fuel, name).value;
  }

  /** Assigning one more field is WithField on the value assigned so far. */
  lemma AssignedStep(x: Value, vals: map<string, Value>, name: string, v: Value)
    ensures WithField(Assigned(x, vals), name, v) == Assigned(x, vals[name := v])
  {
    if x.Struct? {
      var a := Assigned(x, vals);
      if name in x.fields {
        assert a.fields[name := v] == Assigned(x, vals[name := v]).fields;
      } else {
        assert a.fields == Assigned(x, vals[name := v]).fields;
      }
    }
  }

  /** MapNode.ReadTargets: one element per listed name, read at that name and inserted under it. */
  method ReadMap(u: Universe, nodes: seq<Node>, i: nat, c: Context, fs: FileSystem, fuel: nat, val: Val)
    returns (err: Option<ReadWalkError>)
    requires Arena(nodes) && i < |nodes| && nodes[i].kind.MapKind? && fuel > 0
    requires val.ptr != null && val.ptr.value.Map?
    modifies val.ptr
    ensures err.None? <==> MapRead(u, nodes, i, c, fs, fuel, old(val.ptr.value)).Some?
    ensures err.None? ==> val.ptr.value == MapRead(u, nodes, i, c, fs, fuel, old(val.ptr.value)).value
    ensures err.Some? ==> MapExplains(u, nodes, i, c, fs, fuel, err.value)
    decreases fuel, 2
  {
    var list := ListFiles(c, fs);
    if list.Failure? {
      return Some(ListingFailed(list.error));
    }
    ghost var base := val.ptr.value;
    ghost var got;
    err, got := ReadListed(u, nodes, i, c, fs, fuel, list.value, val);
    if err.Some? {
      MapFails(u, nodes, i, c, fs, fuel, base, list.value, err.value.key, err.value);
    } else {
      MapSucceeds(u, nodes, i, c, fs, fuel, base, list.value, got);
    }
  }

  /**
   * The loop of MapNode.ReadTargets over the names ListFiles returned:
   * each read entry is inserted under its name (got records them), and
   * the first failing read stops the loop.
   */
  method ReadListed(u: Universe, nodes: seq<Node>, i: nat, c: Context, fs: FileSystem, fuel: nat, names: seq<string>, val: Val)
    returns (err: Option<ReadWalkError>, ghost got: map<string, Value>)
    requires Arena(nodes) && i < |nodes| && nodes[i].kind.MapKind? && fuel > 0
    requires val.ptr != null && val.ptr.value.Map?
    modifies val.ptr
    ensures forall name :: name in got ==> EntryRead(u, nodes, i, c, fs, fuel, name) == Some(got[name])
    ensures err.None? ==> got.Keys == (set name | name in names) && val.ptr.value == Inserted(old(val.ptr.value), got)
    ensures err.Some? ==> err.value.ReadingEntry? && err.value.key in names
    ensures err.Some? ==> EntryRead(u, nodes, i, c, fs, fuel, err.value.key).None?
    ensures err.Some? ==> Explains(u, nodes, nodes[i].kind.elem, Push(c, err.value.key), fs, fuel - 1, err.value.inner)
    decreases fuel, 1
  {
    ghost var base := val.ptr.value;
    got := map[];
    for k := 0 to |names|
      invariant got.Keys == set name | name in names[..k]
      invariant forall name :: name in got ==> EntryRead(u, nodes, i, c, fs, fuel, name) == Some(got[name])
      invariant val.ptr.value == Inserted(base, got)
    {
      var name := names[k];
      err := ReadEntry(u, nodes, i, c, fs, fuel, name, val);
      if err.Some? {
        return;
      }
      ghost var x := EntryRead(u, nodes, i, c, fs, fuel, name).value;
      InsertedStep(base, got, name, x);
      got := got[name := x];
      assert names[..k + 1] == names[..k] + [name];
    }
    assert names[..|names|] == names;
    return None, got;
  }

  /**
   * One iteration of MapNode.ReadTargets: a fresh handle keyed by name,
   * the element node's read stored in it, and the handle's final value
   * set into the map under its key.
   */
  method ReadEntry(u: Universe, nodes: seq<Node>, i: nat, c: Context, fs: FileSystem, fuel: nat, name: string, val: Val)
    returns (err: Option<ReadWalkError>)
    requires Arena(nodes) && i < |nodes| && nodes[i].kind.MapKind? && fuel > 0
    requires val.ptr != null && val.ptr.value.Map?
    modifies val.ptr
    ensures err.None? <==> EntryRead(u, nodes, i, c, fs, fuel, name).Some?
    ensures err.None? ==> val.ptr.value == WithEntry(old(val.ptr.value), SString(name), EntryRead(u, nodes, i, c, fs, fuel, name).value)
    ensures err.Some? ==> err.value.ReadingEntry? && err.value.key == name
    ensures err.Some? ==> Explains(u, nodes, nodes[i].kind.elem, Push(c, name), fs, fuel - 1, err.value.inner)
    decreases fuel, 0
  {
    var e := nodes[i].kind.elem;
    var elemVal := NewKeyedVal(ZeroOf(u, nodes[e].id.typ), nodes[e].id.isPtr, SString(name));
    var x := ReadNode(u, nodes, e, Push(c, name), fs, fuel - 1);
    if x.Failure? {
      return Some(ReadingEntry(name, x.error));
    }
    elemVal.ptr.value := x.value;
    ReadIsValid(u, nodes, e, Push(c, name), fs, fuel - 1);
    SetMapElement(val, elemVal);
    return None;
  }

  /** The zero value of a type is never invalid: the cycle guard only fires below the top level. */
  lemma ZeroOfValid(u: Universe, t: Type)
    ensures ZeroOf(u, t) != Invalid
  {
    match t
    case TScalar(k, _) =>
    case TStruct(n) =>
    case _ =>
  }

  /**
   * A read that succeeds yields a valid value: a struct read starts from
   * the zero value or a decoded one, a map read from a made map, and any
   * other node yields its zero value.
   */
  lemma ReadIsValid(u: Universe, nodes: seq<Node>, i: nat, c: Context, fs: FileSystem, fuel: nat)
    requires Read(u, nodes, i, c, fs, fuel).Some?
    ensures Read(u, nodes, i, c, fs, fuel).value != Invalid
  {
    ZeroOfValid(u, nodes[i].id.typ);
    match nodes[i].kind
    case StructKind(_, _) =>
    case MapKind(_, _, _, _) =>
      InsertedEntries(EmptyMap, map[]);
    case _ =>
  }

  /** The names ListFiles returned: none for a missing directory, the listed ones otherwise. */
  ghost predicate ListedNow(c: Context, fs: FileSystem, names: seq<string>)
  {
    && (Path(c) !in fs.dirs ==> names == [])
    && (Path(c) in fs.dirs ==>
          fs.dirs[Path(c)].Entries? && multiset(names) == multiset(Listed(fs.dirs[Path(c)].entries, c.fileExtension)))
  }

  /** A listed entry whose read fails makes the map read fail, and the wrapped error explains it. */
  lemma MapFails(u: Universe, nodes: seq<Node>, i: nat, c: Context, fs: FileSystem, fuel: nat, base: Value,
                 names: seq<string>, name: string, err: ReadWalkError)
    requires Arena(nodes) && i < |nodes| && nodes[i].kind.MapKind? && fuel > 0
    requires ListedNow(c, fs, names) && name in names
    requires EntryRead(u, nodes, i, c, fs, fuel, name).None?
    requires err.ReadingEntry? && err.key == name
    requires Explains(u, nodes, nodes[i].kind.elem, Push(c, name), fs, fuel - 1, err.inner)
    ensures MapRead(u, nodes, i, c, fs, fuel, base).None?
    ensures MapExplains(u, nodes, i, c, fs, fuel, err)
  {
    ListedExactly(c, fs, names);
  }

  /** When every listed entry has been read, the map read yields base with all of them inserted. */
  lemma MapSucceeds(u: Universe, nodes: seq<Node>, i: nat, c: Context, fs: FileSystem, fuel: nat, base: Value,
                    names: seq<string>, got: map<string, Value>)
    requires ListedNow(c, fs, names)
    requires got.Keys == set name | name in names
    requires forall name :: name in got ==> EntryRead(u, nodes, i, c, fs, fuel, name) == Some(got[name])
    ensures MapRead(u, nodes, i, c, fs, fuel, base) == Some(Inserted(base, got))
  {
    if Path(c) in fs.dirs {
      ListedExactly(c, fs, names);
      assert got == map name | name in ListedSet(fs.dirs[Path(c)].entries, c.fileExtension) ::
        EntryRead(u, nodes, i, c, fs, fuel, name).value;
    } else {
      assert got == map[];
    }
  }

  /** The names ListFiles returns are the listed names of the context's directory. */
  lemma ListedExactly(c: Context, fs: FileSystem, names: seq<string>)
    requires ListedNow(c, fs, names) && Path(c) in fs.dirs
    ensures (set name | name in names) == ListedSet(fs.dirs[Path(c)].entries, c.fileExtension)
  {
    var listed := Listed(fs.dirs[Path(c)].entries, c.fileExtension);
    forall name
      ensures name in names <==> name in listed
    {
      assert name in names <==> name in multiset(names);
      assert name in listed <==> name in multiset(listed);
    }
  }

  /** Inserting one more entry is WithEntry on the value inserted so far. */
  lemma InsertedStep(base: Value, vals: map<string, Value>, name: string, v: Value)
    requires base.Map?
    ensures Inserted(base, vals).Map?
    ensures WithEntry(Inserted(base, vals), SString(name), v) == Inserted(base, vals[name := v])
  {
    var after := vals[name := v];
    assert Vals.Entries(Inserted(base, vals))[SString(name) := v] == Vals.Entries(base) + Keyed(after);
  }

  /**
   * A struct read assigns each child's read to the child's field and
   * leaves every other field as its own file gave it; with an empty or
   * absent own file those fields keep the zero value of the struct type.
   */
  lemma StructReadAssigns(u: Universe, nodes: seq<Node>, i: nat, c: Context, fs: FileSystem, fuel: nat)
    requires i < |nodes| && nodes[i].kind.StructKind? && StructRead(u, nodes, i, c, fs, fuel).Some?
    ensures OwnValue(u, nodes[i], c, fs).Success?
    ensures var v := StructRead(u, nodes, i, c, fs, fuel).value;
      var own := OwnValue(u, nodes[i], c, fs).value;
      forall name :: name in nodes[i].kind.children && own.Struct? && name in own.fields ==>
        ChildRead(u, nodes, i, c, fs, fuel, name).Some? && Field(v, name) == ChildRead(u, nodes, i, c, fs, fuel, name).value
    ensures var v := StructRead(u, nodes, i, c, fs, fuel).value;
      forall name :: name !in nodes[i].kind.children ==> Field(v, name) == Field(OwnValue(u, nodes[i], c, fs).value, name)
    ensures ReadFile(c, c.pathName, fs) == Success([]) ==>
      var v := StructRead(u, nodes, i, c, fs, fuel).value;
      forall name :: name !in nodes[i].kind.children ==> Field(v, name) == Field(ZeroOf(u, nodes[i].id.typ), name)
  {
  }

  /**
   * A map read from an empty map has exactly one entry per listed name,
   * keyed by that name and holding that name's element read; a missing
   * directory leaves the map empty.
   */
  lemma MapReadKeys(u: Universe, nodes: seq<Node>, i: nat, c: Context, fs: FileSystem, fuel: nat)
    requires i < |nodes| && nodes[i].kind.MapKind? && MapRead(u, nodes, i, c, fs, fuel, EmptyMap).Some?
    ensures Path(c) !in fs.dirs ==> MapRead(u, nodes, i, c, fs, fuel, EmptyMap) == Some(EmptyMap)
    ensures Path(c) in fs.dirs ==>
      && fs.dirs[Path(c)].Entries?
      && var v := MapRead(u, nodes, i, c, fs, fuel, EmptyMap).value;
         var entries := fs.dirs[Path(c)].entries;
         && (forall k :: k in Vals.Entries(v) <==> k.SString? && k.s in Listed(entries, c.fileExtension))
         && (forall name :: name in Listed(entries, c.fileExtension) ==>
               EntryRead(u, nodes, i, c, fs, fuel, name).Some? &&
               Vals.Entries(v)[SString(name)] == EntryRead(u, nodes, i, c, fs, fuel, name).value)
  {
    var dir := Path(c);
    if dir in fs.dirs {
      var names := ListedSet(fs.dirs[dir].entries, c.fileExtension);
      var m := map name | name in names :: EntryRead(u, nodes, i, c, fs, fuel, name).value;
      assert MapRead(u, nodes, i, c, fs, fuel, EmptyMap) == Some(Inserted(EmptyMap, m));
      InsertedEntries(EmptyMap, m);
    }
  }

  /** The entries of an insertion: those of base, overridden by the inserted ones. */
  lemma InsertedEntries(base: Value, vals: map<string, Value>)
    ensures Vals.Entries(Inserted(base, vals)) == Vals.Entries(base) + Keyed(vals)
  {
    if vals == map[] {
      assert Keyed(vals) == map[];
    }
  }

  /**
   * Success does not depend on the fuel once there is enough: a read that
   * succeeds yields the same value with more fuel.
   */
  lemma {:induction false} ReadMoreFuel(u: Universe, nodes: seq<Node>, i: nat, c: Context, fs: FileSystem, fuel: nat)
    requires Read(u, nodes, i, c, fs, fuel).Some?
    ensures Read(u, nodes, i, c, fs, fuel + 1) == Read(u, nodes, i, c, fs, fuel)
    decreases fuel, 2
  {
    match nodes[i].kind
    case StructKind(_, _) => StructMoreFuel(u, nodes, i, c, fs, fuel);
    case MapKind(_, _, _, _) => MapMoreFuel(u, nodes, i, c, fs, fuel, EmptyMap);
    case _ =>
  }

  lemma {:induction false} StructMoreFuel(u: Universe, nodes: seq<Node>, i: nat, c: Context, fs: FileSystem, fuel: nat)
    requires StructRead(u, nodes, i, c, fs, fuel).Some?
    ensures StructRead(u, nodes, i, c, fs, fuel + 1) == StructRead(u, nodes, i, c, fs, fuel)
    decreases fuel, 1
  {
    var children := nodes[i].kind.children;
    forall name | name in children
      ensures ChildRead(u, nodes, i, c, fs, fuel + 1, name) == ChildRead(u, nodes, i, c, fs, fuel, name)
    {
      ChildMoreFuel(u, nodes, i, c, fs, fuel, name);
    }
    var m0 := map name | name in children :: ChildRead(u, nodes, i, c, fs, fuel, name).value;
    var m1 := map name | name in children :: ChildRead(u, nodes, i, c, fs, fuel + 1, name).value;
    assert m0 == m1;
  }

  lemma {:induction false} ChildMoreFuel(u: Universe, nodes: seq<Node>, i: nat, c: Context, fs: FileSystem, fuel: nat, name: string)
    requires ChildRead(u, nodes, i, c, fs, fuel, name).Some?
    ensures ChildRead(u, nodes, i, c, fs, fuel + 1, name) == ChildRead(u, nodes, i, c, fs, fuel, name)
    decreases fuel, 0
  {
    var ci := nodes[i].kind.children[name];
    ReadMoreFuel(u, nodes, ci, Push(c, FixedPathName(nodes[ci])), fs, fuel - 1);
  }

  lemma {:induction false} MapMoreFuel(u: Universe, nodes: seq<Node>, i: nat, c: Context, fs: FileSystem, fuel: nat, base: Value)
    requires MapRead(u, nodes, i, c, fs, fuel, base).Some?
    ensures MapRead(u, nodes, i, c, fs, fuel + 1, base) == MapRead(u, nodes, i, c, fs, fuel, base)
    decreases fuel, 1
  {
    var dir := Path(c);
    if dir in fs.dirs {
      var names := ListedSet(fs.dirs[dir].entries, c.fileExtension);
      forall name | name in names
        ensures EntryRead(u, nodes, i, c, fs, fuel + 1, name) == EntryRead(u, nodes, i, c, fs, fuel, name)
      {
        EntryMoreFuel(u, nodes, i, c, fs, fuel, name);
      }
      var m0 := map name | name in names :: EntryRead(u, nodes, i, c, fs, fuel, name).value;
      var m1 := map name | name in names :: EntryRead(u, nodes, i, c, fs, fuel + 1, name).value;
      assert m0 == m1;
    }
  }

  lemma {:induction false} EntryMoreFuel(u: Universe, nodes: seq<Node>, i: nat, c: Context, fs: FileSystem, fuel: nat, name: string)
    requires EntryRead(u, nodes, i, c, fs, fuel, name).Some?
    ensures EntryRead(u, nodes, i, c, fs, fuel + 1, name) == EntryRead(u, nodes, i, c, fs, fuel, name)
    decreases fuel, 0
  {
    ReadMoreFuel(u, nodes, nodes[i].kind.elem, Push(c, name), fs, fuel - 1);
  }

  /** Every error a read can report is a real failure: the read with that fuel yields nothing. */
  lemma {:induction false} ExplainedFails(u: Universe, nodes: seq<Node>, i: nat, c: Context, fs: FileSystem, fuel: nat, e: ReadWalkError)
    requires Explains(u, nodes, i, c, fs, fuel, e)
    ensures Read(u, nodes, i, c, fs, fuel).None?
    decreases fuel, 1
  {
    if fuel > 0 {
      match nodes[i].kind
      case StructKind(_, children) =>
        if OwnValue(u, nodes[i], c, fs).Success? {
          var name :| name in children && ChildExplains(u, nodes, i, c, fs, fuel, name, e);
          var ci := children[name];
          ExplainedFails(u, nodes, ci, Push(c, FixedPathName(nodes[ci])), fs, fuel - 1, e.inner);
          assert ChildRead(u, nodes, i, c, fs, fuel, name).None?;
        }
      case MapKind(_, _, _, elem) =>
        if fs.dirs[Path(c)].Entries? {
          ExplainedFails(u, nodes, elem, Push(c, e.key), fs, fuel - 1, e.inner);
          assert EntryRead(u, nodes, i, c, fs, fuel, e.key).None?;
        }
    }
  }
}

=== FILE: readcontext.dfy ===
/**
 * readcontext.go: the context of the read walk, and the two questions it
 * asks of the file system (which files a directory holds, what a file
 * contains), answered here from an index passed in.
 */
module ReadContexts {
  import opened Wrappers
  import opened Strings
  import opened Paths

  /**
   * A read context. U is the unmarshalling function, carried along
   * unchanged; the read walk supplies it.
   */
  datatype ReadContext<U> = ReadContext(
    parent: Option<ReadContext<U>>,
    pathName: string,
    fileExtension: string,
    prefix: string,
    unmarshal: U)

  /** Push: a child context that keeps the extension and unmarshaller but not the prefix. */
  function Push<U>(c: ReadContext<U>, pathName: string): (r: ReadContext<U>)
    ensures r.parent == Some(c) && r.pathName == pathName && r.prefix == []
    ensures r.fileExtension == c.fileExtension && r.unmarshal == c.unmarshal
  {
    ReadContext(Some(c), pathName, c.fileExtension, [], c.unmarshal)
  }

  /** Path: a root joins its prefix and name; any other context extends its parent's path. */
  function Path<U>(c: ReadContext<U>): string
  {
    match c.parent
    case None => Join(c.prefix, c.pathName)
    case Some(p) => Join(Path(p), c.pathName)
  }

  /** The prefix of the root of c. */
  function RootPrefix<U>(c: ReadContext<U>): string
  {
    match c.parent
    case None => c.prefix
    case Some(p) => RootPrefix(p)
  }

  /** The path names from the root down to c. */
  function PathNames<U>(c: ReadContext<U>): seq<string>
  {
    match c.parent
    case None => [c.pathName]
    case Some(p) => PathNames(p) + [c.pathName]
  }

  /** Each path name is a clean segment. */
  predicate AllSegments(ss: seq<string>)
  {
    forall i :: 0 <= i < |ss| ==> IsSegment(ss[i])
  }

  /** The root prefix reaches every descendant: a path is the prefix followed by the path names. */
  lemma {:induction false} PathUnderPrefix<U>(c: ReadContext<U>)
    requires IsCleanPath(RootPrefix(c)) && AllSegments(PathNames(c))
    ensures IsCleanPath(Path(c))
    ensures Segments(Path(c)) == Segments(RootPrefix(c)) + PathNames(c)
  {
    var ns := PathNames(c);
    match c.parent
    case None =>
      assert ns[0] == c.pathName;
      SegmentIsCleanPath(c.pathName);
      JoinSegments(c.prefix, c.pathName);
    case Some(p) =>
      assert ns == PathNames(p) + [c.pathName];
      assert ns[|ns| - 1] == c.pathName;
      assert forall i :: 0 <= i < |PathNames(p)| ==> PathNames(p)[i] == ns[i];
      PathUnderPrefix(p);
      SegmentIsCleanPath(c.pathName);
      JoinSegments(Path(p), c.pathName);
  }

  /** FilePath: the path with the file extension added. */
  function FilePath<U>(c: ReadContext<U>): (r: string)
    ensures HasPrefix(r, Path(c)) && HasSuffix(r, "." + c.fileExtension)
    ensures |r| == |Path(c)| + 1 + |c.fileExtension|
  {
    var r := Path(c) + "." + c.fileExtension;
    assert r[|r| - |"." + c.fileExtension|..] == "." + c.fileExtension;
    r
  }

  /** A directory entry as ioutil.ReadDir reports it. */
  datatype DirEntry = DirEntry(name: string, isDir: bool)

  /** A directory that can be listed, or one whose listing fails for a reason other than absence. */
  datatype Listing = Entries(entries: seq<DirEntry>) | Unlistable

  /** A file that can be read, or one whose reading fails for a reason other than absence. */
  datatype Contents = Bytes(data: seq<bv8>) | Unreadable

  /** The file system as the read walk sees it: absent paths are simply missing. */
  datatype FileSystem = FileSystem(dirs: map<string, Listing>, files: map<string, Contents>)

  datatype ReadError =
    | ReadDirFailed(path: string)    // "read dir failed"
    | ReadFileFailed(path: string)   // "reading %q"

  /** The names of the non-directory entries ending in "." + ext, with that suffix removed, in listing order. */
  function Listed(entries: seq<DirEntry>, ext: string): seq<string>
  {
    if entries == [] then []
    else
      var e := entries[|entries| - 1];
      Listed(entries[..|entries| - 1], ext) + ListedOne(e, ext)
  }

  /** The name one entry contributes to a listing, if any. */
  function ListedOne(e: DirEntry, ext: string): seq<string>
  {
    if !e.isDir && HasSuffix(e.name, "." + ext) then [TrimSuffix(e.name, "." + ext)] else []
  }

  /** An entry lists name exactly when it is a file called name + "." + ext. */
  lemma ListedOneName(e: DirEntry, ext: string, name: string)
    ensures name in ListedOne(e, ext) <==> !e.isDir && e.name == name + "." + ext
  {
    var suffix := "." + ext;
    if !e.isDir && e.name == name + suffix {
      assert e.name[|e.name| - |suffix|..] == suffix;
      assert TrimSuffix(e.name, suffix) == name;
    }
  }

  /** A listed name is a file entry called name + "." + ext, and every such entry is listed. */
  lemma {:induction false} ListedNames(entries: seq<DirEntry>, ext: string, name: string)
    ensures name in Listed(entries, ext) <==>
      exists i :: 0 <= i < |entries| && !entries[i].isDir && entries[i].name == name + "." + ext
  {
    if entries != [] {
      var init := entries[..|entries| - 1];
      var e := entries[|entries| - 1];
      ListedNames(init, ext, name);
      ListedOneName(e, ext, name);
      assert forall i :: 0 <= i < |init| ==> init[i] == entries[i];
    }
  }

  /** ListFiles: the sorted names of the files with the context's extension in its directory. */
  method ListFiles<U>(c: ReadContext<U>, fs: FileSystem) returns (r: Result<seq<string>, ReadError>)
    ensures Path(c) !in fs.dirs ==> r == Success([])
    ensures Path(c) in fs.dirs && fs.dirs[Path(c)].Unlistable? ==> r == Failure(ReadDirFailed(Path(c)))
    ensures Path(c) in fs.dirs && fs.dirs[Path(c)].Entries? ==>
      r.Success? && Sorted(r.value) &&
      multiset(r.value) == multiset(Listed(fs.dirs[Path(c)].entries, c.fileExtension))
  {
    var dir := Path(c);
    if dir !in fs.dirs {
      return Success([]);
    }
    if fs.dirs[dir].Unlistable? {
      return Failure(ReadDirFailed(dir));
    }
    var entries := fs.dirs[dir].entries;
    var suffix := "." + c.fileExtension;
    var files: seq<string> := [];
    for i := 0 to |entries|
      invariant files == Listed(entries[..i], c.fileExtension)
    {
      assert entries[..i + 1][..i] == entries[..i];
      var f := entries[i];
      if f.isDir || !HasSuffix(f.name, suffix) {
        continue;
      }
      files := files + [TrimSuffix(f.name, suffix)];
    }
    assert entries[..|entries|] == entries;
    files := Sort(files);
    return Success(files);
  }

  /** ReadFile: the bytes of the context's file; an absent file reads as empty. The name is not used. */
  function ReadFile<U>(c: ReadContext<U>, name: string, fs: FileSystem): (r: Result<seq<bv8>, ReadError>)
    ensures FilePath(c) !in fs.files ==> r == Success([])
    ensures FilePath(c) in fs.files && fs.files[FilePath(c)].Bytes? ==> r == Success(fs.files[FilePath(c)].data)
    ensures FilePath(c) in fs.files && fs.files[FilePath(c)].Unreadable? ==> r == Failure(ReadFileFailed(FilePath(c)))
  {
    var p := FilePath(c);
    if p !in fs.files then Success([])
    else match fs.files[p]
      case Bytes(data) => Success(data)
      case Unreadable => Failure(ReadFileFailed(p))
  }

  /** The name argument of ReadFile makes no difference. */
  lemma ReadFileIgnoresName<U>(c: ReadContext<U>, a: string, b: string, fs: FileSystem)
    ensures ReadFile(c, a, fs) == ReadFile(c, b, fs)
  {
  }
}

=== FILE: strings.dfy ===
/**
 * The parts of Go's strings and sort packages the codec relies on:
 * strings.Split and strings.Index with a one-character separator,
 * suffix tests and trimming, and sort.Strings (byte-wise order).
 */
module Strings {
  import opened Wrappers

  /** strings.Split(s, string(sep)): the pieces between occurrences of sep. */
  function SplitOn(s: string, sep: char): (parts: seq<string>)
    ensures |parts| >= 1
    ensures forall i :: 0 <= i < |parts| ==> sep !in parts[i]
  {
    if s == [] then [[]]
    else if s[0] == sep then [[]] + SplitOn(s[1..], sep)
    else
      var rest := SplitOn(s[1..], sep);
      [[s[0]] + rest[0]] + rest[1..]
  }

  /** strings.Join(parts, string(sep)). */
  function JoinWith(parts: seq<string>, sep: char): string
  {
    if |parts| == 0 then []
    else if |parts| == 1 then parts[0]
    else parts[0] + [sep] + JoinWith(parts[1..], sep)
  }

  /** Number of occurrences of c in s. */
  function Count(s: string, c: char): nat
  {
    if s == [] then 0 else (if s[0] == c then 1 else 0) + Count(s[1..], c)
  }

  /** Splitting at the separator placed between a and b splits a and b separately. */
  lemma {:induction false} SplitOnConcat(a: string, b: string, sep: char)
    ensures SplitOn(a + [sep] + b, sep) == SplitOn(a, sep) + SplitOn(b, sep)
  {
    if a == [] {
      assert a + [sep] + b == [sep] + b;
      SplitOnCons(sep, b, sep);
    } else {
      var t := a[1..] + [sep] + b;
      assert a + [sep] + b == [a[0]] + t;
      assert a == [a[0]] + a[1..];
      SplitOnConcat(a[1..], b, sep);
      SplitOnCons(a[0], t, sep);
      SplitOnCons(a[0], a[1..], sep);
      ConsPieces(a[0], SplitOn(a[1..], sep), SplitOn(b, sep), sep);
    }
  }

  /** The first step of a split distributes over pieces appended after the first one. */
  lemma ConsPieces(c: char, ra: seq<string>, rb: seq<string>, sep: char)
    requires |ra| >= 1
    ensures var r := ra + rb;
      (if c == sep then [[]] + r else [[c] + r[0]] + r[1..]) ==
      (if c == sep then [[]] + ra else [[c] + ra[0]] + ra[1..]) + rb
  {
    var r := ra + rb;
    assert r[0] == ra[0] && r[1..] == ra[1..] + rb;
  }

  /** One step of strings.Split: the first character starts a new piece or extends the first one. */
  lemma SplitOnCons(c: char, t: string, sep: char)
    ensures SplitOn([c] + t, sep) ==
      if c == sep then [[]] + SplitOn(t, sep) else [[c] + SplitOn(t, sep)[0]] + SplitOn(t, sep)[1..]
  {
    assert ([c] + t)[0] == c && ([c] + t)[1..] == t;
  }

  /** A string without the separator is a single piece. */
  lemma {:induction false} SplitOnNoSep(s: string, sep: char)
    requires sep !in s
    ensures SplitOn(s, sep) == [s]
  {
    if s != [] {
      assert sep !in s[1..];
      SplitOnNoSep(s[1..], sep);
      assert s == [s[0]] + s[1..];
    }
  }

  /** strings.Split yields one more piece than there are separators. */
  lemma {:induction false} SplitOnCount(s: string, sep: char)
    ensures |SplitOn(s, sep)| == Count(s, sep) + 1
  {
    if s != [] {
      SplitOnCount(s[1..], sep);
    }
  }

  /** strings.Join undoes strings.Split. */
  lemma {:induction false} JoinSplit(s: string, sep: char)
    ensures JoinWith(SplitOn(s, sep), sep) == s
  {
    if s != [] {
      JoinSplit(s[1..], sep);
      var rest := SplitOn(s[1..], sep);
      if s[0] == sep {
        assert SplitOn(s, sep) == [[]] + rest;
        assert ([[]] + rest)[1..] == rest;
      } else {
        var parts := SplitOn(s, sep);
        assert parts == [[s[0]] + rest[0]] + rest[1..];
        if |rest| == 1 {
          assert JoinWith(rest, sep) == rest[0];
        } else {
          assert parts[1..] == rest[1..];
          assert JoinWith(rest, sep) == rest[0] + [sep] + JoinWith(rest[1..], sep);
        }
      }
    }
  }

  /** strings.Index(s, string(c)): the first position of c, or None for -1. */
  function IndexOf(s: string, c: char): (r: Option<nat>)
    ensures r.None? <==> c !in s
    ensures r.Some? ==> r.value < |s| && s[r.value] == c && c !in s[..r.value]
  {
    if s == [] then None
    else if s[0] == c then Some(0)
    else
      match IndexOf(s[1..], c)
      case None => None
      case Some(i) => assert s[1..][..i] == s[1..i + 1]; Some(i + 1)
  }

  /** The first piece of strings.Split is everything before the first separator. */
  lemma SplitOnAtIndex(s: string, sep: char)
    requires IndexOf(s, sep).Some?
    ensures var i := IndexOf(s, sep).value;
      SplitOn(s, sep) == [s[..i]] + SplitOn(s[i + 1..], sep)
  {
    var i := IndexOf(s, sep).value;
    assert s == s[..i] + [sep] + s[i + 1..];
    SplitOnConcat(s[..i], s[i + 1..], sep);
    SplitOnNoSep(s[..i], sep);
  }

  predicate HasPrefix(s: string, prefix: string)
  {
    |prefix| <= |s| && s[..|prefix|] == prefix
  }

  predicate HasSuffix(s: string, suffix: string)
  {
    |suffix| <= |s| && s[|s| - |suffix|..] == suffix
  }

  /** strings.TrimSuffix: s without suffix when it ends with it, s otherwise. */
  function TrimSuffix(s: string, suffix: string): (r: string)
    ensures HasSuffix(s, suffix) ==> r + suffix == s
    ensures !HasSuffix(s, suffix) ==> r == s
  {
    if HasSuffix(s, suffix) then s[..|s| - |suffix|] else s
  }

  /** Byte-wise lexicographic order, as Go compares strings. */
  predicate LessEq(a: string, b: string)
  {
    a == [] || (b != [] && (a[0] < b[0] || (a[0] == b[0] && LessEq(a[1..], b[1..]))))
  }

  lemma {:induction false} LessEqTotal(a: string, b: string)
    ensures LessEq(a, b) || LessEq(b, a)
  {
    if a != [] && b != [] && a[0] == b[0] {
      LessEqTotal(a[1..], b[1..]);
    }
  }

  predicate Sorted(s: seq<string>)
  {
    forall i :: 0 <= i < |s| - 1 ==> LessEq(s[i], s[i + 1])
  }

  /** Inserts x before the first element it is not above. */
  function Insert(x: string, s: seq<string>): (r: seq<string>)
    ensures multiset(r) == multiset(s) + multiset{x}
    ensures |r| == |s| + 1
    ensures r[0] == x || (s != [] && r[0] == s[0])
    ensures Sorted(s) ==> Sorted(r)
  {
    if s == [] then [x]
    else if LessEq(x, s[0]) then [x] + s
    else
      LessEqTotal(x, s[0]);
      assert s == [s[0]] + s[1..];
      [s[0]] + Insert(x, s[1..])
  }

  /** sort.Strings: the sorted permutation of s. */
  function Sort(s: seq<string>): (r: seq<string>)
    ensures Sorted(r)
    ensures multiset(r) == multiset(s)
  {
    if s == [] then []
    else
      assert s == [s[0]] + s[1..];
      Insert(s[0], Sort(s[1..]))
  }
}

=== FILE: tag.dfy ===
/**
 * The hy struct-field tag: `path[,key[,setkey]]`.
 * The path segment names the file or directory a field is stored in
 * ("." for the field's own name, a trailing "/" for a directory, "-" to
 * skip the field); the key and set-key segments name the element field or
 * methods that carry a map element's key.
 */
module Tags {
  import opened Wrappers
  import opened Strings

  datatype Tag = Tag(
    none: bool,        // the field has no hy tag at all
    ignore: bool,      // "-": the field is skipped
    pathName: string,  // "." means: use the field's own name
    key: string,
    setKey: string,
    isDir: bool)       // the path segment ended in "/"

  /** Tag{}: the Go zero value, which is not the same as "no tag". */
  const ZeroTag := Tag(false, false, "", "", "", false)
  const NoTag := Tag(true, false, "", "", "", false)
  const IgnoreTag := Tag(false, true, "", "", "", false)

  datatype PathNameError = MustNotBeginWithSlash
  datatype TagError =
    | TooManyCommas                                        // "malformed tag, too many commas"
    | PathNameInvalid(pathName: string, cause: PathNameError)  // "path name %q invalid: ..."

  /** The segments of a tag string. */
  function TagParts(s: string): seq<string>
  {
    SplitOn(s, ',')
  }

  /** The i-th segment, or "" when there are not that many. */
  function Part(parts: seq<string>, i: nat): string
  {
    if i < |parts| then parts[i] else ""
  }

  /** A tag string of two comma-free segments. */
  lemma TwoParts(a: string, b: string)
    requires ',' !in a && ',' !in b
    ensures TagParts(a + "," + b) == [a, b]
  {
    assert a + "," + b == a + [','] + b;
    SplitOnConcat(a, b, ',');
    SplitOnNoSep(a, ',');
    SplitOnNoSep(b, ',');
  }

  /** A tag string of three comma-free segments. */
  lemma ThreeParts(a: string, b: string, c: string)
    requires ',' !in a && ',' !in b && ',' !in c
    ensures TagParts(a + "," + b + "," + c) == [a, b, c]
  {
    assert a + "," + b + "," + c == a + [','] + (b + "," + c);
    SplitOnConcat(a, b + "," + c, ',');
    SplitOnNoSep(a, ',');
    TwoParts(b, c);
  }

  /**
   * The path segment of a tag: the base name and whether it names a
   * directory. An empty segment or "." is the automatic name "."; a
   * trailing "/" marks a directory and is dropped; a leading "/" followed
   * by more text is rejected.
   */
  function ParsePathName(p: string): (r: Result<(string, bool), PathNameError>)
    ensures r.Failure? <==> |p| > 1 && p[0] == '/'
    ensures r.Success? ==> r.value.0 != [] && (r.value.1 <==> HasSuffix(p, "/"))
    ensures r.Success? && r.value.1 ==> r.value.0 + "/" == p || (p == "/" && r.value.0 == ".")
    ensures r.Success? && !r.value.1 ==> r.value.0 == p || (p == [] && r.value.0 == ".")
  {
    if p == [] then Success((".", false))
    else if p == "/" then Success((".", true))
    else if p[0] == '/' then Failure(MustNotBeginWithSlash)
    else if p[|p| - 1] == '/' then Success((p[..|p| - 1], true))
    else Success((p, false))
  }

  /** parseTag: a tag string to a Tag, or the reason it is malformed. */
  function ParseTag(s: string): (r: Result<Tag, TagError>)
    ensures r.Success? && r.value.none <==> s == []
    ensures r == Failure(TooManyCommas) <==> |TagParts(s)| > 3
    ensures r.Success? && !r.value.none && !r.value.ignore ==>
      r.value.pathName != [] && r.value.key == Part(TagParts(s), 1) && r.value.setKey == Part(TagParts(s), 2)
    ensures r.Success? && r.value.ignore ==> r.value == IgnoreTag && TagParts(s)[0] == "-"
    ensures r.Failure? && r.error.PathNameInvalid? ==> r.error.pathName == TagParts(s)[0]
  {
    if s == [] then Success(NoTag)
    else
      var parts := TagParts(s);
      if |parts| > 3 then Failure(TooManyCommas)
      else if parts[0] == "-" then Success(IgnoreTag)
      else
        match ParsePathName(parts[0])
        case Failure(e) => Failure(PathNameInvalid(parts[0], e))
        case Success((name, isDir)) => Success(Tag(false, false, name, Part(parts, 1), Part(parts, 2), isDir))
  }

  /** Too many commas is reported exactly when there are three or more. */
  lemma TooManyCommasIffThreeCommas(s: string)
    ensures ParseTag(s) == Failure(TooManyCommas) <==> Count(s, ',') >= 3
  {
    SplitOnCount(s, ',');
  }

  /** A trailing comma adds an empty segment, which changes nothing. */
  lemma {:induction false} TrailingCommaIgnored(s: string)
    requires s != [] && Count(s, ',') <= 1
    ensures ParseTag(s + ",") == ParseTag(s)
  {
    SplitOnConcat(s, [], ',');
    assert s + "," == s + [','] + [];
    SplitOnCount(s, ',');
    var parts := TagParts(s);
    assert TagParts(s + ",") == parts + [[]];
    assert Part(parts + [[]], 1) == Part(parts, 1);
    assert Part(parts + [[]], 2) == Part(parts, 2);
  }

  /** A first segment of "-" ignores the field whatever follows, up to three segments. */
  lemma IgnoreWhateverFollows(rest: string)
    requires Count(rest, ',') <= 1
    ensures ParseTag("-") == Success(IgnoreTag)
    ensures ParseTag("-," + rest) == Success(IgnoreTag)
  {
    SplitOnNoSep("-", ',');
    assert "-," + rest == "-" + [','] + rest;
    SplitOnConcat("-", rest, ',');
    SplitOnCount(rest, ',');
  }

  /** A tag whose segments parse back to it. */
  predicate WellFormed(t: Tag)
  {
    if t.none then t == NoTag
    else if t.ignore then t == IgnoreTag
    else
      && t.pathName != [] && t.pathName != "-"
      && t.pathName[0] != '/' && t.pathName[|t.pathName| - 1] != '/'
      && ',' !in t.pathName && ',' !in t.key && ',' !in t.setKey
  }

  /** Writes a tag back as a tag string, leaving out trailing empty segments. */
  function FormatTag(t: Tag): string
  {
    if t.none then []
    else if t.ignore then "-"
    else
      var path := t.pathName + (if t.isDir then "/" else []);
      if t.setKey != [] then path + "," + t.key + "," + t.setKey
      else if t.key != [] then path + "," + t.key
      else path
  }

  lemma PathSegmentRoundTrip(t: Tag)
    requires WellFormed(t) && !t.none && !t.ignore
    ensures ParsePathName(t.pathName + (if t.isDir then "/" else [])) == Success((t.pathName, t.isDir))
  {
    var p := t.pathName + (if t.isDir then "/" else []);
    assert p[0] == t.pathName[0] != '/';
    assert p != [] && p != "/";
    if t.isDir {
      assert p[|p| - 1] == '/';
      assert p[..|p| - 1] == t.pathName;
    } else {
      assert p == t.pathName;
    }
  }

  /** Every well-formed tag survives formatting and parsing. */
  lemma FormatParseRoundTrip(t: Tag)
    requires WellFormed(t)
    ensures ParseTag(FormatTag(t)) == Success(t)
  {
    if t.ignore {
      SplitOnNoSep("-", ',');
    } else if !t.none {
      var path := t.pathName + (if t.isDir then "/" else []);
      assert ',' !in path;
      assert path != "-" by {
        if t.isDir { assert |path| >= 2; }
      }
      PathSegmentRoundTrip(t);
      var parts: seq<string>;
      if t.setKey != [] {
        ThreeParts(path, t.key, t.setKey);
        assert FormatTag(t) == path + "," + t.key + "," + t.setKey;
        parts := [path, t.key, t.setKey];
      } else if t.key != [] {
        TwoParts(path, t.key);
        assert FormatTag(t) == path + "," + t.key;
        parts := [path, t.key];
      } else {
        SplitOnNoSep(path, ',');
        assert FormatTag(t) == path;
        parts := [path];
      }
      assert FormatTag(t) != [];
      assert TagParts(FormatTag(t)) == parts;

    }
  }

  /** parsePathName as written: compares all but the last character with "/". */
  function ParsePathNameAsWritten(p: string): (r: string)
    requires p != []
    ensures r != p ==> p == "//" && r == "/"
  {
    if p[..|p| - 1] == "/" then TrimSuffix(p, "/") else p
  }

  /** The slice test never sees the trailing "/" of "mypath/", so it is kept. */
  lemma ParsePathNameAsWrittenKeepsSlash()
    ensures ParsePathNameAsWritten("mypath/") == "mypath/"
    ensures ParsePathName("mypath/") == Success(("mypath", true))
  {
    assert "mypath/"[..6] == "mypath";
  }

  // Rows of the success and failure tables for parseTag, one lemma each.

  lemma EmptyTagIsNone()
    ensures ParseTag("") == Success(NoTag)
  {
  }

  /** A tag string of three comma-free segments parses its first segment as the path. */
  lemma ParseThree(a: string, b: string, c: string)
    requires ',' !in a && ',' !in b && ',' !in c
    ensures a == "-" ==> ParseTag(a + "," + b + "," + c) == Success(IgnoreTag)
    ensures a != "-" && ParsePathName(a).Success? ==>
      ParseTag(a + "," + b + "," + c) == Success(Tag(false, false, ParsePathName(a).value.0, b, c, ParsePathName(a).value.1))
    ensures a != "-" && ParsePathName(a).Failure? ==>
      ParseTag(a + "," + b + "," + c) == Failure(PathNameInvalid(a, ParsePathName(a).error))
  {
    ThreeParts(a, b, c);
  }

  /** A tag string of two comma-free segments parses its first segment as the path. */
  lemma ParseTwo(a: string, b: string)
    requires ',' !in a && ',' !in b
    ensures a != "-" && ParsePathName(a).Success? ==>
      ParseTag(a + "," + b) == Success(Tag(false, false, ParsePathName(a).value.0, b, "", ParsePathName(a).value.1))
    ensures a != "-" && ParsePathName(a).Failure? ==>
      ParseTag(a + "," + b) == Failure(PathNameInvalid(a, ParsePathName(a).error))
  {
    TwoParts(a, b);
  }

  /** Four comma-free segments are one too many. */
  lemma ParseFour(a: string, b: string, c: string, d: string)
    requires ',' !in a && ',' !in b && ',' !in c && ',' !in d
    ensures ParseTag(a + "," + b + "," + c + "," + d) == Failure(TooManyCommas)
  {
    var three := a + "," + b + "," + c;
    ThreeParts(a, b, c);
    assert a + "," + b + "," + c + "," + d == three + [','] + d;
    SplitOnConcat(three, d, ',');
    SplitOnNoSep(d, ',');
  }

  lemma DashWithEmptySegmentsIsIgnore()
    ensures ParseTag("-,,") == Success(IgnoreTag)
  {
    ParseThree("-", "", "");
    assert "-,," == "-" + "," + "" + "," + "";
  }

  lemma PathWithEmptySegments()
    ensures ParseTag("mypath,,") == Success(Tag(false, false, "mypath", "", "", false))
  {
    assert ParsePathName("mypath") == Success(("mypath", false));
    ParseThree("mypath", "", "");
    assert "mypath,," == "mypath" + "," + "" + "," + "";
  }

  lemma PathKeyAndSetKey()
    ensures ParseTag("mypath,MyID,SetMyID()") == Success(Tag(false, false, "mypath", "MyID", "SetMyID()", false))
  {
    assert "mypath,MyID,SetMyID()" == "mypath" + "," + "MyID" + "," + "SetMyID()";
    ParseThree("mypath", "MyID", "SetMyID()");
    assert ParsePathName("mypath") == Success(("mypath", false));
  }

  lemma AutoDirectory()
    ensures ParseTag("./") == Success(Tag(false, false, ".", "", "", true))
    ensures ParseTag("/") == Success(Tag(false, false, ".", "", "", true))
  {
    SplitOnNoSep("./", ',');
    SplitOnNoSep("/", ',');
  }

  lemma EmptyPathSegmentIsAutoName()
    ensures ParseTag(",") == Success(Tag(false, false, ".", "", "", false))
    ensures ParseTag(".") == Success(Tag(false, false, ".", "", "", false))
  {
    SplitOnNoSep(".", ',');
    ParseTwo("", "");
    assert "," == "" + "," + "";
  }

  lemma NamedDirectoryWithKey()
    ensures ParseTag("mypath/,MyID,") == Success(Tag(false, false, "mypath", "MyID", "", true))
  {
    assert "mypath/"[..6] == "mypath";
    assert ParsePathName("mypath/") == Success(("mypath", true));
    ParseThree("mypath/", "MyID", "");
    assert "mypath/,MyID," == "mypath/" + "," + "MyID" + "," + "";
  }

  lemma FourSegmentsAreTooMany()
    ensures ParseTag("mypath,key,setkey,") == Failure(TooManyCommas)
  {
    ParseFour("mypath", "key", "setkey", "");
    assert "mypath,key,setkey," == "mypath" + "," + "key" + "," + "setkey" + "," + "";
  }

  lemma LeadingSlashIsInvalid()
    ensures ParseTag("/mypath,") == Failure(PathNameInvalid("/mypath", MustNotBeginWithSlash))
  {
    ParseTwo("/mypath", "");
    assert "/mypath," == "/mypath" + "," + "";
  }
}

=== FILE: types.dfy ===
/**
 * The type information the codec analyses, standing in for reflect.Type:
 * a finite universe of named struct declarations and the type shapes built
 * from them, plus node identities (id.go).
 */
module Types {
  import opened Wrappers

  /** The non-aggregate kinds; the numeric kinds share one value domain. */
  datatype ScalarKind = Bool | Int | Uint | Float | String | Interface | Other

  datatype Type =
    | TScalar(kind: ScalarKind, name: string)
    | TStruct(name: string)
    | TMap(key: Type, elem: Type)
    | TSlice(elem: Type)
    | TPtr(elem: Type)

  /** reflect.Kind of a type. */
  datatype Kind = ScalarK(scalar: ScalarKind) | StructK | MapK | SliceK | PtrK

  function KindOf(t: Type): Kind
  {
    match t
    case TScalar(k, _) => ScalarK(k)
    case TStruct(_) => StructK
    case TMap(_, _) => MapK
    case TSlice(_) => SliceK
    case TPtr(_) => PtrK
  }

  /** A struct field declaration with its raw `hy` and `json` tag strings ("" when absent). */
  datatype FieldDecl = FieldDecl(name: string, typ: Type, hyTag: string, jsonTag: string)

  /** The declared structs, and the types that implement encoding.TextMarshaler. */
  datatype Universe = Universe(structs: map<string, seq<FieldDecl>>, textMarshalers: set<Type>)

  /** The fields of a struct type; an undeclared name has none. */
  function FieldsOf(u: Universe, name: string): seq<FieldDecl>
  {
    if name in u.structs then u.structs[name] else []
  }

  /** The names of a field list. */
  function NamesOf(fds: seq<FieldDecl>): set<string>
  {
    set i | 0 <= i < |fds| :: fds[i].name
  }

  /** The type of the first field called name. */
  function FieldTypeOf(fds: seq<FieldDecl>, name: string): (t: Type)
    requires name in NamesOf(fds)
    ensures exists i :: 0 <= i < |fds| && fds[i].name == name && fds[i].typ == t
  {
    if fds[0].name == name then fds[0].typ
    else
      assert name in NamesOf(fds[1..]) by {
        var i :| 0 <= i < |fds| && fds[i].name == name;
        assert fds[1..][i - 1] == fds[i];
      }
      FieldTypeOf(fds[1..], name)
  }

  /** Go rejects a struct with two fields of the same name. */
  ghost predicate WellFormedUniverse(u: Universe)
  {
    forall n, i, j :: n in u.structs && 0 <= i < j < |u.structs[n]| ==>
      u.structs[n][i].name != u.structs[n][j].name
  }

  /** A type and all the types it is built from. */
  function Subterms(t: Type): set<Type>
  {
    {t} + match t
      case TScalar(_, _) => {}
      case TStruct(_) => {}
      case TMap(k, e) => Subterms(k) + Subterms(e)
      case TSlice(e) => Subterms(e)
      case TPtr(e) => Subterms(e)
  }

  lemma {:induction false} SubtermsTransitive(t: Type, s: Type)
    requires s in Subterms(t)
    ensures Subterms(s) <= Subterms(t)
  {
    if s != t {
      match t
      case TMap(k, e) =>
        if s in Subterms(k) { SubtermsTransitive(k, s); } else { SubtermsTransitive(e, s); }
      case TSlice(e) => SubtermsTransitive(e, s);
      case TPtr(e) => SubtermsTransitive(e, s);
    }
  }

  /** Every type mentioned by some struct field of the universe. */
  ghost function FieldTypes(u: Universe): set<Type>
  {
    set n, i, s | n in u.structs && 0 <= i < |u.structs[n]| && s in Subterms(u.structs[n][i].typ) :: s
  }

  /** Every field name of the universe, and "" for map and slice elements. */
  ghost function FieldNames(u: Universe): set<string>
  {
    {""} + set n, i | n in u.structs && 0 <= i < |u.structs[n]| :: u.structs[n][i].name
  }

  /** The types an analysis starting from root can meet. */
  ghost function TypeScope(u: Universe, root: Type): set<Type>
  {
    Subterms(root) + FieldTypes(u)
  }

  /** A set of types closed under taking components and struct field types. */
  ghost predicate Closed(u: Universe, ts: set<Type>)
  {
    (forall t :: t in ts ==> Subterms(t) <= ts) &&
    (forall n, i :: TStruct(n) in ts && n in u.structs && 0 <= i < |u.structs[n]| ==> u.structs[n][i].typ in ts)
  }

  lemma TypeScopeClosed(u: Universe, root: Type)
    ensures Closed(u, TypeScope(u, root))
  {
    var ts := TypeScope(u, root);
    forall t | t in ts
      ensures Subterms(t) <= ts
    {
      if t in Subterms(root) {
        SubtermsTransitive(root, t);
      } else {
        var n, i :| n in u.structs && 0 <= i < |u.structs[n]| && t in Subterms(u.structs[n][i].typ);
        SubtermsTransitive(u.structs[n][i].typ, t);
      }
    }
    forall n, i | TStruct(n) in ts && n in u.structs && 0 <= i < |u.structs[n]|
      ensures u.structs[n][i].typ in ts
    {
      var t := u.structs[n][i].typ;
      assert t in Subterms(t);
    }
  }

  /** id.go: the identity of a node, unique per codec. */
  datatype NodeID = NodeID(parentType: Option<Type>, typ: Type, isPtr: bool, fieldName: string)

  /** One level of pointer is recorded in the ID rather than in its type. */
  function NewNodeID(parentType: Option<Type>, t: Type, fieldName: string): (id: NodeID)
    ensures id.parentType == parentType && id.fieldName == fieldName
    ensures id.isPtr <==> t.TPtr?
    ensures (if id.isPtr then TPtr(id.typ) else id.typ) == t
  {
    match t
    case TPtr(e) => NodeID(parentType, e, true, fieldName)
    case _ => NodeID(parentType, t, false, fieldName)
  }

  /** A leaf is a type whose (pointer-stripped) kind is not a struct, map or slice. */
  predicate IsLeaf(id: NodeID)
  {
    !(KindOf(id.typ) in {StructK, MapK, SliceK})
  }

  /** Every NodeID an analysis of root in u can create: finitely many. */
  ghost function IdScope(u: Universe, root: Type): set<NodeID>
  {
    var ts := TypeScope(u, root);
    set p, t, b: bool, f | p in {None} + (set s | s in ts :: Some(s)) && t in ts && f in FieldNames(u) :: NodeID(p, t, b, f)
  }

  lemma NewNodeIDInScope(u: Universe, root: Type, parentType: Option<Type>, t: Type, fieldName: string)
    requires parentType.None? || parentType.value in TypeScope(u, root)
    requires t in TypeScope(u, root) && fieldName in FieldNames(u)
    ensures NewNodeID(parentType, t, fieldName) in IdScope(u, root)
  {
    TypeScopeClosed(u, root);
    var id := NewNodeID(parentType, t, fieldName);
    assert id.typ in Subterms(t);
    if parentType.Some? {
      assert parentType in (set s | s in TypeScope(u, root) :: Some(s));
    }
  }
}

=== FILE: val.dfy ===
/**
 * val.go: a handle on a value under analysis. It holds a pointer to the
 * value's storage (null for a nil pointer), the key under which the value
 * sits in its map or slice (if any), whether the stored value is itself a
 * pointer, and the zero value of its node's type.
 */
module Vals {
  import opened Wrappers
  import opened Values

  /** The storage a pointer points to. */
  class Box {
    var value: Value

    constructor (v: Value)
      ensures value == v
    {
      value := v;
    }
  }

  datatype Val = Val(zero: Value, ptr: Box?, key: Option<Scalar>, isPtr: bool)

  /** Ptr.Elem(): what the pointer points to, or an invalid value for nil. */
  function Pointee(v: Val): Value
    reads v.ptr
  {
    if v.ptr == null then Invalid else v.ptr.value
  }

  /** A value that a handle of the given pointer-ness can hold. */
  predicate Storable(x: Value, isPtr: bool)
  {
    !isPtr || x.Nil? || x.PtrTo?
  }

  /** Final: the pointer itself when IsPtr, the pointee otherwise. */
  function Final(v: Val): (r: Value)
    reads v.ptr
    ensures v.isPtr ==> Storable(r, true) && Deref(r) == Pointee(v)
    ensures !v.isPtr ==> r == Pointee(v)
  {
    if v.isPtr then (if v.ptr == null then Nil else PtrTo(v.ptr.value))
    else Pointee(v)
  }

  /** IsZero: nil pointer, invalid pointee, or the pointee equals the zero value. */
  predicate IsZero(v: Val)
    reads v.ptr
  {
    v.ptr == null || Pointee(v) == Invalid || Pointee(v) == v.zero
  }

  /** ShouldWrite: keyed values are always written; others only when not zero. */
  predicate ShouldWrite(v: Val)
    reads v.ptr
  {
    v.key.Some? || !IsZero(v)
  }

  /** A keyed element is written even when it holds its zero value. */
  lemma KeyedAlwaysWritten(v: Val)
    requires v.key.Some?
    ensures ShouldWrite(v)
  {
  }

  /** An unkeyed value is written exactly when it is present and differs from its zero value. */
  lemma UnkeyedWrittenIffNonZero(v: Val)
    requires v.key.None?
    ensures ShouldWrite(v) <==> v.ptr != null && v.ptr.value != Invalid && v.ptr.value != v.zero
  {
  }

  /**
   * A handle on elem (NewKeyedValFrom): a fresh box holding a copy of the
   * element (of its target, for a pointer element), or no box for a nil
   * pointer element. Nothing is shared with the map the element came from.
   */
  method NewKeyedValFrom(zero: Value, isPtr: bool, key: Scalar, elem: Value) returns (v: Val)
    ensures v.zero == zero && v.isPtr == isPtr && v.key == Some(key)
    ensures v.ptr == null || fresh(v.ptr)
    ensures Storable(elem, isPtr) ==> Final(v) == elem
    ensures Pointee(v) == PointeeOf(elem, isPtr)
  {
    if isPtr && !elem.PtrTo? {
      v := Val(zero, null, Some(key), isPtr);
    } else {
      var b := new Box(if isPtr then elem.target else elem);
      v := Val(zero, b, Some(key), isPtr);
    }
  }

  /** A handle on a fresh zero value (NewKeyedVal). */
  method NewKeyedVal(zero: Value, isPtr: bool, key: Scalar) returns (v: Val)
    ensures v.zero == zero && v.isPtr == isPtr && v.key == Some(key)
    ensures v.ptr != null && fresh(v.ptr) && v.ptr.value == zero
  {
    var b := new Box(zero);
    v := Val(zero, b, Some(key), isPtr);
  }

  /**
   * SetField: the named field of the pointee becomes x's final value. The
   * pointee must be a struct that has the field, and the final value must
   * be valid; reflect panics otherwise.
   */
  method SetField(v: Val, name: string, x: Val)
    requires v.ptr != null && Pointee(v).Struct? && name in Pointee(v).fields
    requires Final(x) != Invalid
    modifies v.ptr
    ensures v.ptr.value.Struct? && v.ptr.value.fields.Keys == old(v.ptr.value.fields.Keys)
    ensures v.ptr.value.fields[name] == old(Final(x))
    ensures forall other :: other in v.ptr.value.fields && other != name ==> v.ptr.value.fields[other] == old(v.ptr.value.fields[other])
  {
    var f := Final(x);
    v.ptr.value := WithField(v.ptr.value, name, f);
  }

  /**
   * GetField: the named field of the pointee, which must be a struct
   * (reflect panics otherwise); a name the struct lacks gives an invalid
   * value.
   */
  function GetField(v: Val, name: string): (r: Value)
    requires Pointee(v).Struct?
    reads v.ptr
    ensures name in Pointee(v).fields ==> r == Pointee(v).fields[name]
    ensures name !in Pointee(v).fields ==> r == Invalid
  {
    Field(Pointee(v), name)
  }

  /** The entries of a map value; a nil map has none. */
  function Entries(m: Value): map<Scalar, Value>
  {
    if m.Map? then m.entries else map[]
  }

  /** The (non-nil) map value with key set to x. */
  function WithEntry(m: Value, key: Scalar, x: Value): (r: Value)
    requires m.Map?
    ensures r.Map? && Entries(r) == Entries(m)[key := x]
  {
    Map(m.entries[key := x])
  }

  /** The (non-nil) map value without key. */
  function WithoutEntry(m: Value, key: Scalar): (r: Value)
    requires m.Map?
    ensures r.Map? && Entries(r) == Entries(m) - {key}
  {
    Map(m.entries - {key})
  }

  /**
   * SetMapElement: the pointee map gets x's final value under x's key,
   * or loses that key when the final value is invalid (SetMapIndex with a
   * zero Value deletes). The map must exist and x must have a key;
   * reflect panics otherwise.
   */
  method SetMapElement(v: Val, x: Val)
    requires v.ptr != null && Pointee(v).Map? && x.key.Some?
    modifies v.ptr
    ensures old(Final(x)) != Invalid ==> v.ptr.value == WithEntry(old(v.ptr.value), x.key.value, old(Final(x)))
    ensures old(Final(x)) == Invalid ==> v.ptr.value == WithoutEntry(old(v.ptr.value), x.key.value)
    ensures v.ptr.value.Map? && v.ptr.value.entries.Keys ==
      if old(Final(x)) == Invalid then old(v.ptr.value.entries.Keys) - {x.key.value} else old(v.ptr.value.entries.Keys) + {x.key.value}
    ensures forall k :: k in old(v.ptr.value.entries) && k != x.key.value ==> v.ptr.value.entries[k] == old(v.ptr.value.entries[k])
  {
    var f := Final(x);
    if f == Invalid {
      v.ptr.value := WithoutEntry(v.ptr.value, x.key.value);
    } else {
      v.ptr.value := WithEntry(v.ptr.value, x.key.value, f);
    }
  }

  /** e is a handle on the entry of m under e's key, made for an element node of the given shape. */
  predicate HandlesEntry(e: Val, m: map<Scalar, Value>, zero: Value, isPtr: bool)
    reads e.ptr
  {
    && e.key.Some? && e.key.value in m && e.zero == zero && e.isPtr == isPtr
    && (Storable(m[e.key.value], isPtr) ==> Final(e) == m[e.key.value])
    && Pointee(e) == PointeeOf(m[e.key.value], isPtr)
  }

  /** MapKeys: the keys of m, each once, in an unspecified order. */
  method MapKeys(m: map<Scalar, Value>) returns (keys: seq<Scalar>)
    ensures |keys| == |m|
    ensures forall k :: k in m <==> k in keys
    ensures forall i, j :: 0 <= i < j < |keys| ==> keys[i] != keys[j]
  {
    var remaining := m.Keys;
    keys := [];
    while remaining != {}
      invariant remaining <= m.Keys && |keys| + |remaining| == |m|
      invariant forall k :: k in m ==> (k in keys <==> k !in remaining)
      invariant forall k :: k in keys ==> k in m
      invariant forall i, j :: 0 <= i < j < |keys| ==> keys[i] != keys[j]
    {
      var key :| key in remaining;
      keys := keys + [key];
      remaining := remaining - {key};
    }
  }

  /** One keyed handle per key in keys, on that key's entry of m. */
  method KeyedElements(m: map<Scalar, Value>, keys: seq<Scalar>, elemZero: Value, elemIsPtr: bool)
    returns (vals: seq<Val>)
    requires forall k :: k in keys ==> k in m
    ensures |vals| == |keys|
    ensures forall j :: 0 <= j < |keys| ==>
      vals[j].key == Some(keys[j]) && vals[j].zero == elemZero && vals[j].isPtr == elemIsPtr
    ensures forall j :: 0 <= j < |keys| ==> Pointee(vals[j]) == PointeeOf(m[keys[j]], elemIsPtr)
    ensures forall j :: 0 <= j < |keys| && Storable(m[keys[j]], elemIsPtr) ==> Final(vals[j]) == m[keys[j]]
    ensures forall j :: 0 <= j < |keys| ==> vals[j].ptr == null || fresh(vals[j].ptr)
    ensures forall j, l :: 0 <= j < l < |keys| && vals[j].ptr != null ==> vals[j].ptr != vals[l].ptr
  {
    vals := [];
    for i := 0 to |keys|
      invariant |vals| == i
      invariant forall j :: 0 <= j < i ==>
        vals[j].key == Some(keys[j]) && vals[j].zero == elemZero && vals[j].isPtr == elemIsPtr
      invariant forall j :: 0 <= j < i ==> Pointee(vals[j]) == PointeeOf(m[keys[j]], elemIsPtr)
      invariant forall j :: 0 <= j < i && Storable(m[keys[j]], elemIsPtr) ==> Final(vals[j]) == m[keys[j]]
      invariant forall j :: 0 <= j < i ==> vals[j].ptr == null || fresh(vals[j].ptr)
      invariant forall j, l :: 0 <= j < l < i && vals[j].ptr != null ==> vals[j].ptr != vals[l].ptr
    {
      var e := NewKeyedValFrom(elemZero, elemIsPtr, keys[i], m[keys[i]]);
      vals := vals + [e];
    }
  }

  /**
   * MapElements: one keyed handle per entry of the pointee map, in the
   * order MapKeys gives.
   */
  method MapElements(v: Val, elemZero: Value, elemIsPtr: bool) returns (vals: seq<Val>)
    requires v.ptr != null
    ensures var m := Entries(Pointee(v));
      && |vals| == |m|
      && (forall i :: 0 <= i < |vals| ==> HandlesEntry(vals[i], m, elemZero, elemIsPtr))
      && (forall i, j :: 0 <= i < j < |vals| ==> vals[i].key != vals[j].key)
      && (forall k :: k in m ==> exists i :: 0 <= i < |vals| && vals[i].key == Some(k))
    ensures forall i :: 0 <= i < |vals| ==> vals[i].ptr == null || fresh(vals[i].ptr)
    ensures forall i, j :: 0 <= i < j < |vals| && vals[i].ptr != null ==> vals[i].ptr != vals[j].ptr
  {
    var m := Entries(Pointee(v));
    var keys := MapKeys(m);
    vals := KeyedElements(m, keys, elemZero, elemIsPtr);
    forall k | k in m
      ensures exists i :: 0 <= i < |vals| && vals[i].key == Some(k)
    {
      var i :| 0 <= i < |keys| && keys[i] == k;
      assert vals[i].key == Some(k);
    }
  }

  /** A slice value, nil (Nil) or not. */
  predicate IsSlice(x: Value)
  {
    x.Slice? || x.Nil?
  }

  /** The slice a pointee holds; a nil slice is empty. */
  function Elems(s: Value): seq<Value>
  {
    if s.Slice? then s.elems else []
  }

  /**
   * SliceElements: one fresh zero-valued handle per slice element, keyed
   * by its index. The handles do not carry the elements themselves.
   */
  method SliceElements(v: Val, elemZero: Value, elemIsPtr: bool) returns (vals: seq<Val>)
    requires v.ptr != null && IsSlice(Pointee(v))
    ensures |vals| == |Elems(Pointee(v))|
    ensures forall i :: 0 <= i < |vals| ==>
      vals[i].key == Some(SNum(i)) && vals[i].ptr != null && vals[i].ptr.value == elemZero
    ensures forall i :: 0 <= i < |vals| ==> vals[i].zero == elemZero && vals[i].isPtr == elemIsPtr
  {
    var n := |Elems(Pointee(v))|;
    var arr := new Val[n](_ => Val(elemZero, null, None, elemIsPtr));
    for i := 0 to n
      invariant forall j :: 0 <= j < i ==>
        arr[j].key == Some(SNum(j)) && arr[j].ptr != null && arr[j].ptr.value == elemZero
      invariant forall j :: 0 <= j < i ==> arr[j].zero == elemZero && arr[j].isPtr == elemIsPtr
      invariant forall j :: 0 <= j < i ==> fresh(arr[j].ptr)
    {
      var e := NewKeyedVal(elemZero, elemIsPtr, SNum(i));
      arr[i] := e;
    }
    vals := arr[..];
  }

  /** The slice with x appended, which is what Append is evidently meant to store. */
  function Appended(s: Value, x: Value): (r: Value)
    ensures Elems(r) == Elems(s) + [x]
  {
    Slice(Elems(s) + [x])
  }

  /** Append as written: reflect.Append's result is dropped, so the pointee is left as it was. */
  method AppendAsWritten(v: Val, x: Val)
    requires v.ptr != null && IsSlice(Pointee(v)) && Final(x) != Invalid
    modifies v.ptr
    ensures v.ptr.value == old(v.ptr.value)
  {
  }

  /** Append: the pointee slice grows by x's final value. */
  method Append(v: Val, x: Val)
    requires v.ptr != null && IsSlice(Pointee(v)) && Final(x) != Invalid
    modifies v.ptr
    ensures v.ptr.value == Appended(old(v.ptr.value), old(Final(x)))
    ensures IsSlice(v.ptr.value)
  {
    var f := Final(x);
    v.ptr.value := Appended(v.ptr.value, f);
  }

  /**
   * AppendAsWritten and Append run on two handles on equal slices: the
   * first leaves its slice as it was, the second holds one more element,
   * so the element appended as written is lost.
   */
  method AppendAsWrittenLosesElement(s: Value, x: Val) returns (asWritten: Value, intended: Value)
    requires IsSlice(s) && Final(x) != Invalid
    ensures asWritten == s
    ensures Elems(intended) == Elems(s) + [Final(x)]
    ensures |Elems(intended)| == |Elems(asWritten)| + 1 && asWritten != intended
  {
    var b1 := new Box(s);
    var b2 := new Box(s);
    AppendAsWritten(Val(s, b1, None, false), x);
    Append(Val(s, b2, None, false), x);
    asWritten, intended := b1.value, b2.value;
  }
}

=== FILE: values.dfy ===
/**
 * Run-time values, standing in for reflect.Value: scalars, structs by
 * field name, maps by scalar key, slices and pointers. A Go pointer is
 * represented by what it points to (PtrTo) or by Nil; Invalid is the
 * zero reflect.Value (an absent value).
 */
module Values {
  import opened Types

  datatype Scalar = SBool(b: bool) | SNum(n: int) | SString(s: string)

  datatype Value =
    | Invalid
    | Nil
    | Prim(scalar: Scalar)
    | Struct(fields: map<string, Value>)
    | Map(entries: map<Scalar, Value>)
    | Slice(elems: seq<Value>)
    | PtrTo(target: Value)

  /** What a struct's own file holds: nothing, or its aggregated fields by name. */
  datatype Payload = NilPayload | FieldMap(fields: map<string, Value>)

  /** reflect.Value.Elem of a pointer: the pointee, or an invalid value for nil. */
  function Deref(v: Value): Value
  {
    if v.PtrTo? then v.target else Invalid
  }

  /** What a handle of the given pointer-ness holding x points at: x itself, or the target of pointer x. */
  function PointeeOf(x: Value, isPtr: bool): Value
  {
    if isPtr then Deref(x) else x
  }

  /** FieldByName: the named field of a struct, or an invalid value. */
  function Field(v: Value, name: string): Value
  {
    if v.Struct? && name in v.fields then v.fields[name] else Invalid
  }

  /** A struct with the named field set to x; other values are left alone. */
  function WithField(v: Value, name: string, x: Value): (r: Value)
    ensures v.Struct? && name in v.fields ==> Field(r, name) == x
    ensures forall other :: other != name ==> Field(r, other) == Field(v, other)
    ensures r.Struct? <==> v.Struct?
    ensures r.Struct? ==> r.fields.Keys == v.fields.Keys
  {
    if v.Struct? && name in v.fields then Struct(v.fields[name := x]) else v
  }

  /** The zero value of a numeric, string or boolean kind; nil for the rest. */
  function ScalarZero(k: ScalarKind): Value
  {
    match k
    case Bool => Prim(SBool(false))
    case Int => Prim(SNum(0))
    case Uint => Prim(SNum(0))
    case Float => Prim(SNum(0))
    case String => Prim(SString(""))
    case Interface => Nil
    case Other => Nil
  }

  /**
   * The zero value of t (reflect.Zero). A struct contains the zero value of
   * each field; a struct that contains itself by value, which Go rejects,
   * gets Invalid where the cycle closes.
   */
  function ZeroIn(u: Universe, t: Type, visited: set<string>): (r: Value)
    decreases u.structs.Keys - visited
  {
    match t
    case TScalar(k, _) => ScalarZero(k)
    case TStruct(n) =>
      if n !in u.structs then Struct(map[])
      else if n in visited then Invalid
      else
        var fds := u.structs[n];
        Struct(map name | name in NamesOf(fds) :: ZeroIn(u, FieldTypeOf(fds, name), visited + {n}))
    case _ => Nil
  }

  function ZeroOf(u: Universe, t: Type): (r: Value)
    ensures t.TMap? || t.TSlice? || t.TPtr? ==> r == Nil
    ensures t.TStruct? && t.name in u.structs ==>
      r.Struct? && r.fields.Keys == NamesOf(u.structs[t.name])
  {
    ZeroIn(u, t, {})
  }

  /**
   * Nesting depth at most h: each struct, map or slice level uses one unit;
   * pointers are free. Used as the termination measure of the write walk.
   */
  ghost predicate Bounded(v: Value, h: nat)
    decreases h, v
  {
    match v
    case Struct(f) => h > 0 && forall k :: k in f ==> Bounded(f[k], h - 1)
    case Map(m) => h > 0 && forall k :: k in m ==> Bounded(m[k], h - 1)
    case Slice(s) => h > 0 && forall i :: 0 <= i < |s| ==> Bounded(s[i], h - 1)
    case PtrTo(x) => Bounded(x, h)
    case _ => true
  }

  /** Taking a field and following one pointer do not deepen a value. */
  lemma FieldBounded(v: Value, name: string, isPtr: bool, h: nat)
    requires Bounded(v, h) && v.Struct?
    ensures h > 0 && Bounded(PointeeOf(Field(v, name), isPtr), h - 1)
  {
    if name in v.fields {
      assert Bounded(v.fields[name], h - 1);
    }
  }

  /** Setting a field to a scalar does not deepen a value. */
  lemma WithScalarFieldBounded(v: Value, name: string, s: Scalar, h: nat)
    requires Bounded(v, h)
    ensures Bounded(WithField(v, name, Prim(s)), h)
  {
  }
}

=== FILE: wrappers.dfy ===
/** Option and Result: the model's way of writing Go's nil pointers and (value, error) pairs. */
module Wrappers {
  datatype Option<+T> = None | Some(value: T)

  datatype Result<+T, +E> = Success(value: T) | Failure(error: E)
}

=== FILE: write.dfy ===
/**
 * The write walk of struct.go and map.go: a depth-first traversal of the
 * analysed nodes together with a value, adding one file target per struct
 * it meets to a shared FileTargets collection. Because Go visits struct
 * children and map entries in map order, what a walk writes is specified
 * as a multiset of targets (Emit), independent of that order.
 */
module Writes {
  import opened Wrappers
  import opened Types
  import opened Values
  import opened Vals
  import opened FieldInfos
  import opened Nodes
  import opened Contexts
  import opened FileTargetSets

  datatype WriteError =
    | WritingSelf(cause: TargetError)                  // "failed to write self"
    | WritingChild(name: string, inner: WriteError)    // "failed to write child %s"
    | WritingMapIndex(key: Scalar, inner: WriteError)  // "writing map index %q failed"

  /** The duplicate target at the bottom of a chain of wrapped errors. */
  function RootCause(e: WriteError): TargetError
  {
    match e
    case WritingSelf(cause) => cause
    case WritingChild(_, inner) => RootCause(inner)
    case WritingMapIndex(_, inner) => RootCause(inner)
  }

  /**
   * An arena the walk can run over: every index refers to a node, and every
   * map node can print its keys (Go calls a nil MarshalKey otherwise).
   */
  predicate Walkable(nodes: seq<Node>)
  {
    && (forall i :: 0 <= i < |nodes| ==> Linked(nodes[i], |nodes|))
    && (forall i :: 0 <= i < |nodes| && nodes[i].kind.MapKind? ==> nodes[i].kind.marshal != NoMarshal)
  }

  /**
   * prepareFileData: nothing for an absent value, otherwise the value of
   * every aggregated field, by name.
   */
  function PrepareFileData(fields: map<string, Type>, x: Value): (r: Payload)
    ensures r == NilPayload <==> x == Invalid
    ensures r.FieldMap? ==> r.fields.Keys == fields.Keys
    ensures r.FieldMap? ==> forall name :: name in fields ==> r.fields[name] == Field(x, name)
  {
    if x == Invalid then NilPayload else FieldMap(map name | name in fields :: Field(x, name))
  }

  /** The element field a map node stores each entry's key in; empty when there is none. */
  function KeyFieldOf(n: Node): string
  {
    if n.field.Some? then n.field.value.keyField else []
  }

  /** An element after its key was set into keyField (nothing to set when keyField is empty). */
  function Injected(x: Value, keyField: string, k: Scalar): (r: Value)
    ensures keyField == [] ==> r == x
    ensures keyField != [] && x.Struct? && keyField in x.fields ==> Field(r, keyField) == Prim(k)
    ensures forall other :: other != keyField ==> Field(r, other) == Field(x, other)
  {
    if keyField == [] then x else WithField(x, keyField, Prim(k))
  }

  /**
   * Emit: the targets node i writes for value x at context c (key is the
   * map key when x is a map entry). d bounds the nesting of x; for a
   * value Bounded by d it is never exhausted.
   *  - a struct writes its own file at the context's path, then, for a
   *    struct value, each child at the child's fixed path name;
   *  - a map writes nothing when it should not be written (unkeyed and
   *    absent or nil), and otherwise each entry at its marshalled key,
   *    with the key set into the entry's key field;
   *  - file and slice nodes write nothing.
   * Outside a Walkable arena (an index out of range, a map that cannot
   * print its keys) the walk is undefined; these functions then give
   * nothing, so that they need no preconditions.
   */
  ghost function Emit(u: Universe, nodes: seq<Node>, i: nat, c: WriteContext, x: Value, key: Option<Scalar>,
                      text: Scalar -> string, d: nat): multiset<FileTarget>
    decreases d, 2
  {
    if i >= |nodes| then multiset{}
    else match nodes[i].kind
    case StructKind(fields, children) =>
      multiset{FileTarget(WritePath(c), PrepareFileData(fields, x))}
      + (if x.Struct? && d > 0 then ChildrenEmit(u, nodes, i, c, x, children.Keys, text, d) else multiset{})
    case MapKind(_, _, _, _) =>
      if key.None? && (x == Invalid || x == Nil) then multiset{}
      else if d > 0 then ElemsEmit(u, nodes, i, c, x, Entries(x).Keys, text, d)
      else multiset{}
    case _ => multiset{}
  }

  /** The targets of the children of struct node i named in names. */
  ghost function ChildrenEmit(u: Universe, nodes: seq<Node>, i: nat, c: WriteContext, x: Value, names: set<string>,
                              text: Scalar -> string, d: nat): multiset<FileTarget>
    decreases d, 1, names
  {
    if names == {} then multiset{}
    else
      var name :| name in names;
      ChildEmit(u, nodes, i, c, x, name, text, d) + ChildrenEmit(u, nodes, i, c, x, names - {name}, text, d)
  }

  /** The targets of one child: its field's value (behind its pointer) at its fixed path name. */
  ghost function ChildEmit(u: Universe, nodes: seq<Node>, i: nat, c: WriteContext, x: Value, name: string,
                           text: Scalar -> string, d: nat): multiset<FileTarget>
    decreases d, 0
  {
    if i < |nodes| && nodes[i].kind.StructKind? && name in nodes[i].kind.children
       && nodes[i].kind.children[name] < |nodes| && d > 0
    then
      var ci := nodes[i].kind.children[name];
      Emit(u, nodes, ci, PushWrite(c, FixedPathName(nodes[ci])), PointeeOf(Field(x, name), nodes[ci].id.isPtr), None, text, d - 1)
    else multiset{}
  }

  /** Within the arena, a child's targets are its node's Emit for the child's field. */
  lemma ChildEmitOf(u: Universe, nodes: seq<Node>, i: nat, c: WriteContext, x: Value, name: string,
                    text: Scalar -> string, d: nat)
    requires i < |nodes| && nodes[i].kind.StructKind? && name in nodes[i].kind.children
    requires nodes[i].kind.children[name] < |nodes| && d > 0
    ensures var ci := nodes[i].kind.children[name];
      ChildEmit(u, nodes, i, c, x, name, text, d)
      == Emit(u, nodes, ci, PushWrite(c, FixedPathName(nodes[ci])), PointeeOf(Field(x, name), nodes[ci].id.isPtr), None, text, d - 1)
  {
  }

  /** The targets of the entries of map x under keys. */
  ghost function ElemsEmit(u: Universe, nodes: seq<Node>, i: nat, c: WriteContext, x: Value, keys: set<Scalar>,
                           text: Scalar -> string, d: nat): multiset<FileTarget>
    decreases d, 1, keys
  {
    if keys == {} then multiset{}
    else
      var k :| k in keys;
      ElemEmit(u, nodes, i, c, x, k, text, d) + ElemsEmit(u, nodes, i, c, x, keys - {k}, text, d)
  }

  /** The path segment of map node n's entry under k. */
  function EntrySegment(n: Node, k: Scalar, text: Scalar -> string): string
    requires n.kind.MapKind? && n.kind.marshal != NoMarshal
  {
    MarshalKey(n.kind.marshal, k, text).value
  }

  /** The value entry e under key k is written with: behind its pointer, with its key set. */
  function EntryValue(e: Value, k: Scalar, isPtr: bool, keyField: string): Value
  {
    Injected(PointeeOf(e, isPtr), keyField, k)
  }

  /** Whether the element node of map node i holds its values through pointers. */
  function ElemIsPtr(nodes: seq<Node>, i: nat): bool
  {
    i < |nodes| && nodes[i].kind.MapKind? && nodes[i].kind.elem < |nodes| && nodes[nodes[i].kind.elem].id.isPtr
  }

  /** The targets of one entry: its element node at the marshalled key. */
  ghost function ElemEmit(u: Universe, nodes: seq<Node>, i: nat, c: WriteContext, x: Value, k: Scalar,
                          text: Scalar -> string, d: nat): multiset<FileTarget>
    decreases d, 0
  {
    if i < |nodes| && nodes[i].kind.MapKind? && nodes[i].kind.marshal != NoMarshal && k in Entries(x) && d > 0
    then
      var n := nodes[i];
      Emit(u, nodes, n.kind.elem, PushWrite(c, EntrySegment(n, k, text)),
           EntryValue(Entries(x)[k], k, ElemIsPtr(nodes, i), KeyFieldOf(n)), Some(k), text, d - 1)
    else multiset{}
  }

  /** For a map node that can print its keys, an entry's targets are its element node's Emit for the entry. */
  lemma ElemEmitOf(u: Universe, nodes: seq<Node>, i: nat, c: WriteContext, x: Value, k: Scalar,
                   text: Scalar -> string, d: nat)
    requires i < |nodes| && nodes[i].kind.MapKind? && nodes[i].kind.marshal != NoMarshal && k in Entries(x) && d > 0
    ensures ElemEmit(u, nodes, i, c, x, k, text, d)
      == Emit(u, nodes, nodes[i].kind.elem, PushWrite(c, EntrySegment(nodes[i], k, text)),
              EntryValue(Entries(x)[k], k, ElemIsPtr(nodes, i), KeyFieldOf(nodes[i])), Some(k), text, d - 1)
  {
  }

  /** The paths of a multiset of targets. */
  ghost function PathsOf(ts: multiset<FileTarget>): set<string>
  {
    set t | t in ts :: t.filePath
  }

  /** No two targets of ts share a path, and none occurs twice. */
  ghost predicate DistinctPathsIn(ts: multiset<FileTarget>)
  {
    forall t1, t2 :: t1 in ts && t2 in ts && t1.filePath == t2.filePath ==> t1 == t2 && ts[t1] == 1
  }

  /** m1 is m0 with exactly the targets ts added, each at a path of its own that m0 did not hold. */
  ghost predicate Wrote(m0: map<string, Payload>, m1: map<string, Payload>, ts: multiset<FileTarget>)
  {
    && DistinctPathsIn(ts)
    && (forall t :: t in ts ==> t.filePath !in m0)
    && m1.Keys == m0.Keys + PathsOf(ts)
    && (forall p :: p in m0 ==> m1[p] == m0[p])
    && (forall t :: t in ts ==> m1[t.filePath] == t.value)
  }

  /** Nothing of m0 is lost or changed in m1. */
  ghost predicate Kept(m0: map<string, Payload>, m1: map<string, Payload>)
  {
    m0.Keys <= m1.Keys && forall p :: p in m0 ==> m1[p] == m0[p]
  }

  /** Path p is claimed twice: by m0 and a target of ts, or by two targets of ts. */
  ghost predicate Clash(m0: map<string, Payload>, ts: multiset<FileTarget>, p: string)
  {
    exists t :: t in ts && t.filePath == p &&
      (p in m0 || ts[t] > 1 || exists t2 :: t2 in ts && t2 != t && t2.filePath == p)
  }

  /** What a write step leaves: all of ts added, or a clash on the path its error names. */
  ghost predicate Outcome(m0: map<string, Payload>, m1: map<string, Payload>, ts: multiset<FileTarget>, err: Option<WriteError>)
  {
    && (err.None? ==> Wrote(m0, m1, ts))
    && (err.Some? ==> Kept(m0, m1) && Clash(m0, ts, RootCause(err.value).path))
  }

  /** A clash anywhere is exactly what keeps ts from being added to m0 as a whole. */
  lemma ClashIffNotAddable(m0: map<string, Payload>, ts: multiset<FileTarget>)
    ensures (exists p :: Clash(m0, ts, p)) <==> !(DistinctPathsIn(ts) && forall t :: t in ts ==> t.filePath !in m0)
  {
    if !(DistinctPathsIn(ts) && forall t :: t in ts ==> t.filePath !in m0) {
      if !DistinctPathsIn(ts) {
        var t1, t2 :| t1 in ts && t2 in ts && t1.filePath == t2.filePath && !(t1 == t2 && ts[t1] == 1);
        assert Clash(m0, ts, t1.filePath);
      } else {
        var t :| t in ts && t.filePath in m0;
        assert Clash(m0, ts, t.filePath);
      }
    }
  }

  lemma WroteNothing(m: map<string, Payload>)
    ensures Wrote(m, m, multiset{})
  {
  }

  /** Adding one target to m whose path is new. */
  lemma WroteOne(m: map<string, Payload>, t: FileTarget)
    requires t.filePath !in m
    ensures Wrote(m, m[t.filePath := t.value], multiset{t})
  {
    assert PathsOf(multiset{t}) == {t.filePath};
  }

  lemma PathsOfUnion(a: multiset<FileTarget>, b: multiset<FileTarget>)
    ensures PathsOf(a + b) == PathsOf(a) + PathsOf(b)
  {
    forall p | p in PathsOf(a + b) ensures p in PathsOf(a) + PathsOf(b) {
      var t :| t in a + b && t.filePath == p;
    }
    forall p | p in PathsOf(a) + PathsOf(b) ensures p in PathsOf(a + b) {
      var t :| (t in a || t in b) && t.filePath == p;
      assert t in a + b;
    }
  }

  /** A target in ts has its path in PathsOf(ts). */
  lemma PathOf(ts: multiset<FileTarget>, t: FileTarget)
    requires t in ts
    ensures t.filePath in PathsOf(ts)
  {
  }

  /** Targets added one write after another keep distinct paths. */
  lemma DistinctAfter(m0: map<string, Payload>, m1: map<string, Payload>, m2: map<string, Payload>,
                      a: multiset<FileTarget>, b: multiset<FileTarget>)
    requires Wrote(m0, m1, a) && Wrote(m1, m2, b)
    ensures DistinctPathsIn(a + b)
  {
    forall t1, t2 | t1 in a + b && t2 in a + b && t1.filePath == t2.filePath
      ensures t1 == t2 && (a + b)[t1] == 1
    {
      if t1 in a {
        PathOf(a, t1);
        assert t2 in a && t1 !in b;
      } else {
        if t2 in a {
          PathOf(a, t2);
          assert false;
        }
      }
    }
  }

  /** Two writes in a row add the targets of both. */
  lemma WroteCompose(m0: map<string, Payload>, m1: map<string, Payload>, m2: map<string, Payload>,
                     a: multiset<FileTarget>, b: multiset<FileTarget>)
    requires Wrote(m0, m1, a) && Wrote(m1, m2, b)
    ensures Wrote(m0, m2, a + b)
  {
    DistinctAfter(m0, m1, m2, a, b);
    PathsOfUnion(a, b);
    forall t | t in a
      ensures t.filePath !in m0 && m2[t.filePath] == t.value
    {
      PathOf(a, t);
    }
  }

  /** A clash met after writing a carries over to the writes taken together. */
  lemma ClashAfter(m0: map<string, Payload>, m1: map<string, Payload>, a: multiset<FileTarget>, b: multiset<FileTarget>, p: string)
    requires Wrote(m0, m1, a) && Clash(m1, b, p)
    ensures Clash(m0, a + b, p)
  {
    var t :| t in b && t.filePath == p && (p in m1 || b[t] > 1 || exists t2 :: t2 in b && t2 != t && t2.filePath == p);
    if p in m1 && p !in m0 {
      var s :| s in a && s.filePath == p;
      if s == t {
        assert (a + b)[t] > 1;
      } else {
        assert s in a + b && s != t && s.filePath == p;
      }
    } else if p !in m1 && b[t] <= 1 {
      var t2 :| t2 in b && t2 != t && t2.filePath == p;
      assert t2 in a + b;
    }
    assert t in a + b;
  }

  /** A clash within ts is a clash within any multiset holding ts. */
  lemma ClashGrows(m0: map<string, Payload>, ts: multiset<FileTarget>, us: multiset<FileTarget>, p: string)
    requires Clash(m0, ts, p) && ts <= us
    ensures Clash(m0, us, p)
  {
    var t :| t in ts && t.filePath == p && (p in m0 || ts[t] > 1 || exists t2 :: t2 in ts && t2 != t && t2.filePath == p);
    assert t in us;
    if p !in m0 && ts[t] <= 1 {
      var t2 :| t2 in ts && t2 != t && t2.filePath == p;
      assert t2 in us;
    }
  }

  /** The children's targets are those of any one child plus those of the rest. */
  lemma {:induction false} ChildrenSplit(u: Universe, nodes: seq<Node>, i: nat, c: WriteContext, x: Value, names: set<string>,
                                         name: string, text: Scalar -> string, d: nat)
    requires name in names
    ensures ChildrenEmit(u, nodes, i, c, x, names, text, d)
         == ChildEmit(u, nodes, i, c, x, name, text, d) + ChildrenEmit(u, nodes, i, c, x, names - {name}, text, d)
    decreases names
  {
    var n :| n in names && ChildrenEmit(u, nodes, i, c, x, names, text, d)
      == ChildEmit(u, nodes, i, c, x, n, text, d) + ChildrenEmit(u, nodes, i, c, x, names - {n}, text, d);
    if n != name {
      ChildrenSplit(u, nodes, i, c, x, names - {n}, name, text, d);
      ChildrenSplit(u, nodes, i, c, x, names - {name}, n, text, d);
      assert names - {n} - {name} == names - {name} - {n};
    }
  }

  /** A subset of the children writes a sub-multiset of the targets. */
  lemma {:induction false} ChildrenGrow(u: Universe, nodes: seq<Node>, i: nat, c: WriteContext, x: Value, small: set<string>,
                                        names: set<string>, text: Scalar -> string, d: nat)
    requires small <= names
    ensures ChildrenEmit(u, nodes, i, c, x, small, text, d) <= ChildrenEmit(u, nodes, i, c, x, names, text, d)
    decreases small
  {
    if small != {} {
      var n :| n in small;
      ChildrenSplit(u, nodes, i, c, x, small, n, text, d);
      ChildrenSplit(u, nodes, i, c, x, names, n, text, d);
      ChildrenGrow(u, nodes, i, c, x, small - {n}, names - {n}, text, d);
    }
  }

  /** The entries' targets are those of any one entry plus those of the rest. */
  lemma {:induction false} ElemsSplit(u: Universe, nodes: seq<Node>, i: nat, c: WriteContext, x: Value, keys: set<Scalar>,
                                      k: Scalar, text: Scalar -> string, d: nat)
    requires k in keys
    ensures ElemsEmit(u, nodes, i, c, x, keys, text, d)
         == ElemEmit(u, nodes, i, c, x, k, text, d) + ElemsEmit(u, nodes, i, c, x, keys - {k}, text, d)
    decreases keys
  {
    var k' :| k' in keys && ElemsEmit(u, nodes, i, c, x, keys, text, d)
      == ElemEmit(u, nodes, i, c, x, k', text, d) + ElemsEmit(u, nodes, i, c, x, keys - {k'}, text, d);
    if k' != k {
      ElemsSplit(u, nodes, i, c, x, keys - {k'}, k, text, d);
      ElemsSplit(u, nodes, i, c, x, keys - {k}, k', text, d);
      assert keys - {k'} - {k} == keys - {k} - {k'};
    }
  }

  /** A subset of the entries writes a sub-multiset of the targets. */
  lemma {:induction false} ElemsGrow(u: Universe, nodes: seq<Node>, i: nat, c: WriteContext, x: Value, small: set<Scalar>,
                                     keys: set<Scalar>, text: Scalar -> string, d: nat)
    requires small <= keys
    ensures ElemsEmit(u, nodes, i, c, x, small, text, d) <= ElemsEmit(u, nodes, i, c, x, keys, text, d)
    decreases small
  {
    if small != {} {
      var k :| k in small;
      ElemsSplit(u, nodes, i, c, x, small, k, text, d);
      ElemsSplit(u, nodes, i, c, x, keys, k, text, d);
      ElemsGrow(u, nodes, i, c, x, small - {k}, keys - {k}, text, d);
    }
  }

  /** An entry, behind its pointer and with its key set, is one level shallower than its map. */
  lemma EntryBounded(x: Value, k: Scalar, isPtr: bool, keyField: string, d: nat)
    requires k in Entries(x) && Bounded(x, d)
    ensures d > 0 && Bounded(EntryValue(Entries(x)[k], k, isPtr, keyField), d - 1)
  {
    var e := x.entries[k];
    assert Bounded(e, d - 1);
    assert Bounded(PointeeOf(e, isPtr), d - 1);
    if keyField != [] {
      WithScalarFieldBounded(PointeeOf(e, isPtr), keyField, k, d - 1);
    }
  }

  /**
   * Node.Write: node i writes value x at context c into targets, adding
   * exactly the targets Emit describes, or stopping at the first path
   * already taken.
   */
  method WriteNode(u: Universe, nodes: seq<Node>, i: nat, c: WriteContext, x: Value, key: Option<Scalar>,
                   text: Scalar -> string, targets: FileTargets, ghost d: nat) returns (err: Option<WriteError>)
    requires Walkable(nodes) && i < |nodes| && Bounded(x, d)
    modifies targets
    ensures Outcome(old(targets.contents), targets.contents, Emit(u, nodes, i, c, x, key, text, d), err)
    decreases d, 4
  {
    match nodes[i].kind
    case StructKind(_, _) =>
      err := WriteStruct(u, nodes, i, c, x, key, text, targets, d);
    case MapKind(_, _, _, _) =>
      err := WriteMap(u, nodes, i, c, x, key, text, targets, d);
    case _ =>
      // FileNode.Write and the slice node write nothing.
      err := None;
      WroteNothing(targets.contents);
  }

  /**
   * StructNode.WriteTargets: the node's own file at c's path holding its
   * aggregated fields, then each child at its fixed path name. An absent
   * value writes only the own file, with no payload.
   */
  method WriteStruct(u: Universe, nodes: seq<Node>, i: nat, c: WriteContext, x: Value, key: Option<Scalar>,
                     text: Scalar -> string, targets: FileTargets, ghost d: nat) returns (err: Option<WriteError>)
    requires Walkable(nodes) && i < |nodes| && nodes[i].kind.StructKind? && Bounded(x, d)
    modifies targets
    ensures Outcome(old(targets.contents), targets.contents, Emit(u, nodes, i, c, x, key, text, d), err)
    decreases d, 3
  {
    ghost var m0 := targets.contents;
    var self := FileTarget(WritePath(c), PrepareFileData(nodes[i].kind.fields, x));
    var e := targets.Add([self]);
    AddOne(m0, self);
    if e.Some? {
      SelfRefused(m0, Emit(u, nodes, i, c, x, key, text, d), self);
      return Some(WritingSelf(e.value));
    }
    WroteOne(m0, self);
    if !x.Struct? {
      StructDone(u, nodes, i, c, x, key, text, d, m0, targets.contents, targets.contents, None);
      return None;
    }
    ghost var m1 := targets.contents;
    err := WriteChildren(u, nodes, i, c, x, text, targets, d);
    StructDone(u, nodes, i, c, x, key, text, d, m0, m1, targets.contents, err);
  }

  /** The loop of StructNode.WriteTargets: every child of node i, in any order. */
  method WriteChildren(u: Universe, nodes: seq<Node>, i: nat, c: WriteContext, x: Value,
                       text: Scalar -> string, targets: FileTargets, ghost d: nat) returns (err: Option<WriteError>)
    requires Walkable(nodes) && i < |nodes| && nodes[i].kind.StructKind? && Bounded(x, d) && x.Struct?
    modifies targets
    ensures d > 0
    ensures Outcome(old(targets.contents), targets.contents, ChildrenEmit(u, nodes, i, c, x, nodes[i].kind.children.Keys, text, d), err)
    ensures err.Some? ==> err.value.WritingChild?
    decreases d, 2
  {
    ghost var m0 := targets.contents;
    var children := nodes[i].kind.children;
    var remaining := children.Keys;
    ghost var done: set<string> := {};
    WroteNothing(m0);
    while remaining != {}
      invariant remaining <= children.Keys && done == children.Keys - remaining
      invariant Wrote(m0, targets.contents, ChildrenEmit(u, nodes, i, c, x, done, text, d))
      decreases remaining
    {
      var name :| name in remaining;
      err := WriteChild(u, nodes, i, c, x, name, text, targets, d, m0, done);
      if err.Some? {
        ChildrenStopped(u, nodes, i, c, x, text, d, done + {name}, m0, targets.contents, err);
        return;
      }
      MoveOne(children.Keys, done, remaining, name);
      done := done + {name};
      remaining := remaining - {name};
    }
    assert done == children.Keys;
    return None;
  }

  /** Moving one name from the remaining children to the written ones keeps the two apart. */
  lemma MoveOne(all: set<string>, done: set<string>, remaining: set<string>, name: string)
    requires remaining <= all && done == all - remaining && name in remaining
    ensures remaining - {name} <= all && done + {name} == all - (remaining - {name})
  {
  }

  /** A failed child ends the loop: the outcome then stands for all the children. */
  lemma ChildrenStopped(u: Universe, nodes: seq<Node>, i: nat, c: WriteContext, x: Value, text: Scalar -> string, d: nat,
                        done: set<string>, m0: map<string, Payload>, m1: map<string, Payload>, err: Option<WriteError>)
    requires i < |nodes| && nodes[i].kind.StructKind? && done <= nodes[i].kind.children.Keys
    requires Outcome(m0, m1, ChildrenEmit(u, nodes, i, c, x, done, text, d), err) && err.Some?
    ensures Outcome(m0, m1, ChildrenEmit(u, nodes, i, c, x, nodes[i].kind.children.Keys, text, d), err)
  {
    ChildrenGrow(u, nodes, i, c, x, done, nodes[i].kind.children.Keys, text, d);
    OutcomeGrows(m0, m1, ChildrenEmit(u, nodes, i, c, x, done, text, d),
                 ChildrenEmit(u, nodes, i, c, x, nodes[i].kind.children.Keys, text, d), err);
  }

  /** A write that follows a successful one: both taken together. */
  lemma OutcomeAfter(m0: map<string, Payload>, m1: map<string, Payload>, m2: map<string, Payload>,
                     a: multiset<FileTarget>, b: multiset<FileTarget>, err: Option<WriteError>)
    requires Wrote(m0, m1, a) && Outcome(m1, m2, b, err)
    ensures Outcome(m0, m2, a + b, err)
  {
    if err.Some? {
      ClashAfter(m0, m1, a, b, RootCause(err.value).path);
    } else {
      WroteCompose(m0, m1, m2, a, b);
    }
  }

  /**
   * A struct node that wrote its own file, then (for a struct value) its
   * children with the given outcome, has the outcome Emit describes.
   */
  lemma StructDone(u: Universe, nodes: seq<Node>, i: nat, c: WriteContext, x: Value, key: Option<Scalar>,
                   text: Scalar -> string, d: nat, m0: map<string, Payload>, m1: map<string, Payload>, m2: map<string, Payload>,
                   err: Option<WriteError>)
    requires Walkable(nodes) && i < |nodes| && nodes[i].kind.StructKind? && Bounded(x, d)
    requires Wrote(m0, m1, multiset{FileTarget(WritePath(c), PrepareFileData(nodes[i].kind.fields, x))})
    requires !x.Struct? ==> m2 == m1 && err.None?
    requires x.Struct? ==> Outcome(m1, m2, ChildrenEmit(u, nodes, i, c, x, nodes[i].kind.children.Keys, text, d), err)
    ensures Outcome(m0, m2, Emit(u, nodes, i, c, x, key, text, d), err)
  {
    var self := multiset{FileTarget(WritePath(c), PrepareFileData(nodes[i].kind.fields, x))};
    if x.Struct? {
      OutcomeAfter(m0, m1, m2, self, ChildrenEmit(u, nodes, i, c, x, nodes[i].kind.children.Keys, text, d), err);
    } else {
      assert self + multiset{} == self;
    }
  }

  /** A target whose path is taken clashes within any multiset holding it. */
  lemma SelfRefused(m0: map<string, Payload>, ts: multiset<FileTarget>, self: FileTarget)
    requires self in ts && self.filePath in m0
    ensures Clash(m0, ts, self.filePath)
  {
  }

  /** A failed write's clash stays a clash in a larger multiset of targets. */
  lemma OutcomeGrows(m0: map<string, Payload>, m1: map<string, Payload>, ts: multiset<FileTarget>, us: multiset<FileTarget>,
                     err: Option<WriteError>)
    requires Outcome(m0, m1, ts, err) && err.Some? && ts <= us
    ensures Outcome(m0, m1, us, err)
  {
    ClashGrows(m0, ts, us, RootCause(err.value).path);
  }

  /** After the children in done, one more child's outcome is the outcome for done and that child. */
  lemma ChildStep(u: Universe, nodes: seq<Node>, i: nat, c: WriteContext, x: Value, name: string,
                  text: Scalar -> string, d: nat, done: set<string>,
                  m0: map<string, Payload>, m1: map<string, Payload>, m2: map<string, Payload>, r: Option<WriteError>)
    requires i < |nodes| && nodes[i].kind.StructKind? && name in nodes[i].kind.children
    requires nodes[i].kind.children[name] < |nodes| && d > 0 && name !in done
    requires Wrote(m0, m1, ChildrenEmit(u, nodes, i, c, x, done, text, d))
    requires var ci := nodes[i].kind.children[name];
      Outcome(m1, m2, Emit(u, nodes, ci, PushWrite(c, FixedPathName(nodes[ci])), PointeeOf(Field(x, name), nodes[ci].id.isPtr), None, text, d - 1), r)
    ensures Outcome(m0, m2, ChildrenEmit(u, nodes, i, c, x, done + {name}, text, d), Wrapped(name, r))
  {
    ghost var before := ChildrenEmit(u, nodes, i, c, x, done, text, d);
    ghost var one := ChildEmit(u, nodes, i, c, x, name, text, d);
    ChildEmitOf(u, nodes, i, c, x, name, text, d);
    ChildrenSplit(u, nodes, i, c, x, done + {name}, name, text, d);
    assert done + {name} - {name} == done;
    assert before + one == ChildrenEmit(u, nodes, i, c, x, done + {name}, text, d);
    OutcomeAfter(m0, m1, m2, before, one, r);
    if r.Some? {
      assert RootCause(Wrapped(name, r).value) == RootCause(r.value);
    }
  }

  /** A child's error, reported as the error of writing that child. */
  function Wrapped(name: string, e: Option<WriteError>): (r: Option<WriteError>)
    ensures r.Some? <==> e.Some?
    ensures r.Some? ==> r.value.WritingChild? && r.value.name == name && RootCause(r.value) == RootCause(e.value)
  {
    if e.Some? then Some(WritingChild(name, e.value)) else None
  }

  /** One step of WriteTargets' loop: the child name written after the children in done. */
  method WriteChild(u: Universe, nodes: seq<Node>, i: nat, c: WriteContext, x: Value, name: string,
                    text: Scalar -> string, targets: FileTargets, ghost d: nat,
                    ghost m0: map<string, Payload>, ghost done: set<string>)
    returns (err: Option<WriteError>)
    requires Walkable(nodes) && i < |nodes| && nodes[i].kind.StructKind? && Bounded(x, d) && x.Struct?
    requires name in nodes[i].kind.children && done <= nodes[i].kind.children.Keys && name !in done
    requires Wrote(m0, targets.contents, ChildrenEmit(u, nodes, i, c, x, done, text, d))
    modifies targets
    ensures Outcome(m0, targets.contents, ChildrenEmit(u, nodes, i, c, x, done + {name}, text, d), err)
    ensures err.Some? ==> err.value.WritingChild? && err.value.name == name
    decreases d, 1
  {
    ghost var m1 := targets.contents;
    var ci := nodes[i].kind.children[name];
    var child := nodes[ci];
    FieldBounded(x, name, child.id.isPtr, d);
    var e := WriteNode(u, nodes, ci, PushWrite(c, FixedPathName(child)), PointeeOf(Field(x, name), child.id.isPtr), None, text, targets, d - 1);
    ChildStep(u, nodes, i, c, x, name, text, d, done, m0, m1, targets.contents, e);
    err := Wrapped(name, e);
  }

  /** Emit for a map node: nothing when skipped or empty, else the targets of all its entries. */
  lemma MapEmit(u: Universe, nodes: seq<Node>, i: nat, c: WriteContext, x: Value, key: Option<Scalar>,
                text: Scalar -> string, d: nat)
    requires Walkable(nodes) && i < |nodes| && nodes[i].kind.MapKind? && Bounded(x, d)
    ensures (key.None? && (x == Invalid || x == Nil)) || Entries(x) == map[] ==> Emit(u, nodes, i, c, x, key, text, d) == multiset{}
    ensures !(key.None? && (x == Invalid || x == Nil)) && Entries(x) != map[] ==>
      d > 0 && Emit(u, nodes, i, c, x, key, text, d) == ElemsEmit(u, nodes, i, c, x, Entries(x).Keys, text, d)
  {
  }

  /**
   * MapNode.WriteTargets: nothing when the map should not be written;
   * otherwise each entry, its key first set into the element's key field,
   * at the entry's marshalled key.
   */
  method WriteMap(u: Universe, nodes: seq<Node>, i: nat, c: WriteContext, x: Value, key: Option<Scalar>,
                  text: Scalar -> string, targets: FileTargets, ghost d: nat) returns (err: Option<WriteError>)
    requires Walkable(nodes) && i < |nodes| && nodes[i].kind.MapKind? && Bounded(x, d)
    modifies targets
    ensures Outcome(old(targets.contents), targets.contents, Emit(u, nodes, i, c, x, key, text, d), err)
    decreases d, 3
  {
    MapEmit(u, nodes, i, c, x, key, text, d);
    WroteNothing(targets.contents);
    var b := new Box(x);
    // a map node's zero value is the nil map
    var v := Val(Nil, b, key, false);
    if !ShouldWrite(v) {
      return None;
    }
    var elemZero := ZeroOf(u, nodes[nodes[i].kind.elem].id.typ);
    var elems := MapElements(v, elemZero, ElemIsPtr(nodes, i));
    if elems == [] {
      return None;
    }
    err := WriteEntries(u, nodes, i, c, x, elems, elemZero, text, targets, d, set l | 0 <= l < |elems| && elems[l].ptr != null :: elems[l].ptr);
  }

  /** The loop of MapNode.WriteTargets: the handles of all entries, in the order given. */
  method WriteEntries(u: Universe, nodes: seq<Node>, i: nat, c: WriteContext, x: Value, elems: seq<Val>, elemZero: Value,
                      text: Scalar -> string, targets: FileTargets, ghost d: nat, ghost boxes: set<Box>)
    returns (err: Option<WriteError>)
    requires Walkable(nodes) && i < |nodes| && nodes[i].kind.MapKind? && Bounded(x, d)
    requires forall l :: 0 <= l < |elems| && elems[l].ptr != null ==> elems[l].ptr in boxes
    requires forall l :: 0 <= l < |elems| ==> HandlesEntry(elems[l], Entries(x), elemZero, ElemIsPtr(nodes, i))
    requires forall l :: 0 <= l < |elems| ==> elems[l].key.Some? && elems[l].key.value in Entries(x)
    requires forall l, l' :: 0 <= l < l' < |elems| ==> elems[l].key != elems[l'].key
    requires forall k :: k in Entries(x) ==> exists l :: 0 <= l < |elems| && elems[l].key == Some(k)
    requires forall l, l' :: 0 <= l < l' < |elems| && elems[l].ptr != null ==> elems[l].ptr != elems[l'].ptr
    modifies targets, boxes
    ensures Outcome(old(targets.contents), targets.contents, ElemsEmit(u, nodes, i, c, x, Entries(x).Keys, text, d), err)
    decreases d, 2
  {
    ghost var m0 := targets.contents;
    WroteNothing(m0);
    var j := 0;
    while j < |elems|
      invariant j <= |elems|
      invariant forall l :: j <= l < |elems| ==> Pointee(elems[l]) == PointeeOf(Entries(x)[elems[l].key.value], ElemIsPtr(nodes, i))
      invariant Wrote(m0, targets.contents, ElemsEmit(u, nodes, i, c, x, SeenKeys(elems, j), text, d))
    {
      err := WriteEntry(u, nodes, i, c, x, elems, j, text, targets, d, m0);
      if err.Some? {
        EntriesStopped(u, nodes, i, c, x, text, d, SeenKeys(elems, j + 1), m0, targets.contents, err);
        return;
      }
      j := j + 1;
    }
    AllKeysSeen(elems, Entries(x));
    return None;
  }

  /** The keys of the first j handles. */
  ghost function SeenKeys(elems: seq<Val>, j: nat): (r: set<Scalar>)
    requires j <= |elems|
    ensures forall k :: k in r ==> exists l :: 0 <= l < j && elems[l].key == Some(k)
    decreases j
  {
    if j == 0 then {}
    else SeenKeys(elems, j - 1) + (if elems[j - 1].key.Some? then {elems[j - 1].key.value} else {})
  }

  /** Handle j's key is new after the first j handles, and joins them. */
  lemma {:induction false} KeyStep(elems: seq<Val>, j: nat, m: map<Scalar, Value>)
    requires j < |elems|
    requires forall l :: 0 <= l < |elems| ==> elems[l].key.Some? && elems[l].key.value in m
    requires forall l, l' :: 0 <= l < l' < |elems| ==> elems[l].key != elems[l'].key
    ensures elems[j].key.value !in SeenKeys(elems, j)
    ensures SeenKeys(elems, j + 1) == SeenKeys(elems, j) + {elems[j].key.value}
    ensures SeenKeys(elems, j + 1) <= m.Keys
  {
    SeenWithin(elems, j + 1, m);
  }

  lemma {:induction false} SeenWithin(elems: seq<Val>, j: nat, m: map<Scalar, Value>)
    requires j <= |elems|
    requires forall l :: 0 <= l < |elems| ==> elems[l].key.Some? && elems[l].key.value in m
    ensures SeenKeys(elems, j) <= m.Keys
    decreases j
  {
    if j > 0 {
      SeenWithin(elems, j - 1, m);
    }
  }

  /** Once the loop has seen every handle, it has seen every key of the map. */
  lemma {:induction false} AllKeysSeen(elems: seq<Val>, m: map<Scalar, Value>)
    requires forall l :: 0 <= l < |elems| ==> elems[l].key.Some? && elems[l].key.value in m
    requires forall k :: k in m ==> exists l :: 0 <= l < |elems| && elems[l].key == Some(k)
    ensures SeenKeys(elems, |elems|) == m.Keys
  {
    SeenWithin(elems, |elems|, m);
    forall k | k in m ensures k in SeenKeys(elems, |elems|) {
      var l :| 0 <= l < |elems| && elems[l].key == Some(k);
      SeenHas(elems, l, |elems|);
    }
  }

  lemma {:induction false} SeenHas(elems: seq<Val>, l: nat, j: nat)
    requires l < j <= |elems| && elems[l].key.Some?
    ensures elems[l].key.value in SeenKeys(elems, j)
    decreases j
  {
    if l < j - 1 {
      SeenHas(elems, l, j - 1);
    }
  }

  /** A failure after the entries under done is a failure of the whole map. */
  lemma EntriesStopped(u: Universe, nodes: seq<Node>, i: nat, c: WriteContext, x: Value, text: Scalar -> string, d: nat,
                       done: set<Scalar>, m0: map<string, Payload>, m1: map<string, Payload>, err: Option<WriteError>)
    requires done <= Entries(x).Keys
    requires Outcome(m0, m1, ElemsEmit(u, nodes, i, c, x, done, text, d), err) && err.Some?
    ensures Outcome(m0, m1, ElemsEmit(u, nodes, i, c, x, Entries(x).Keys, text, d), err)
  {
    ElemsGrow(u, nodes, i, c, x, done, Entries(x).Keys, text, d);
    OutcomeGrows(m0, m1, ElemsEmit(u, nodes, i, c, x, done, text, d), ElemsEmit(u, nodes, i, c, x, Entries(x).Keys, text, d), err);
  }

  /** After the entries under done, one more entry's outcome is the outcome for done and that entry. */
  lemma EntryStep(u: Universe, nodes: seq<Node>, i: nat, c: WriteContext, x: Value, k: Scalar,
                  text: Scalar -> string, d: nat, done: set<Scalar>,
                  m0: map<string, Payload>, m1: map<string, Payload>, m2: map<string, Payload>, r: Option<WriteError>)
    requires i < |nodes| && nodes[i].kind.MapKind? && nodes[i].kind.marshal != NoMarshal && k in Entries(x) && d > 0
    requires k !in done
    requires Wrote(m0, m1, ElemsEmit(u, nodes, i, c, x, done, text, d))
    requires Outcome(m1, m2, Emit(u, nodes, nodes[i].kind.elem, PushWrite(c, EntrySegment(nodes[i], k, text)),
                                  EntryValue(Entries(x)[k], k, ElemIsPtr(nodes, i), KeyFieldOf(nodes[i])), Some(k), text, d - 1), r)
    ensures Outcome(m0, m2, ElemsEmit(u, nodes, i, c, x, done + {k}, text, d), r)
  {
    ghost var before := ElemsEmit(u, nodes, i, c, x, done, text, d);
    ghost var one := ElemEmit(u, nodes, i, c, x, k, text, d);
    ElemEmitOf(u, nodes, i, c, x, k, text, d);
    ElemsSplit(u, nodes, i, c, x, done + {k}, k, text, d);
    assert done + {k} - {k} == done;
    assert before + one == ElemsEmit(u, nodes, i, c, x, done + {k}, text, d);
    OutcomeAfter(m0, m1, m2, before, one, r);
  }

  /**
   * SetKeyFunc, called on the handle elems[j]: its element learns its
   * key. Only that element's storage changes, so the later handles still
   * handle their entries.
   */
  method SetEntryKey(elems: seq<Val>, j: nat, ghost m: map<Scalar, Value>, ghost isPtr: bool, keyField: string)
    requires j < |elems|
    requires forall l :: 0 <= l < |elems| ==> elems[l].key.Some? && elems[l].key.value in m
    requires forall l :: j <= l < |elems| ==> Pointee(elems[l]) == PointeeOf(m[elems[l].key.value], isPtr)
    requires forall l, l' :: 0 <= l < l' < |elems| && elems[l].ptr != null ==> elems[l].ptr != elems[l'].ptr
    modifies elems[j].ptr
    ensures Pointee(elems[j]) == EntryValue(m[elems[j].key.value], elems[j].key.value, isPtr, keyField)
    ensures forall l :: j < l < |elems| ==> Pointee(elems[l]) == PointeeOf(m[elems[l].key.value], isPtr)
  {
    var e := elems[j];
    var k := e.key.value;
    if keyField != [] && e.ptr != null {
      e.ptr.value := WithField(e.ptr.value, keyField, Prim(k));
    }
  }

  /**
   * One step of WriteTargets' loop: the key of handle elems[j] set into
   * its element, which is then written after the first j entries.
   */
  method WriteEntry(u: Universe, nodes: seq<Node>, i: nat, c: WriteContext, x: Value, elems: seq<Val>, j: nat,
                    text: Scalar -> string, targets: FileTargets, ghost d: nat, ghost m0: map<string, Payload>)
    returns (err: Option<WriteError>)
    requires Walkable(nodes) && i < |nodes| && nodes[i].kind.MapKind? && Bounded(x, d) && j < |elems|
    requires forall l :: 0 <= l < |elems| ==> elems[l].key.Some? && elems[l].key.value in Entries(x)
    requires forall l, l' :: 0 <= l < l' < |elems| ==> elems[l].key != elems[l'].key
    requires forall l, l' :: 0 <= l < l' < |elems| && elems[l].ptr != null ==> elems[l].ptr != elems[l'].ptr
    requires forall l :: j <= l < |elems| ==> Pointee(elems[l]) == PointeeOf(Entries(x)[elems[l].key.value], ElemIsPtr(nodes, i))
    requires Wrote(m0, targets.contents, ElemsEmit(u, nodes, i, c, x, SeenKeys(elems, j), text, d))
    modifies targets, elems[j].ptr
    ensures Outcome(m0, targets.contents, ElemsEmit(u, nodes, i, c, x, SeenKeys(elems, j + 1), text, d), err)
    ensures forall l :: j < l < |elems| ==> Pointee(elems[l]) == PointeeOf(Entries(x)[elems[l].key.value], ElemIsPtr(nodes, i))
    ensures SeenKeys(elems, j + 1) <= Entries(x).Keys
    decreases d, 1
  {
    var k := elems[j].key.value;
    KeyStep(elems, j, Entries(x));
    SetEntryKey(elems, j, Entries(x), ElemIsPtr(nodes, i), KeyFieldOf(nodes[i]));
    err := WriteElem(u, nodes, i, c, x, k, Pointee(elems[j]), text, targets, d, m0, SeenKeys(elems, j));
  }

  /**
   * One step of WriteTargets' loop: the entry under k, holding v, written
   * at its marshalled key after the keys in done.
   */
  method WriteElem(u: Universe, nodes: seq<Node>, i: nat, c: WriteContext, x: Value, k: Scalar, v: Value,
                   text: Scalar -> string, targets: FileTargets, ghost d: nat,
                   ghost m0: map<string, Payload>, ghost done: set<Scalar>)
    returns (err: Option<WriteError>)
    requires Walkable(nodes) && i < |nodes| && nodes[i].kind.MapKind? && Bounded(x, d)
    requires k in Entries(x) && k !in done
    requires v == EntryValue(Entries(x)[k], k, ElemIsPtr(nodes, i), KeyFieldOf(nodes[i]))
    requires Wrote(m0, targets.contents, ElemsEmit(u, nodes, i, c, x, done, text, d))
    modifies targets
    ensures Outcome(m0, targets.contents, ElemsEmit(u, nodes, i, c, x, done + {k}, text, d), err)
    ensures err.Some? ==> err.value.WritingMapIndex? && err.value.key == k
    decreases d, 0
  {
    ghost var m1 := targets.contents;
    EntryBounded(x, k, ElemIsPtr(nodes, i), KeyFieldOf(nodes[i]), d);
    var r := WriteNode(u, nodes, nodes[i].kind.elem, PushWrite(c, EntrySegment(nodes[i], k, text)), v, Some(k),
                       text, targets, d - 1);
    EntryStep(u, nodes, i, c, x, k, text, d, done, m0, m1, targets.contents, r);
    if r.Some? {
      return Some(WritingMapIndex(k, r.value));
    }
    return None;
  }
}

=== FILE: write_properties.dfy ===
/**
 * What the write walk of struct.go and map.go promises about the targets
 * one node writes, stated on Emit: a struct writes its own file first and
 * the targets of every child below it; a map writes the targets of every
 * entry at the entry's marshalled key; the other nodes write nothing.
 */
module WriteProperties {
  import opened Wrappers
  import opened Types
  import opened Values
  import opened Nodes
  import opened Contexts
  import opened FileTargetSets
  import opened Vals
  import opened Writes

  /**
   * A struct node writes one target at its context's path holding the
   * values of its aggregated fields; an absent value gives a nil payload,
   * and a value that is not a struct writes no child.
   */
  lemma StructWritesSelf(u: Universe, nodes: seq<Node>, i: nat, c: WriteContext, x: Value, key: Option<Scalar>,
                         text: Scalar -> string, d: nat)
    requires i < |nodes| && nodes[i].kind.StructKind?
    ensures FileTarget(WritePath(c), PrepareFileData(nodes[i].kind.fields, x)) in Emit(u, nodes, i, c, x, key, text, d)
    ensures x == Invalid ==> Emit(u, nodes, i, c, x, key, text, d) == multiset{FileTarget(WritePath(c), NilPayload)}
    ensures !x.Struct? ==> Emit(u, nodes, i, c, x, key, text, d) == multiset{FileTarget(WritePath(c), PrepareFileData(nodes[i].kind.fields, x))}
  {
  }

  /**
   * Every child of a struct value is written below the struct: the
   * child's own targets, for the field's value at the child's fixed path
   * name, are among the struct's.
   */
  lemma ChildTargetsIncluded(u: Universe, nodes: seq<Node>, i: nat, c: WriteContext, x: Value, key: Option<Scalar>,
                             name: string, text: Scalar -> string, d: nat)
    requires Walkable(nodes) && i < |nodes| && nodes[i].kind.StructKind? && name in nodes[i].kind.children
    requires x.Struct? && d > 0
    ensures var ci := nodes[i].kind.children[name];
      Emit(u, nodes, ci, PushWrite(c, FixedPathName(nodes[ci])), PointeeOf(Field(x, name), nodes[ci].id.isPtr), None, text, d - 1)
      <= Emit(u, nodes, i, c, x, key, text, d)
  {
    var names := nodes[i].kind.children.Keys;
    ChildrenSplit(u, nodes, i, c, x, names, name, text, d);
    ChildEmitOf(u, nodes, i, c, x, name, text, d);
  }

  /**
   * Every entry of a map that is written is written at its marshalled key,
   * behind its pointer, with the key set into the element's key field: the
   * element node's targets for it are among the map's.
   */
  lemma EntryTargetsIncluded(u: Universe, nodes: seq<Node>, i: nat, c: WriteContext, x: Value, key: Option<Scalar>,
                             k: Scalar, text: Scalar -> string, d: nat)
    requires Walkable(nodes) && i < |nodes| && nodes[i].kind.MapKind?
    requires !(key.None? && (x == Invalid || x == Nil)) && k in Entries(x) && d > 0
    ensures Emit(u, nodes, nodes[i].kind.elem, PushWrite(c, EntrySegment(nodes[i], k, text)),
                 EntryValue(Entries(x)[k], k, ElemIsPtr(nodes, i), KeyFieldOf(nodes[i])), Some(k), text, d - 1)
      <= Emit(u, nodes, i, c, x, key, text, d)
  {
    ElemsSplit(u, nodes, i, c, x, Entries(x).Keys, k, text, d);
    ElemEmitOf(u, nodes, i, c, x, k, text, d);
  }

  /**
   * The entry an element node writes carries its map key in the key
   * field, when the element is a struct that has one; every other field is
   * the entry's own.
   */
  lemma EntryCarriesKey(e: Value, k: Scalar, isPtr: bool, keyField: string)
    requires keyField != [] && PointeeOf(e, isPtr).Struct? && keyField in PointeeOf(e, isPtr).fields
    ensures Field(EntryValue(e, k, isPtr, keyField), keyField) == Prim(k)
    ensures forall other :: other != keyField ==> Field(EntryValue(e, k, isPtr, keyField), other) == Field(PointeeOf(e, isPtr), other)
  {
  }

  /** A map that should not be written (no key, and absent or nil) writes nothing. */
  lemma SkippedMapWritesNothing(u: Universe, nodes: seq<Node>, i: nat, c: WriteContext, x: Value,
                                text: Scalar -> string, d: nat)
    requires i < |nodes| && nodes[i].kind.MapKind? && (x == Invalid || x == Nil)
    ensures Emit(u, nodes, i, c, x, None, text, d) == multiset{}
  {
  }

  /** File, slice and unset nodes write nothing of their own. */
  lemma LeafWritesNothing(u: Universe, nodes: seq<Node>, i: nat, c: WriteContext, x: Value, key: Option<Scalar>,
                          text: Scalar -> string, d: nat)
    requires i < |nodes| && (nodes[i].kind.FileKind? || nodes[i].kind.SliceKind? || nodes[i].kind.Unset?)
    ensures Emit(u, nodes, i, c, x, key, text, d) == multiset{}
  {
  }

  /**
   * The entries of a map are written at distinct paths when the keys are
   * printed with fmt.Sprint and are strings: the segment is the key itself.
   */
  lemma StringKeysDistinctSegments(n: Node, k1: Scalar, k2: Scalar, text: Scalar -> string)
    requires n.kind.MapKind? && n.kind.marshal == Sprint && k1.SString? && k2.SString?
    ensures EntrySegment(n, k1, text) == k1.s
    ensures EntrySegment(n, k1, text) == EntrySegment(n, k2, text) <==> k1 == k2
  {
  }
}
